=== FILE: README.md ===
# mtg-pd-analysis core, modelled in Dafny

This project models the data pipeline of mtg-pd-analysis. The pipeline collects Magic: the Gathering
Penny Dreadful decks from a paginated web API and cleans them. It then writes the decks to a
relational database and computes per-archetype reports from them. The model covers these parts:

- **Extraction** (`paginator.dfy`, `extractor.dfy`):
  - the `Paginator` with its retry/backoff loop, its fallback without `pageSize`, its page count and
    its spacing between calls;
  - the `Extractor` that concatenates the yielded pages, or keeps only the first page in test mode.
- **Transformation** (`transformer.dfy`, `transform_functions.dfy`):
  - the `Transformer` registry;
  - the construction that keeps configured transformations and collects source columns;
  - `execute`: restricting to the source columns, applying each registered column function,
    converting the schema's dtypes and projecting onto the schema;
  - the registered column functions themselves.
- **Aggregation** (`records.dfy`, `aggregator.dfy`, `card_tags.dfy`, `win_rate.dfy`, `deck_agg.dfy`,
  `card_agg.dfy`, `day_agg.dfy`, `manager.dfy`):
  - `Aggregator._preprocess`, which duplicates every row under the source name "Both";
  - the four report families: win rate, average deck list, per-card statistics and players per day;
  - the `AggregateManager` registry and its run over every registered aggregator, both as written
    (where the deck and card classes fail to construct) and with their construction corrected.
- **Loading** (`loader.dfy`, `source.dfy`):
  - the `Loader`, which writes people, archetypes, decks and card lines, and deletes a re-loaded
    deck's old lines before inserting the new ones;
  - the `Source` enumeration's `convert`.

Data frames are modelled as typed records (`Records.Deck`) or as maps from column name to a column of
`Values.Value` cells. Pandas operations become pure functions on sequences, sets and maps. The
environment is passed in as parameters:

- the HTTP server is a function from (request number, parameters) to a response;
- the elapsed time before each later page is a function;
- the current time and the day of an instant are parameters;
- the database is a value of `Loader.Store`.

## Model

| member | source | states |
|---|---|---|
| Pagination.Make | extract/paginator.py:20-24 | construction never keeps `page`; `pageSize` is the caller's if given, otherwise the page size; every other parameter is kept |
| Pagination.RetryLoop | extract/paginator.py:36-47 | the requests of one retry sequence go out in session order; every answer but the last is a wait status; the k-th sleep is `wait * backoff^k`; no sleep follows the last request; it stops at 200, at a non-wait status or when attempts run out |
| Pagination.GetOrRetry | extract/paginator.py:26-47 | rejects a non-positive retry count and a factor not above 1; otherwise at most `maxRetries` requests, with the retry sequence's guarantees starting at the minimum time |
| Pagination.FetchIsDefaultRetry | extract/paginator.py:30-31 | the walk's fetch is `get_or_retry` with 7 attempts and factor 2, and it never trips the argument assertions |
| Pagination.Spacing | extract/paginator.py:80-83 | the sleep before a later page is never negative and tops the elapsed time up to the minimum, exactly when it was short |
| Pagination.CeilDiv | extract/paginator.py:74 | `ceil(total / size)`: the smallest q with `total <= q * size` |
| Pagination.Open | extract/paginator.py:58-62 | a second retry sequence, without `pageSize`, is made exactly when the first does not end in 200 and `pageSize` is there to drop (without it the `pop` raises first); the first page is opened only on a 200 |
| Pagination.LaterPages | extract/paginator.py:77-90 | pages i, i+1, ... are requested in order up to the page count, each after its spacing sleep and each retry sequence starting where the previous one stopped; every yielded page is exactly what its own 200 answer holds under `objects`, with or without `total`; a failed run stops at the first page whose answer is not 200 (with that status) or has no `objects` key; a full run yields every remaining page |
| Pagination.Execute | extract/paginator.py:55-90 | a non-envelope first body is yielded alone; an unsized or empty first page, or a non-numeric total, is an error; a full run yields `max(1, ceil(total / first page size))` object lists, the first page first; page k after the first is the `objects` of the 200 answer to its own retry sequence, the sequences following each other from the request after the first page's, and a walk ended by a later page stops at that page's refused answer |
| Pagination.RateLimitedTwiceThenOk | extract/paginator.py:33-47 | two 429 answers followed by a 200 are served after exactly two sleeps, of 0.5 and then 1.0 |
| Pagination.MissingPageSizeOnlyAtOpen | extract/paginator.py:55-62 | a walk fails for a missing `pageSize` exactly when opening the first page does |
| Pagination.MadePaginatorHasFallback | extract/paginator.py:20-24 | a constructed paginator always holds `pageSize`, so dropping it in the fallback cannot fail |
| Extractor.Iterate | extract/extractor.py:29 | `list.extend` adds a list's items, a dict's keys or a string's characters; any other value is not iterable |
| Extractor.Extend | extract/extractor.py:22-29 | the objects of the pages in page order; the first non-iterable page raises |
| Extractor.FlattenConcat | extract/extractor.py:23-29 | the items of `a + b` are the items of `a` followed by the items of `b` |
| Extractor.ExtendConcat | extract/extractor.py:23-29 | extending over `a + b` succeeds exactly when it succeeds over each part, and then gives the part results one after the other |
| Extractor.Execute | extract/extractor.py:22-33 | test mode extracts only the first page; otherwise every page, and a failing walk makes the extraction fail |
| Extractor.ExhaustedWalkExtractsAll | extract/extractor.py:23-29 | over a walk that ran to its end, the result is every page's objects in order, as many as the pages hold; the first page is the opening answer's `objects` and every later page the `objects` of the server's 200 answer to that page's request |
| ColumnFunctions.IsinListColumn | transform/transform_functions.py:8-10 | defined exactly when every cell is a list, a string searched with a string, or an object searched with a hashable value; a row is true exactly when the value is an item of the list, a substring of the string, or a key of the object |
| ColumnFunctions.IsinRow | transform/transform_functions.py:10 | `value in v` on one cell: list membership, a substring test on a string (a non-string value raises), a key test on an object (a list or object value raises); any other cell raises |
| ColumnFunctions.PrependColumn | transform/transform_functions.py:28-30 | every string cell gets the prefix and missing cells stay missing; fails on any other cell |
| ColumnFunctions.PrependedContainsPrefix | transform/transform_functions.py:8-30 | after `prepend(p)` on a column of strings, `isin_list(p)` is true in every row |
| ColumnFunctions.FillnaColumn | transform/transform_functions.py:23-25 | missing cells become the value and every other cell is kept; with a non-missing value nothing is missing afterwards |
| ColumnFunctions.FillnaWith | transform/transform_functions.py:23-25 | `fillna(value)`: a missing value or a list raises; an object fills nothing; any other value fills exactly the missing cells and keeps the rest |
| ColumnFunctions.FillnaIdempotent | transform/transform_functions.py:23-25 | filling a second time with the same value changes nothing |
| ColumnFunctions.ReplaceColumn | transform/transform_functions.py:18-20 | cells equal to `before` become `after` and others are kept; with no such cell the column is unchanged |
| ColumnFunctions.RowSum | transform/transform_functions.py:43-45 | a row sums exactly when every cell is an integer, a boolean (counted as 0 or 1) or missing; a row of missing cells sums to 0 |
| ColumnFunctions.RowSumConcat | transform/transform_functions.py:43-45 | the sum of a row split in two is the sum of the parts' sums, and fails exactly when a part fails |
| ColumnFunctions.ColumnSumTable | transform/transform_functions.py:43-45 | each row of the result is that row's sum, skipping missing cells; fails exactly when some row cannot be summed |
| ColumnFunctions.RowSumOfThree | transform/transform_functions.py:43-45 | three integer cells sum to their arithmetic sum (`matches = wins + losses + draws`) |
| Transformer.Register | transform/transformer.py:10-15 | a name already registered raises; otherwise exactly that name is added and every earlier entry is kept |
| Transformer.RegisterAll | transform/transformer.py:10-15 | a run of registrations fails exactly when some name is already registered or repeats an earlier one; otherwise the registry gains exactly the new names, each mapped to its function, and earlier entries are unchanged |
| Transformer.Normalize | transform/transformer.py:34-35 | a kept transformation has its name, source and target unchanged, with missing `args`/`kwargs` empty |
| Transformer.Retained | transform/transformer.py:26-36 | entries with none of name/source/target, or a reserved name, are dropped; a kept entry without a name or a source raises; otherwise every entry is kept in order |
| Transformer.SourcesOf | transform/transformer.py:37-40 | the columns a source names: the column, or every column of the list (the corrected line 40) |
| Transformer.SourcesAsWritten | transform/transformer.py:39-40 | as written, a list source adds one-character strings: the characters of its names |
| Transformer.InitWith | transform/transformer.py:19-41 | construction succeeds exactly when the kept entries do; the source columns are the schema's names plus what every kept step's source adds, and nothing else |
| Transformer.InitKeepsStepColumns | transform/transformer.py:28-41 | with the corrected update, every column a kept step reads is a source column |
| Transformer.ListSourceAsWrittenLosesNames | transform/transformer.py:40-41 | as written, a `column_sum` over `["wins", "losses", "draws"]` adds "w" but not "wins" to the source columns |
| Transformer.Restrict | transform/transformer.py:62-63 | the frame keeps exactly the source columns it has, with their cells unchanged |
| Transformer.Bind | transform/transformer.py:75 | binding succeeds exactly when there are no more positional arguments than parameters, every keyword names a parameter left after them, and each of those parameters has a keyword; the bound values are the positional arguments, then the keywords' values in parameter order |
| Transformer.Select | transform/transformer.py:75 | `df[source]` succeeds exactly when every named column is present; a list source hands over row-wise cells |
| Transformer.ValueArg | transform/transformer.py:75 | binding the one parameter `value` succeeds exactly as `Bind` does: one positional argument or one `value=` keyword is the value, and two positional arguments raise |
| Transformer.ReplaceArgs | transform/transform_functions.py:18-20 | binds `to_replace` and `value`; with two positional arguments it succeeds exactly when neither is a list or an object, and the pair is those two arguments; a missing `to_replace` is refused by `Transformer.Apply`, which sees the column |
| Transformer.Apply | transform/transformer.py:75 | for each function, when it succeeds and what it returns: `column_sum` gives the row sums of a multi-column selection called without arguments; `isin_list`, `prepend` and `fillna` give their column function applied to the bound `value`; `replace` gives the scalar replacement of the bound pair, except that `to_replace=None` raises on a non-empty column; every result has one cell per input row |
| Transformer.ApplyStep | transform/transformer.py:64-75 | an unregistered name is skipped; otherwise the step succeeds exactly when it has a target, its source columns are present and the function succeeds; the target column then holds the function's result, every other column is unchanged and the row count is kept |
| Transformer.ApplySteps | transform/transformer.py:64-75 | steps run in list order, keeping every column and the row count; with no registered step the frame is unchanged |
| Transformer.ApplyStepsConcat | transform/transformer.py:64-75 | running two lists of steps is running the first and then the second on its result |
| Transformer.RestrictDomain | transform/transformer.py:86-88 | setting categories keeps values in the domain and makes every other value missing |
| Transformer.Convert | transform/transformer.py:83-88 | a non-object column is cast cell by cell; `astype("category")` succeeds exactly when no cell is a list or an object (unhashable) and fails with a cast error otherwise; with categories every cell outside them becomes missing, without them the column is kept |
| Transformer.ConvertColumns | transform/transformer.py:76-89 | succeeds exactly when every non-object schema column is present and converts; each such column becomes its conversion and every other column is kept |
| Transformer.Project | transform/transformer.py:90-91 | the output has exactly the schema's columns, in schema order; it fails exactly when one is absent |
| Transformer.Execute | transform/transformer.py:60-91 | succeeds exactly when the steps succeed, they produce every schema column, and every non-object column converts; the output has the schema's columns in schema order, one cell per input row, each non-object column the conversion of the transformed column and each object column the transformed column itself; categorical columns stay in their domain |
| Transformer.MatchesInit | transform/transformer.py:19-41 | the configured `column_sum` entry over wins, losses and draws builds a transformer whose one step is that entry and whose source columns include the three counts |
| Transformer.MatchesStepSums | transform/transformer.py:64-75 | that step writes into `matches` the row-wise sum of the three integer columns |
| Transformer.MatchesSumResults | transform/transformer.py:60-91 | end to end, `execute` with that entry and an object `matches` column outputs exactly the column `matches`, each row holding `wins + losses + draws` |
| Transformer.ObjectSchemaKeeps | transform/transformer.py:76-91 | with a schema of object columns only, `execute` outputs the transformed columns unconverted, in schema order |
| Records.GroupRows | aggregate/agg_arch_win_rate.py:24 | a group holds only rows with its key and every row with its key; it is empty only when no row has that key |
| Records.GroupRowsCount | aggregate/agg_arch_win_rate.py:24 | a row occurs in its key's group as many times as among the rows, and in no other group |
| Records.GroupRowsConcat | aggregate/agg_arch_win_rate.py:24 | grouping a concatenation concatenates the groups, so a group keeps the input order |
| Records.GroupKeys | aggregate/agg_arch_win_rate.py:24 | `observed=True` groups: exactly the keys some row carries |
| Records.MoreMatchesThan | aggregate/agg_arch_win_rate.py:23 | no longer than the rows; every kept row is one of the rows and has more matches than the threshold, and every such row is kept |
| Records.MoreMatchesThanCount | aggregate/agg_arch_win_rate.py:23 | a row with more matches than the threshold is kept as many times as it occurs, any other row never |
| Records.MoreMatchesThanConcat | aggregate/agg_arch_win_rate.py:23 | filtering a concatenation concatenates the filtered parts, so the kept rows keep the input order |
| Aggregation.Construct | aggregate/aggregator.py:7-10 | the two-field dataclass is built exactly from two positional arguments |
| Aggregation.Missing | aggregate/aggregator.py:13 | the selected columns the frame lacks; empty exactly when all are present |
| Aggregation.Preprocess | aggregate/aggregator.py:12-19 | a missing selected column raises; otherwise the projection, preceded by a "Both"-labelled copy of every row when the source name is selected |
| Aggregation.WithBoth | aggregate/aggregator.py:14-18 | twice the rows: first each record relabelled "Both", then the records themselves |
| Aggregation.WithBothIsPreprocess | aggregate/aggregator.py:12-19 | the typed duplication equals `_preprocess` on the records' cells |
| Aggregation.KeysOfWithBoth | aggregate/aggregator.py:14-18 | the groups after duplication are each record's own key and its "Both" key |
| WinRate.ConstructionSucceeds | aggregate/agg_arch_win_rate.py:11-19 | the win-rate aggregator is built from both fields and selects the source name |
| WinRate.PersonsAtMostDecks | aggregate/agg_arch_win_rate.py:25-26 | a group never has more distinct players than decks |
| WinRate.Rate | aggregate/agg_arch_win_rate.py:30-31 | the quotient times the denominator is the numerator; a part of a whole lies in [0, 1], strictly inside when it is neither |
| WinRate.Summarize | aggregate/agg_arch_win_rate.py:24-31 | a group's players, decks, summed wins and matches; `winRate` is wins over matches and `smoothedWinRate` is (wins+1)/(matches+2) |
| WinRate.Execute | aggregate/agg_arch_win_rate.py:21-32 | one row per own or "Both" key of a deck with more than two matches; each row is the summary of its group of eligible rows (players, decks, summed wins and matches, raw and smoothed win rates), with at least three matches per deck and between one and `decks` players |
| WinRate.KeysOfEligible | aggregate/agg_arch_win_rate.py:22-24 | the groups are the keys fed by eligible decks, stated over the original decks |
| WinRate.SingleDeckExample | aggregate/agg_arch_win_rate.py:21-32 | one League deck with 3 wins in 4 matches gives a League row and a "Both" row, each 0.75 raw and 4/6 smoothed |
| CardTags.ExpandEntry | aggregate/agg_arch_deck.py:41-43 | an entry of n copies gives the n tags `name 00`, `name 01`, ...; none when n is not positive |
| CardTags.ExpandCards | aggregate/agg_arch_deck.py:41-43 | one tag per copy over all entries, and every copy has its tag |
| CardTags.Pad2RoundTrip | aggregate/agg_arch_deck.py:43 | the zero-padded index reads back as the index |
| CardTags.Pad2Injective | aggregate/agg_arch_deck.py:43 | distinct copies get distinct tags |
| CardTags.StripTag | aggregate/agg_arch_deck.py:64 | the regex removes nothing, or exactly a space followed by one or more trailing digits |
| CardTags.StripTagOfTag | aggregate/agg_arch_deck.py:43-64 | stripping a copy tag gives back the card name, whatever the name ends with |
| DeckAggregation.Weight | aggregate/agg_arch_deck.py:90-107 | the average strategy weighs by matches; net wins is wins minus losses clipped at zero |
| DeckAggregation.ExtraColumns | aggregate/agg_arch_deck.py:31-36 | the strategy's columns first, both boards always present, nothing else added |
| DeckAggregation.ConstructionAsWrittenFails | aggregate/agg_arch_deck.py:37-39 | as written, the one-argument construction raises the dataclass's argument-count error |
| DeckAggregation.Configure | aggregate/agg_arch_deck.py:26-39 | corrected: grouped by the four key columns, selecting the source name, both boards and the strategy's columns |
| DeckAggregation.Units | aggregate/agg_arch_deck.py:77-82 | every exploded row is a copy tag of some deck of the group |
| DeckAggregation.TagWeights | aggregate/agg_arch_deck.py:63 | `groupby("card").sum()`: one entry per distinct tag, with its summed weight |
| DeckAggregation.SortDesc | aggregate/agg_arch_deck.py:65 | heaviest first, a permutation of its input |
| DeckAggregation.Ranked | aggregate/agg_arch_deck.py:63-65 | every distinct tag once, heaviest first, each with its summed weight |
| DeckAggregation.TopTags | aggregate/agg_arch_deck.py:63-66 | the first `total` ranked tags: `min(total, distinct tags)` of them, each with its summed weight |
| DeckAggregation.SelectedOutweighLeftOut | aggregate/agg_arch_deck.py:65-66 | no tag left out weighs more than a selected one |
| DeckAggregation.UnitsWeight | aggregate/agg_arch_deck.py:77-82 | a tag's summed weight over the exploded rows is the sum over the group's decks of the deck's weight times its copies of that tag |
| DeckAggregation.UnitsTags | aggregate/agg_arch_deck.py:80-82 | the tags among the exploded rows are exactly the copy tags of the group's decks |
| DeckAggregation.SelectedHeaviest | aggregate/agg_arch_deck.py:46-66 | the `total` cards with the highest weights: no copy tag of the group's decks that is left out weighs more, in the decks' own weights and copies, than a selected one |
| DeckAggregation.AverageList | aggregate/agg_arch_deck.py:63-67 | a board's average list is the card names of the selected (heaviest) tags, counted; it holds `min(total, distinct tags)` cards, each listed on that board by some deck of the group |
| DeckAggregation.CopiesBounded | aggregate/agg_arch_deck.py:41-67 | no card appears in an average list more often than some deck of the group lists it |
| DeckAggregation.CountIsTagsNamed | aggregate/agg_arch_deck.py:66-67 | `value_counts` counts a card once per selected copy tag of it |
| DeckAggregation.Report | aggregate/agg_arch_deck.py:75-88 | a group's row counts its decks; its lists hold at most 60 maindeck and 15 sideboard cards |
| DeckAggregation.Execute | aggregate/agg_arch_deck.py:73-88 | one row per own or "Both" key of some deck; each row is the report of that key's group of duplicated rows: its deck count and its average maindeck and sideboard lists, within 60 + 15 cards |
| DeckAggregation.GroupsIndependent | aggregate/agg_arch_deck.py:45-70 | a group's row depends only on that group's decks |
| CardAggregation.ConstructionAsWrittenFails | aggregate/agg_arch_card.py:19-21 | as written, the one-argument construction raises the dataclass's argument-count error |
| CardAggregation.Configure | aggregate/agg_arch_card.py:14-21 | corrected: grouped by the four key columns, selecting the source name, matches, wins and the board |
| CardAggregation.CardsOf | aggregate/agg_arch_card.py:29-36 | the cards of a group are exactly those some deck of it lists on the board |
| CardAggregation.EntriesNamedPositive | aggregate/agg_arch_card.py:29-37 | a card has exploded rows exactly when some deck of the group lists it |
| CardAggregation.CardStats | aggregate/agg_arch_card.py:36-45 | include rate is decks over the group size, average number is copies over decks; the win rate is wins over matches and missing when matches are zero |
| CardAggregation.CardRowOf | aggregate/agg_arch_card.py:36-45 | a card's row counts its entries, the wins and matches of the decks listing it, and the rates over them |
| CardAggregation.GroupCards | aggregate/agg_arch_card.py:28-47 | one row per card the group lists, and no other |
| CardAggregation.IncludeRateAtMostOne | aggregate/agg_arch_card.py:42 | the inclusion rate lies in (0, 1] when no deck lists a card twice |
| CardAggregation.Execute | aggregate/agg_arch_card.py:23-50 | corrected so that each row keeps its card name: raises exactly when every deck's board is empty; otherwise one table per key whose group lists a card, mapping every card the group lists to its statistics over that group; groups without a card are skipped |
| CardAggregation.ExecuteAsWritten | aggregate/agg_arch_card.py:36-49 | as written: raises in the same cases; otherwise, for each group with a card, its card rows without their names, one per card the group lists |
| CardAggregation.AsWrittenRows | aggregate/agg_arch_card.py:36-45 | a group's nameless rows are one per card it lists, each holding exactly that card's statistics |
| CardAggregation.AsWrittenLosesCardNames | aggregate/agg_arch_card.py:36-49 | a deck listing only card `x` and the same deck listing only `y` give the same report as written, while the named report tells them apart |
| CardAggregation.CardKeysEmpty | aggregate/agg_arch_card.py:30-32 | no group reports a card exactly when every deck's board is empty |
| CardAggregation.CardsComeFromDecks | aggregate/agg_arch_card.py:29-32 | a group with a card holds a deck whose board is non-empty |
| DayAggregation.ConstructionSucceeds | scraper/aggregate/agg_arch_day.py:20-34 | the day aggregator is built from both fields and selects the source name |
| DayAggregation.Instants | scraper/aggregate/agg_arch_day.py:40-45 | `date_range`: created plus whole days, up to the last instant not after the update; empty when the update comes first |
| DayAggregation.DayKeys | scraper/aggregate/agg_arch_day.py:46-51 | exactly the (group, day) pairs on which some row with a match is active |
| DayAggregation.Counts | scraper/aggregate/agg_arch_day.py:36-55 | exactly the (group, day) pairs on which some played row is active, each with the number of distinct people active then, at least one |
| DayAggregation.Execute | scraper/aggregate/agg_arch_day.py:36-55 | raises exactly when no deck has a match and a day in its range: `ValueError` when no deck has a match, `AttributeError` when every deck with a match has an empty date range; otherwise the day counts, one per (group, day) with an active deck, each the number of distinct people active that day, at least one |
| DayAggregation.NoDaysWhenUpdatedFirst | scraper/aggregate/agg_arch_day.py:39-45 | a deck updated before it was created is never active |
| DayAggregation.BothCoversSource | scraper/aggregate/agg_arch_day.py:36-55 | every person active for a source on a day is active for "Both" on that day |
| DayAggregation.FailsIffNothingActive | scraper/aggregate/agg_arch_day.py:36-55 | the report raises exactly when no row of the duplicated frame has a match and a day in its range, and exactly when the day counts are empty |
| DayAggregation.ActiveRowReported | scraper/aggregate/agg_arch_day.py:36-55 | a row active on a day puts that (group, day) in the counts, with the number of its distinct people |
| DayAggregation.BothCountAtLeastSource | scraper/aggregate/agg_arch_day.py:36-55 | a day's "Both" count is present and at least the count of any one source that day |
| Manager.Lookup | aggregate/aggregate_manager.py:13 | the class registered under a name; none exactly when the name is not registered |
| Manager.Register | aggregate/aggregate_manager.py:15-25 | a second registration of a name raises and lists the registered names; otherwise the class is stored after every earlier entry and returned unchanged |
| Manager.RegisterAllAppends | aggregate/aggregate_manager.py:15-25 | registering distinct new names succeeds and appends them in order |
| Manager.RegisterKeepsDistinct | aggregate/aggregate_manager.py:15-25 | a successful registration keeps the registered names distinct |
| Manager.RegisterAllFromEmpty | aggregate/aggregate_manager.py:15-25 | registering distinct names into an empty registry yields exactly those entries, in order |
| Manager.DefaultRegistration | aggregate/__init__.py:2-8 | the package's six registrations all succeed, in import order |
| Manager.Instantiate | aggregate/aggregate_manager.py:30 | `agg_class()` raises the argument-count `TypeError` exactly for the deck and card classes as written; the day and win-rate classes always construct |
| Manager.Run | aggregate/aggregate_manager.py:30 | raises exactly when construction fails (the deck and card classes as written), when the day report has no deck with a match and a day in its range (with `ValueError` or `AttributeError` as the day report raises), or when a card report's board is empty in every deck; otherwise each class yields its own report: the day counts, the win-rate rows, the deck lists or the card rows |
| Manager.Completed | aggregate/aggregate_manager.py:27-31 | the number of leading registrations whose runs succeed; the next one, if any, raises |
| Manager.CompletedAt | aggregate/aggregate_manager.py:27-31 | a prefix whose runs all succeed and after which the next run raises (or the registry ends) has exactly that length |
| Manager.Execute | aggregate/aggregate_manager.py:27-31 | aggregators run in registration order and each report goes to `<name>.parquet`; exactly the leading successful runs are written, and the first run that raises stops the execution with its error |
| Manager.FilesDistinct | aggregate/aggregate_manager.py:31 | distinct names give distinct files, so no report overwrites another |
| Manager.AsWrittenStopsAtDeckConstruction | aggregate/aggregate_manager.py:27-31 | as written, with a deck that has a match and a day in its range, the run writes `archetype_day` and `archetype_win_rate` and then raises `TypeError` constructing `average_archetype_deck` |
| Manager.NoDatedDeckWritesNothing | aggregate/aggregate_manager.py:27-31 | without a deck that has a match and a day in its range the day report raises first (`ValueError` without a match, `AttributeError` otherwise), so nothing is written, under either construction |
| Manager.DefaultRunsAll | aggregate/aggregate_manager.py:27-31 | corrected construction: with a deck that has a match and a day in its range, a maindeck card and a sideboard card, all six reports are written |
| Manager.DefaultStopsAtMaindeckCards | aggregate/aggregate_manager.py:27-31 | corrected construction: with a deck that has a match and a day in its range, and no maindeck card, four reports are written and the maindeck card report raises |
| Loader.DropDuplicates | scraper/load/load.py:11-14 | the same elements without repeats and with nothing added |
| Loader.People | scraper/load/load.py:11-12 | exactly the distinct (personId, person) pairs of the batch |
| Loader.Archetypes | scraper/load/load.py:13-14 | exactly the distinct (archetypeId, archetypeName) pairs of the batch |
| Loader.DeckRowKeepsColumns | scraper/load/load.py:18 | dropping the boards and the two names loses no other column |
| Loader.DeckRows | scraper/load/load.py:18 | one keyed deck row per deck, in batch order |
| Loader.BatchIds | scraper/load/load.py:41-45 | the temporary table holds exactly the batch's deck ids |
| Loader.LinesOf | scraper/load/load.py:21-29 | one line (deck id, copies, name) per entry of the board, in board order |
| Loader.Lines | scraper/load/load.py:21-29 | one card line per card entry; an empty board gives none |
| Loader.LinesSound | scraper/load/load.py:21-29 | every line stands for a card entry of some deck of the batch |
| Loader.LinesComplete | scraper/load/load.py:21-29 | every card entry of every deck has its line |
| Loader.Upsert | scraper/load/load.py:69-71 | the table gains every key of the batch and keeps every other key |
| Loader.UpsertLast | scraper/load/load.py:69-71 | a key the batch writes holds the batch's last row with that key |
| Loader.UpsertUntouched | scraper/load/load.py:69-71 | a key the batch does not write keeps its value |
| Loader.UpsertIdempotent | scraper/load/load.py:69-71 | upserting the same rows twice is upserting them once |
| Loader.SelectMembers | scraper/load/load.py:61-67 | the delete keeps exactly the lines of decks outside the batch; the lines it removes are exactly those of batch decks |
| Loader.Existing | scraper/load/load.py:46-56 | the count is positive exactly when some batch deck is already stored |
| Loader.Load | scraper/load/load.py:10-81 | raises exactly when some board has no entry over the whole batch, leaving the decks, the card lines and the temporary table as they were; otherwise the delete is committed separately exactly when some batch deck was stored, the temporary table is gone afterwards, and the decks table gains the batch's ids |
| Loader.LoadStoresReferences | scraper/load/load.py:11-16 | every batch deck's person and archetype are stored after the load |
| Loader.LoadStoresLastRow | scraper/load/load.py:69-71 | a batch deck id holds the row of the batch's last deck with that id |
| Loader.LoadReplacesLines | scraper/load/load.py:58-77 | under the foreign keys, a completed load leaves the batch decks with exactly the batch's card lines and other decks' lines untouched; a load that raised leaves every card line where it was |
| Loader.LoadKeepsForeignKeys | scraper/load/load.py:10-81 | a load keeps every card line pointing at a stored deck and every deck at a stored person and archetype |
| Loader.LinesAfterSecondLoad | scraper/load/load.py:58-77 | under the foreign keys, a second load of the same batch leaves each card table as the first left it |
| Loader.LoadIdempotent | scraper/load/load.py:10-81 | under the foreign keys, loading the same batch twice leaves what loading it once left |
| Loader.DeleteCommittedAlone | scraper/load/load.py:58-68 | between the two commits a reader sees the batch decks with their old rows and no card lines |
| SourceEnum.Convert | scraper/database/models.py:16-23 | the member whose value is the string; none exactly when no member has that value |
| SourceEnum.ConvertValue | scraper/database/models.py:12-23 | converting a member's value gives the member back |
| SourceEnum.ValueInjective | scraper/database/models.py:12-14 | no two members share a value |

## Left out

- HTTP, the session and the headers: the server is a function of the request number and the
  parameters, and it answers with bodies that are already parsed `Values.Value`s. A 200 answer whose
  body is not JSON makes `response.json()` raise (`extract/paginator.py:63`, `:86`); that error is
  not modelled. Logging and `print_debug_progress` are left out, except for the `log10` domain error
  on a non-positive page count, which is kept.
- Sleeping and the clock: sleeps are recorded as values, and the time since the last yield is a
  parameter.
- Floating point: rates and sleeps are exact reals.
- `winRate` when a group's matches sum to zero (`inf` or `NaN` in pandas) is modelled as a missing
  value. For the win-rate report it cannot happen, because every deck has more than two matches.
- `str_replace`, `to_datetime` and `strftime` call into pandas' regex and datetime libraries. They
  are an abstract `Library` parameter that only has to return a column of the right length.
- `astype` is an abstract cast parameter.
- `datetime.now()` and the instant-to-`YYYYMMDD` conversion are parameters of the day report.
  Timestamps are integer seconds.
- Pandas categorical details are not modelled:
  - `add_categories("Both")` raising when "Both" is already a category;
  - `.cat.add_categories("Both")` raising `AttributeError` when `sourceName` is not categorical
    (`aggregate/aggregator.py:15`). The model treats `sourceName` as a plain label, so the
    duplication always succeeds;
  - unobserved categories in the deck report's `groupby`.
- The regex `$` also matches before a trailing newline. Card names are assumed to have none.
- The column order of `value_counts` and of the outer merges is not modelled. The deck report's
  lists are multisets and its rows are a map keyed by group.
- `sort_values` is not stable. Only the weight order of the selected tags is stated, not which of
  two equally heavy tags is taken.
- The database is a value: SQL, connections, psycopg2 and the `DatabaseWriter` are abstracted away.
  `load/database_writer.py` is not part of this model. Its `execute` rolls back every transaction it
  opens.
- The `res is None` check of the loader cannot fail, because a `count` query always returns a row.
- Database errors and the rollback of the `with connection` block on an exception are not modelled.
  The `decks.csv` side file is not modelled either.
- `extract/extractor.py` imports `get_paginate_response`, which `extract/paginator.py` does not
  define. The extraction is modelled over `Paginator.execute`'s walk instead.
- `aggregate/__init__.py:2` imports `aggregate/agg_arch_day.py`, which is not part of this model.
  The day aggregator is modelled from `scraper/aggregate/agg_arch_day.py` instead. The imports only
  fix the order of registration, which is the constant `Manager.Default`.
- Manager.DefaultRunsAll, Manager.DefaultStopsAtMaindeckCards: these state the run with the
  corrected construction of the deck and card classes. The run as written is stated by
  `Manager.AsWrittenStopsAtDeckConstruction`. Both lemmas need a deck with a match and a day in
  its date range, because without one the day report raises first
  (`Manager.NoDatedDeckWritesNothing`).
- IsinListColumn: list membership compares cells structurally. Python's `==` also equates `1` with
  `True`, and that is not modelled.
- IsinListColumn: the result is a fresh series indexed 0..n-1, and assigning it to the frame aligns
  by index. The model assumes the frame has its default row index, so rows line up one to one.
- RowSum: a row made only of strings is concatenated by pandas' `sum`; the model fails on any
  string cell. There are no floating-point cells in the model.
- Transformer.Apply: some argument forms fail in the model with `BadArguments`, although pandas
  accepts them:
  - `replace` with a list, an object, `regex=` or further keywords;
  - `replace` given only `to_replace`, without `value` (pandas then pads forward);
  - `fillna` with keywords other than `value` (`method`, `limit`, ...).
- Transformer.Apply: a list source (`df[[...]]`) fails with `BadArguments` for `isin_list`, `prepend`,
  `fillna` and `replace`. Pandas accepts a one-column list for `prepend`, `fillna` and `replace` and
  assigns the one-column result to the target. For `isin_list` it iterates the frame's column
  labels, and the result is aligned by index. Those forms are not modelled.
- Transformer.Apply: `prepend` with a non-string value fails in the model. Pandas' broadcasting of
  other operand types is not modelled.
- Loader.LinesOf: `load.py:26-29` renames the exploded card columns by position. The model assumes
  every card entry has exactly the keys `n` and then `name`, so the columns come out as
  (deckId, n, name). Entries with other keys, or another key order, would swap the columns or make
  the rename raise.
- The entries of a `Values.Dict` are assumed to have distinct keys, as a parsed JSON object does.
- DayAggregation.Execute: both errors follow pandas 2.x. Without a played deck the frame is empty,
  `apply(axis=1)` on it hands back a frame, and assigning a frame to one column raises `ValueError`.
  When every played deck has an empty date range, `explode` of empty lists leaves a column of
  missing objects, and `.dt` on it raises `AttributeError`.
- ReplaceColumn: cells are compared structurally. On an object column pandas compares with Python's
  `==`, which also equates `1` with `True` (and `1` with `1.0`); that is not modelled. An integer or
  boolean column is not replaced across the two types, as in the model.
- Loader.LoadReplacesLines, Loader.LoadIdempotent: proved only when the foreign keys hold beforehand.
  The database schema enforces them; without them, lines of unknown decks in the batch could survive
  a re-load.
- CardAggregation.ExecuteAsWritten: each group's rows are a multiset. The order of the concatenated
  frame (cards sorted by name within a group, groups in `groupby` order) is not modelled.
- The card reports that `Manager.Run` writes are the corrected ones keyed by card name
  (`CardAggregation.Execute`). As written, the card classes cannot be built, so no card report
  is written at all (`Manager.AsWrittenStopsAtDeckConstruction`).
- The load commits its delete on its own and only when some batch deck is already stored. It does
  no filtering by timestamp.

## Findings

| source | as written | input that shows it | evidently intended | confidence | as-written member | corrected member |
|---|---|---|---|---|---|---|
| transform/transformer.py:40 | `sources.update(*dct["source"])` unpacks the list. Every column name becomes a separate iterable, so the set gains single characters | the transformation `column_sum` over `["wins", "losses", "draws"]` with a schema that does not name `wins`: `"w"` becomes a source column and `"wins"` does not, so `execute` drops `wins` and `df[source]` raises KeyError | `sources.update(dct["source"])`: every listed column is a source column | not executed | Transformer.ListSourceAsWrittenLosesNames | Transformer.InitKeepsStepColumns |
| aggregate/agg_arch_deck.py:37-39 | `super().__init__(GROUPBY_COLUMNS + extra_columns)` passes one argument to the two-field dataclass `Aggregator` | constructing `AverageArchetypeDeckAggregator()`, which `AggregateManager.execute` does, raises TypeError | group by the four key columns and select them plus the extra columns | not executed | DeckAggregation.ConstructionAsWrittenFails | DeckAggregation.Configure |
| aggregate/agg_arch_card.py:19-21 | `super().__init__(GROUPBY_COLUMNS + extra_columns)` passes one argument to the two-field dataclass `Aggregator` | constructing `ArchetypeMaindeckAggregator()` raises TypeError | group by the four key columns and select them plus matches, wins and the board | not executed | CardAggregation.ConstructionAsWrittenFails | CardAggregation.Configure |
| aggregate/aggregate_manager.py:30 | `agg_class()` builds every registered class, and the deck and card classes raise TypeError on construction | any frame with a deck that has a match and a day in its range: `archetype_day.parquet` and `archetype_win_rate.parquet` are written, then `average_archetype_deck` raises, and the remaining four reports are never produced | every registered report is written | not executed | Manager.AsWrittenStopsAtDeckConstruction | Manager.DefaultRunsAll |
| aggregate/agg_arch_card.py:36-49 | `groupby(["card"]).agg(...)` moves the card name into the index, and `pd.concat(res_dfs, axis=0, ignore_index=True)` discards that index, so no row says which card it describes | one deck listing only card `x` on the board and the same deck listing only `y` with the same copies: the two reports are identical | keep the name as a column, for instance with `reset_index()` before the concatenation | not executed | CardAggregation.AsWrittenLosesCardNames | CardAggregation.Execute |

=== FILE: aggregator.dfy ===
/**
 * The aggregator base of `aggregate/aggregator.py`: its two-field construction and
 * `_preprocess`, which projects the frame to the source columns and, when the source
 * name is among them, prepends a copy of every row relabelled "Both".
 */
module Aggregation {
  import opened Outcomes
  import opened Values
  import opened Records

  /** The source-name label of the combined copies. */
  const Both: string := "Both"

  /** A frame as its column list and its rows; every row has exactly those columns. */
  type Row = map<string, Value>
  datatype Table = Table(columns: seq<string>, rows: seq<Row>)

  ghost predicate WellFormed(t: Table)
  {
    forall i :: 0 <= i < |t.rows| ==> forall c :: c in t.rows[i] <==> c in t.columns
  }

  /** The column names the four report families group by. */
  const GroupColumns: seq<string> := ["seasonId", "sourceName", "archetypeId", "archetypeName"]

  // ----- Construction ---------------------------------------------------------------

  /** The dataclass's two fields. */
  datatype Aggregator = Aggregator(groupbyColumns: seq<string>, sourceColumns: seq<string>)

  /** Calling the dataclass constructor with the wrong number of positional arguments raises `TypeError`. */
  datatype ConstructError = WrongArgumentCount(given: nat)

  /** `Aggregator(*args)`: exactly two positional arguments are accepted. */
  function Construct(args: seq<seq<string>>): (r: Result<Aggregator, ConstructError>)
    ensures r.Ok? <==> |args| == 2
    ensures r.Ok? ==> r.value.groupbyColumns == args[0] && r.value.sourceColumns == args[1]
    ensures r.Err? ==> r.error.given == |args|
  {
    if |args| == 2 then Ok(Aggregator(args[0], args[1])) else Err(WrongArgumentCount(|args|))
  }

  // ----- _preprocess --------------------------------------------------------------------

  datatype PreprocessError = MissingColumns(names: seq<string>)

  /** The columns of `source` that the frame lacks, in `source` order. */
  function Missing(source: seq<string>, columns: seq<string>): (m: seq<string>)
    ensures forall c :: c in m <==> c in source && c !in columns
    ensures |m| == 0 <==> forall c :: c in source ==> c in columns
  {
    if |source| == 0 then []
    else
      var rest := Missing(source[1..], columns);
      assert forall c :: c in source <==> c == source[0] || c in source[1..];
      if source[0] in columns then rest else [source[0]] + rest
  }

  function Project(row: Row, cols: seq<string>): Row
  {
    map c | c in cols && c in row :: row[c]
  }

  /**
   * `_preprocess`: `df[source]` raises when a column is missing; otherwise the projection,
   * preceded, when "sourceName" is selected, by a copy of every row labelled "Both".
   */
  function Preprocess(t: Table, source: seq<string>): (r: Result<Table, PreprocessError>)
    requires WellFormed(t)
    ensures r.Err? <==> exists c :: c in source && c !in t.columns
    ensures r.Err? ==> forall c :: c in r.error.names <==> c in source && c !in t.columns
    ensures r.Ok? ==> r.value.columns == source && WellFormed(r.value)
    ensures r.Ok? && "sourceName" !in source ==>
      |r.value.rows| == |t.rows| &&
      forall i, c :: 0 <= i < |t.rows| && c in source ==> r.value.rows[i][c] == t.rows[i][c]
    ensures r.Ok? && "sourceName" in source ==>
      var n := |t.rows|;
      |r.value.rows| == 2 * n &&
      (forall i :: 0 <= i < n ==> r.value.rows[i]["sourceName"] == Str(Both)) &&
      (forall i, c :: 0 <= i < n && c in source ==> r.value.rows[n + i][c] == t.rows[i][c]) &&
      (forall i, c :: 0 <= i < n && c in source && c != "sourceName" ==>
        r.value.rows[i][c] == r.value.rows[n + i][c])
  {
    var missing := Missing(source, t.columns);
    if |missing| > 0 then
      Err(MissingColumns(missing))
    else
      var projected := seq(|t.rows|, i requires 0 <= i < |t.rows| => Project(t.rows[i], source));
      if "sourceName" in source then
        var copies := seq(|projected|, i requires 0 <= i < |projected| => projected[i]["sourceName" := Str(Both)]);
        Ok(Table(source, copies + projected))
      else
        Ok(Table(source, projected))
  }

  // ----- The same duplication on typed deck records -----------------------------------------

  /** The deck records as `_preprocess` leaves them when the source name is selected. */
  function WithBoth(decks: seq<Deck>): (r: seq<Deck>)
    ensures |r| == 2 * |decks|
    ensures forall i :: 0 <= i < |decks| ==> r[i] == decks[i].(sourceName := Both) && r[|decks| + i] == decks[i]
  {
    seq(|decks|, i requires 0 <= i < |decks| => decks[i].(sourceName := Both)) + decks
  }

  /** Row `m` of the duplicated records is record `m mod |decks|`, relabelled or as it is. */
  lemma Origin(decks: seq<Deck>, m: int)
    requires 0 <= m < |WithBoth(decks)|
    ensures var j := if m < |decks| then m else m - |decks|;
      0 <= j < |decks| && (WithBoth(decks)[m] == decks[j].(sourceName := Both) || WithBoth(decks)[m] == decks[j])
  {
    if m >= |decks| {
      var j := m - |decks|;
      assert WithBoth(decks)[|decks| + j] == decks[j];
    }
  }

  /** The columns of a deck record that the aggregators select. */
  function Cells(d: Deck): Row
  {
    map[
      "seasonId" := Int(d.seasonId), "sourceName" := Str(d.sourceName),
      "personId" := Int(d.personId), "archetypeId" := Int(d.archetypeId),
      "archetypeName" := Str(d.archetypeName),
      "wins" := Int(d.wins), "losses" := Int(d.losses), "matches" := Int(d.matches)]
  }

  const CellColumns: seq<string> :=
    ["seasonId", "sourceName", "personId", "archetypeId", "archetypeName", "wins", "losses", "matches"]

  /** Relabelling a record and then reading its cells is reading its cells and then relabelling. */
  lemma RelabelCells(d: Deck, source: seq<string>)
    requires "sourceName" in source
    ensures Project(Cells(d.(sourceName := Both)), source) == Project(Cells(d), source)["sourceName" := Str(Both)]
  {
  }

  /**
   * The typed `WithBoth` is `_preprocess` on the frame of the records' cells: whenever the
   * selected columns include the source name, the two give the same rows.
   */
  lemma WithBothIsPreprocess(decks: seq<Deck>, source: seq<string>)
    requires "sourceName" in source
    requires forall c :: c in source ==> c in CellColumns
    ensures var t := Table(CellColumns, seq(|decks|, i requires 0 <= i < |decks| => Cells(decks[i])));
      WellFormed(t) &&
      Preprocess(t, source) ==
        Ok(Table(source, seq(2 * |decks|, i requires 0 <= i < 2 * |decks| => Project(Cells(WithBoth(decks)[i]), source))))
  {
    var n := |decks|;
    var t := Table(CellColumns, seq(n, i requires 0 <= i < n => Cells(decks[i])));
    assert WellFormed(t);
    assert |Missing(source, t.columns)| == 0;
    var projected := seq(|t.rows|, i requires 0 <= i < |t.rows| => Project(t.rows[i], source));
    var copies := seq(|projected|, i requires 0 <= i < |projected| => projected[i]["sourceName" := Str(Both)]);
    assert Preprocess(t, source) == Ok(Table(source, copies + projected));
    var expected := seq(2 * n, i requires 0 <= i < 2 * n => Project(Cells(WithBoth(decks)[i]), source));
    RowsOfWithBoth(decks, source);
    assert forall i :: 0 <= i < n ==> projected[i] == Project(Cells(decks[i]), source);
    Concatenation(copies, projected, expected);
  }

  /** The projected cells of the duplicated records, stated over the original records. */
  lemma RowsOfWithBoth(decks: seq<Deck>, source: seq<string>)
    requires "sourceName" in source
    ensures forall i :: 0 <= i < |decks| ==>
      Project(Cells(WithBoth(decks)[i]), source) == Project(Cells(decks[i]), source)["sourceName" := Str(Both)] &&
      Project(Cells(WithBoth(decks)[|decks| + i]), source) == Project(Cells(decks[i]), source)
  {
    forall i | 0 <= i < |decks|
      ensures Project(Cells(WithBoth(decks)[i]), source) == Project(Cells(decks[i]), source)["sourceName" := Str(Both)]
    {
      RelabelCells(decks[i], source);
    }
  }

  /** A sequence that agrees with `a` and then with `b`, index by index, is `a + b`. */
  lemma Concatenation<T>(a: seq<T>, b: seq<T>, e: seq<T>)
    requires |e| == |a| + |b|
    requires forall i :: 0 <= i < |a| ==> e[i] == a[i]
    requires forall i :: 0 <= i < |b| ==> e[|a| + i] == b[i]
    ensures a + b == e
  {
  }

  /** Deck `d` counts towards group `k` after the duplication: under its own source, or as "Both". */
  predicate Labels(d: Deck, k: Key)
  {
    KeyOf(d) == k || KeyOf(d.(sourceName := Both)) == k
  }

  /** The groups of the duplicated records, stated over the original records. */
  lemma KeysOfWithBoth(decks: seq<Deck>)
    ensures forall k :: k in GroupKeys(WithBoth(decks)) <==> (exists i :: 0 <= i < |decks| && Labels(decks[i], k))
  {
    var w := WithBoth(decks);
    var n := |decks|;
    forall k | k in GroupKeys(w)
      ensures exists i :: 0 <= i < n && Labels(decks[i], k)
    {
      var m :| 0 <= m < |w| && KeyOf(w[m]) == k;
      if m < n {
        assert Labels(decks[m], k);
      } else {
        assert Labels(decks[m - n], k);
      }
    }
    forall k, i | 0 <= i < n && Labels(decks[i], k)
      ensures k in GroupKeys(w)
    {
      if KeyOf(decks[i]) == k {
        assert KeyOf(w[n + i]) == k;
      } else {
        assert KeyOf(w[i]) == k;
      }
    }
  }
}

=== FILE: card_agg.dfy ===
/**
 * `ArchetypeCardsAggregator` of `aggregate/agg_arch_card.py`: per report group and per
 * card of one board, how many of the group's decks list it, how many copies, the wins
 * and matches of those decks, and the inclusion rate, average copy count and win rate.
 */
module CardAggregation {
  import opened Outcomes
  import opened Records
  import opened Aggregation

  // ----- Construction ---------------------------------------------------------------

  /** The construction as written passes only the selected columns. */
  function ConstructAsWritten(b: Board): Result<Aggregator, ConstructError>
  {
    Construct([GroupColumns + ["matches", "wins", BoardColumn(b)]])
  }

  /** Building either card aggregator as written raises before `execute` can run. */
  lemma ConstructionAsWrittenFails(b: Board)
    ensures ConstructAsWritten(b) == Err(WrongArgumentCount(1))
  {
  }

  /** The corrected construction: the grouping columns and the selected columns given separately. */
  function Configure(b: Board): (a: Aggregator)
    ensures Construct([GroupColumns, GroupColumns + ["matches", "wins", BoardColumn(b)]]) == Ok(a)
    ensures a.groupbyColumns == GroupColumns
    ensures "sourceName" in a.sourceColumns && BoardColumn(b) in a.sourceColumns
  {
    var cols := GroupColumns + ["matches", "wins", BoardColumn(b)];
    assert cols[1] == "sourceName" && cols[6] == BoardColumn(b);
    Aggregator(GroupColumns, cols)
  }

  // ----- Per-card sums over a group (the reference for the exploded `groupby("card")`) --------

  /** How many entries of one deck list `c`. */
  function Occurrences(entries: seq<CardEntry>, c: string): nat
  {
    if |entries| == 0 then 0
    else Occurrences(entries[..|entries| - 1], c) + (if entries[|entries| - 1].name == c then 1 else 0)
  }

  /** The copies `n` of `c` summed over one deck's entries. */
  function CopiesIn(entries: seq<CardEntry>, c: string): int
  {
    if |entries| == 0 then 0
    else CopiesIn(entries[..|entries| - 1], c) + (if entries[|entries| - 1].name == c then entries[|entries| - 1].n else 0)
  }

  /** Entries of `c` across the group: the exploded rows whose card is `c`. */
  function EntriesNamed(g: seq<Deck>, b: Board, c: string): nat
  {
    if |g| == 0 then 0 else EntriesNamed(g[..|g| - 1], b, c) + Occurrences(BoardOf(g[|g| - 1], b), c)
  }

  function CopiesNamed(g: seq<Deck>, b: Board, c: string): int
  {
    if |g| == 0 then 0 else CopiesNamed(g[..|g| - 1], b, c) + CopiesIn(BoardOf(g[|g| - 1], b), c)
  }

  /** Each exploded row carries its deck's wins, so a deck listing `c` twice counts twice. */
  function WinsNamed(g: seq<Deck>, b: Board, c: string): int
  {
    if |g| == 0 then 0
    else WinsNamed(g[..|g| - 1], b, c) + Occurrences(BoardOf(g[|g| - 1], b), c) * g[|g| - 1].wins
  }

  function MatchesNamed(g: seq<Deck>, b: Board, c: string): int
  {
    if |g| == 0 then 0
    else MatchesNamed(g[..|g| - 1], b, c) + Occurrences(BoardOf(g[|g| - 1], b), c) * g[|g| - 1].matches
  }

  /** Deck `d` has an entry for card `c` on board `b`. */
  ghost predicate Lists(d: Deck, b: Board, c: string)
  {
    exists e :: e in BoardOf(d, b) && e.name == c
  }

  /** The card names listed on board `b` by some deck of `g`. */
  function CardsOf(g: seq<Deck>, b: Board): (cs: set<string>)
    ensures forall c :: c in cs <==> exists d :: d in g && Lists(d, b, c)
  {
    set d, e | d in g && e in BoardOf(d, b) :: e.name
  }

  lemma {:induction false} OccurrencesPositive(entries: seq<CardEntry>, c: string)
    ensures Occurrences(entries, c) > 0 <==> exists e :: e in entries && e.name == c
    decreases |entries|
  {
    if |entries| > 0 {
      var front := entries[..|entries| - 1];
      OccurrencesPositive(front, c);
      assert forall e :: e in entries <==> e in front || e == entries[|entries| - 1];
    }
  }

  /** A card listed by some deck of the group has at least one exploded row. */
  lemma {:induction false} EntriesNamedPositive(g: seq<Deck>, b: Board, c: string)
    ensures EntriesNamed(g, b, c) > 0 <==> c in CardsOf(g, b)
    decreases |g|
  {
    if |g| > 0 {
      var front := g[..|g| - 1];
      EntriesNamedPositive(front, b, c);
      OccurrencesPositive(BoardOf(g[|g| - 1], b), c);
      assert forall d :: d in g <==> d in front || d == g[|g| - 1];
    }
  }

  // ----- Rates ---------------------------------------------------------------------

  datatype CardRow = CardRow(
    decks: nat, wins: int, matches: int,
    includeRate: real, includeAverageNumber: real, winRate: Option<real>)

  /**
   * One card's row in a group of `nDecks` decks; the win rate is missing when the
   * matches sum to zero (a division by zero in the frame).
   */
  function CardStats(nDecks: nat, decks: nat, copies: int, wins: int, matches: int): (r: CardRow)
    requires nDecks > 0 && decks > 0
    ensures r.decks == decks && r.wins == wins && r.matches == matches
    ensures r.includeRate == (decks as real) / (nDecks as real)
    ensures r.includeAverageNumber == (copies as real) / (decks as real)
    ensures r.winRate.None? <==> matches == 0
    ensures r.winRate.Some? ==> r.winRate.value == (wins as real) / (matches as real)
  {
    var rate := (decks as real) / (nDecks as real);
    CardRow(decks, wins, matches, rate, (copies as real) / (decks as real),
      if matches == 0 then None else Some((wins as real) / (matches as real)))
  }

  /** The row of card `c` in group `g`: its entries, copies, wins and matches, and the rates over them. */
  function CardRowOf(g: seq<Deck>, b: Board, c: string): (r: CardRow)
    requires |g| > 0 && c in CardsOf(g, b)
    ensures r.decks == EntriesNamed(g, b, c) && r.decks >= 1
    ensures r.wins == WinsNamed(g, b, c) && r.matches == MatchesNamed(g, b, c)
    ensures r.includeRate == (r.decks as real) / (|g| as real)
    ensures r.includeAverageNumber == (CopiesNamed(g, b, c) as real) / (r.decks as real)
    ensures r.winRate.None? <==> r.matches == 0
  {
    EntriesNamedPositive(g, b, c);
    CardStats(|g|, EntriesNamed(g, b, c), CopiesNamed(g, b, c), WinsNamed(g, b, c), MatchesNamed(g, b, c))
  }

  /** The rows of one group: one per card its decks list. */
  function GroupCards(g: seq<Deck>, b: Board): (r: map<string, CardRow>)
    requires |g| > 0
    ensures r.Keys == CardsOf(g, b)
    ensures forall c :: c in r ==> r[c] == CardRowOf(g, b, c)
  {
    map c | c in CardsOf(g, b) :: CardRowOf(g, b, c)
  }

  // ----- Inclusion rate bound --------------------------------------------------------

  /** A deck lists every card at most once on the board. */
  predicate ListsOnce(d: Deck, b: Board)
  {
    forall i, j :: 0 <= i < j < |BoardOf(d, b)| ==> BoardOf(d, b)[i].name != BoardOf(d, b)[j].name
  }

  lemma {:induction false} OccurrencesAtMostOne(entries: seq<CardEntry>, c: string)
    requires forall i, j :: 0 <= i < j < |entries| ==> entries[i].name != entries[j].name
    ensures Occurrences(entries, c) <= 1
    decreases |entries|
  {
    if |entries| > 0 {
      var front := entries[..|entries| - 1];
      OccurrencesAtMostOne(front, c);
      if entries[|entries| - 1].name == c {
        OccurrencesPositive(front, c);
        assert forall e :: e in front ==> e.name != c;
      }
    }
  }

  /** When no deck lists a card twice, a card is in at most as many entries as the group has decks. */
  lemma {:induction false} EntriesAtMostDecks(g: seq<Deck>, b: Board, c: string)
    requires forall k :: 0 <= k < |g| ==> ListsOnce(g[k], b)
    ensures EntriesNamed(g, b, c) <= |g|
    decreases |g|
  {
    if |g| > 0 {
      var front := g[..|g| - 1];
      assert forall k :: 0 <= k < |front| ==> front[k] == g[k];
      EntriesAtMostDecks(front, b, c);
      OccurrencesAtMostOne(BoardOf(g[|g| - 1], b), c);
    }
  }

  /** The inclusion rate lies in (0, 1] when no deck of the group lists the card twice. */
  lemma IncludeRateAtMostOne(g: seq<Deck>, b: Board, c: string)
    requires |g| > 0 && c in CardsOf(g, b)
    requires forall k :: 0 <= k < |g| ==> ListsOnce(g[k], b)
    ensures 0.0 < CardRowOf(g, b, c).includeRate <= 1.0
  {
    EntriesAtMostDecks(g, b, c);
    var r := CardRowOf(g, b, c);
    RateBound(r.decks, |g|);
  }

  lemma RateBound(part: nat, whole: nat)
    requires 0 < part <= whole
    ensures 0.0 < (part as real) / (whole as real) <= 1.0
  {
    var p := part as real;
    var w := whole as real;
    assert p / w * w == p;
  }

  // ----- execute ---------------------------------------------------------------------

  /** `pd.concat` of no frames raises. */
  datatype CardError = NothingToConcatenate

  /**
   * `execute`: every group of the duplicated frame whose decks list at least one card on
   * the board gets its card rows, tagged with the group key; groups without cards are
   * skipped, and when every group is skipped the final concatenation raises.
   */
  function Execute(b: Board, decks: seq<Deck>): (r: Result<map<Key, map<string, CardRow>>, CardError>)
    ensures r.Err? <==> forall i :: 0 <= i < |decks| ==> |BoardOf(decks[i], b)| == 0
    ensures r.Ok? ==> forall k :: k in r.value <==>
      (exists i :: 0 <= i < |decks| && Labels(decks[i], k)) && |CardsOf(GroupRows(WithBoth(decks), k), b)| > 0
    ensures r.Ok? ==> forall k :: k in r.value ==> r.value[k].Keys == CardsOf(GroupRows(WithBoth(decks), k), b)
    ensures r.Ok? ==> forall k :: k in r.value ==>
      |GroupRows(WithBoth(decks), k)| > 0 && r.value[k] == GroupCards(GroupRows(WithBoth(decks), k), b)
  {
    var rows := WithBoth(decks);
    var keys := CardKeys(b, decks);
    CardKeysEmpty(b, decks);
    CardKeysLabelled(b, decks);
    if keys == {} then Err(NothingToConcatenate)
    else
      Ok(CardTables(rows, keys, b))
  }

  /** The card rows of each of the given groups. */
  function CardTables(rows: seq<Deck>, keys: set<Key>, b: Board): (r: map<Key, map<string, CardRow>>)
    requires forall k :: k in keys ==> |GroupRows(rows, k)| > 0
    ensures r.Keys == keys
    ensures forall k :: k in r ==> r[k] == GroupCards(GroupRows(rows, k), b)
  {
    map k | k in keys :: GroupCards(GroupRows(rows, k), b)
  }

  /** The groups with a card, stated over the original decks. */
  lemma CardKeysLabelled(b: Board, decks: seq<Deck>)
    ensures forall k :: k in CardKeys(b, decks) <==>
      (exists i :: 0 <= i < |decks| && Labels(decks[i], k)) && |CardsOf(GroupRows(WithBoth(decks), k), b)| > 0
  {
    KeysOfWithBoth(decks);
  }

  /** The groups that report at least one card. */
  function CardKeys(b: Board, decks: seq<Deck>): (ks: set<Key>)
    ensures forall k :: k in ks ==> k in GroupKeys(WithBoth(decks)) && |GroupRows(WithBoth(decks), k)| > 0
    ensures forall k :: k in ks <==> k in GroupKeys(WithBoth(decks)) && |CardsOf(GroupRows(WithBoth(decks), k), b)| > 0
  {
    var rows := WithBoth(decks);
    forall k | k in GroupKeys(rows)
      ensures |GroupRows(rows, k)| > 0
    {
      GroupOfKeyNonEmpty(rows, k);
    }
    set k | k in GroupKeys(rows) && |CardsOf(GroupRows(rows, k), b)| > 0
  }

  /** No group reports a card exactly when every deck's board is empty. */
  lemma CardKeysEmpty(b: Board, decks: seq<Deck>)
    ensures CardKeys(b, decks) == {} <==> forall i :: 0 <= i < |decks| ==> |BoardOf(decks[i], b)| == 0
  {
    var ks := CardKeys(b, decks);
    if k :| k in ks {
      CardsComeFromDecks(b, decks, k);
    }
    if i :| 0 <= i < |decks| && |BoardOf(decks[i], b)| > 0 {
      DeckGivesCards(b, decks, i);
      assert KeyOf(decks[i]) in ks;
    }
  }

  /** A deck with a non-empty board gives its own group a card. */
  lemma DeckGivesCards(b: Board, decks: seq<Deck>, i: nat)
    requires i < |decks| && |BoardOf(decks[i], b)| > 0
    ensures var rows := WithBoth(decks); var k := KeyOf(decks[i]);
      k in GroupKeys(rows) && |CardsOf(GroupRows(rows, k), b)| > 0
  {
    var rows := WithBoth(decks);
    var d := decks[i];
    var k := KeyOf(d);
    assert rows[|decks| + i] == d;
    assert d in GroupRows(rows, k);
    assert BoardOf(d, b)[0] in BoardOf(d, b);
    assert BoardOf(d, b)[0].name in CardsOf(GroupRows(rows, k), b);
  }

  /** The position of a row known to be in the frame. */
  function RowIndex(rows: seq<Deck>, d: Deck): (m: nat)
    requires d in rows
    ensures m < |rows| && rows[m] == d
  {
    if rows[0] == d then 0 else 1 + RowIndex(rows[1..], d)
  }

  /** A group with a card holds a deck whose board is non-empty. */
  lemma CardsComeFromDecks(b: Board, decks: seq<Deck>, k: Key)
    requires |CardsOf(GroupRows(WithBoth(decks), k), b)| > 0
    ensures exists i :: 0 <= i < |decks| && |BoardOf(decks[i], b)| > 0
  {
    var rows := WithBoth(decks);
    var g := GroupRows(rows, k);
    var c :| c in CardsOf(g, b);
    var d :| d in g && Lists(d, b, c);
    assert |BoardOf(d, b)| > 0;
    var m := RowIndex(rows, d);
    Origin(decks, m);
    var j := if m < |decks| then m else m - |decks|;
    assert BoardOf(decks[j], b) == BoardOf(d, b);
  }

  // ----- The report as written: the card names are dropped -----------------------------

  /**
   * A group's card rows as the concatenation at line 49 leaves them: line 36 moves the card
   * name into the index and `ignore_index=True` discards it, so only the statistics remain,
   * one row per card (the key columns of lines 46-47 stay with the group).
   */
  ghost function Unnamed(m: map<string, CardRow>): (r: multiset<CardRow>)
    ensures |r| == |m|
    ensures forall row :: row in r <==> exists c :: c in m && m[c] == row
    decreases |m|
  {
    if |m| == 0 then multiset{}
    else
      var c :| c in m;
      var rest := m - {c};
      assert rest.Keys == m.Keys - {c};
      assert forall c' :: c' in m <==> c' == c || c' in rest;
      multiset{m[c]} + Unnamed(rest)
  }

  /** `execute` as written: per group, its card rows without their card names. */
  ghost function ExecuteAsWritten(b: Board, decks: seq<Deck>): (r: Result<map<Key, multiset<CardRow>>, CardError>)
    ensures r.Err? <==> forall i :: 0 <= i < |decks| ==> |BoardOf(decks[i], b)| == 0
    ensures r.Ok? ==> forall k :: k in r.value <==>
      (exists i :: 0 <= i < |decks| && Labels(decks[i], k)) && |CardsOf(GroupRows(WithBoth(decks), k), b)| > 0
    ensures r.Ok? ==> forall k :: k in r.value ==>
      |GroupRows(WithBoth(decks), k)| > 0 && r.value[k] == Unnamed(GroupCards(GroupRows(WithBoth(decks), k), b))
  {
    match Execute(b, decks)
    case Err(e) => Err(e)
    case Ok(t) => Ok(UnnamedTables(t))
  }

  ghost function UnnamedTables(t: map<Key, map<string, CardRow>>): (r: map<Key, multiset<CardRow>>)
    ensures r.Keys == t.Keys && forall k :: k in r ==> r[k] == Unnamed(t[k])
  {
    map k | k in t :: Unnamed(t[k])
  }

  /** A group's rows as written: one per card it lists, each that card's statistics, with no name. */
  lemma AsWrittenRows(g: seq<Deck>, b: Board)
    requires |g| > 0
    ensures |Unnamed(GroupCards(g, b))| == |CardsOf(g, b)|
    ensures forall row :: row in Unnamed(GroupCards(g, b)) <==> exists c :: c in CardsOf(g, b) && row == CardRowOf(g, b, c)
  {
    var m := GroupCards(g, b);
    assert m.Keys == CardsOf(g, b);
    assert |m| == |m.Keys|;
  }

  /** Deck `d` with board `b` replaced by `entries`. */
  function WithBoard(d: Deck, b: Board, entries: seq<CardEntry>): (r: Deck)
    ensures BoardOf(r, b) == entries && KeyOf(r) == KeyOf(d) && r.wins == d.wins && r.matches == d.matches
  {
    match b
    case Maindeck => d.(maindeck := entries)
    case Sideboard => d.(sideboard := entries)
  }

  /**
   * `gy` is `gx` row by row, with the keys, wins and matches kept, where every deck lists
   * exactly one card on board `b`: `x` in `gx` and `y` in `gy`, with the same copy count.
   */
  ghost predicate Renamed(gx: seq<Deck>, gy: seq<Deck>, b: Board, x: string, y: string)
  {
    |gx| == |gy| && forall i :: 0 <= i < |gx| ==> RenamedRow(gx[i], gy[i], b, x, y)
  }

  predicate RenamedRow(dx: Deck, dy: Deck, b: Board, x: string, y: string)
  {
    && KeyOf(dx) == KeyOf(dy) && dx.wins == dy.wins && dx.matches == dy.matches
    && |BoardOf(dx, b)| == 1 && BoardOf(dx, b)[0].name == x
    && BoardOf(dy, b) == [BoardOf(dx, b)[0].(name := y)]
  }

  lemma RenamedSnoc(gx: seq<Deck>, gy: seq<Deck>, dx: Deck, dy: Deck, b: Board, x: string, y: string)
    requires Renamed(gx, gy, b, x, y) && RenamedRow(dx, dy, b, x, y)
    ensures Renamed(gx + [dx], gy + [dy], b, x, y)
  {
    var ax := gx + [dx];
    var ay := gy + [dy];
    assert forall i :: 0 <= i < |gx| ==> ax[i] == gx[i] && ay[i] == gy[i];
  }

  lemma RenamedFront(rx: seq<Deck>, ry: seq<Deck>, b: Board, x: string, y: string)
    requires Renamed(rx, ry, b, x, y) && |rx| > 0
    ensures Renamed(rx[..|rx| - 1], ry[..|ry| - 1], b, x, y) && RenamedRow(rx[|rx| - 1], ry[|ry| - 1], b, x, y)
  {
    var fx := rx[..|rx| - 1];
    var fy := ry[..|ry| - 1];
    assert forall i :: 0 <= i < |fx| ==> fx[i] == rx[i] && fy[i] == ry[i];
  }

  lemma {:induction false} RenamedGroups(rx: seq<Deck>, ry: seq<Deck>, b: Board, x: string, y: string, k: Key)
    requires Renamed(rx, ry, b, x, y)
    ensures Renamed(GroupRows(rx, k), GroupRows(ry, k), b, x, y)
    decreases |rx|
  {
    if |rx| > 0 {
      var fx := rx[..|rx| - 1];
      var fy := ry[..|ry| - 1];
      RenamedFront(rx, ry, b, x, y);
      RenamedGroups(fx, fy, b, x, y, k);
      var lx := rx[|rx| - 1];
      var ly := ry[|ry| - 1];
      if KeyOf(lx) == k {
        assert GroupRows(rx, k) == GroupRows(fx, k) + [lx] && GroupRows(ry, k) == GroupRows(fy, k) + [ly];
        RenamedSnoc(GroupRows(fx, k), GroupRows(fy, k), lx, ly, b, x, y);
      } else {
        assert GroupRows(rx, k) == GroupRows(fx, k) && GroupRows(ry, k) == GroupRows(fy, k);
      }
    }
  }

  /** The sums over a group do not depend on the name its one card has. */
  lemma {:induction false} RenamedSums(gx: seq<Deck>, gy: seq<Deck>, b: Board, x: string, y: string)
    requires Renamed(gx, gy, b, x, y)
    ensures EntriesNamed(gx, b, x) == EntriesNamed(gy, b, y)
    ensures CopiesNamed(gx, b, x) == CopiesNamed(gy, b, y)
    ensures WinsNamed(gx, b, x) == WinsNamed(gy, b, y)
    ensures MatchesNamed(gx, b, x) == MatchesNamed(gy, b, y)
    decreases |gx|
  {
    if |gx| > 0 {
      RenamedFront(gx, gy, b, x, y);
      RenamedSums(gx[..|gx| - 1], gy[..|gy| - 1], b, x, y);
      RenamedEntries(gx[|gx| - 1], gy[|gy| - 1], b, x, y);
    }
  }

  /** One renamed deck lists its card once, with the same copies. */
  lemma RenamedEntries(dx: Deck, dy: Deck, b: Board, x: string, y: string)
    requires RenamedRow(dx, dy, b, x, y)
    ensures Occurrences(BoardOf(dx, b), x) == 1 && Occurrences(BoardOf(dy, b), y) == 1
    ensures CopiesIn(BoardOf(dx, b), x) == CopiesIn(BoardOf(dy, b), y)
  {
    var ex := BoardOf(dx, b);
    var ey := BoardOf(dy, b);
    assert ex[..0] == [] && ey[..0] == [];
  }

  /** A non-empty group whose every deck lists only `x` on board `b` has the one card `x`. */
  lemma OnlyCard(g: seq<Deck>, b: Board, x: string)
    requires |g| > 0
    requires forall i :: 0 <= i < |g| ==> |BoardOf(g[i], b)| == 1 && BoardOf(g[i], b)[0].name == x
    ensures CardsOf(g, b) == {x}
  {
    var e := BoardOf(g[0], b)[0];
    assert e in BoardOf(g[0], b) && g[0] in g;
    assert Lists(g[0], b, x);
    forall c | c in CardsOf(g, b)
      ensures c == x
    {
      var d :| d in g && Lists(d, b, c);
      var i :| 0 <= i < |g| && g[i] == d;
      var e' :| e' in BoardOf(d, b) && e'.name == c;
      assert e' == BoardOf(g[i], b)[0];
    }
  }

  /** A non-empty renamed group lists only its one card. */
  lemma RenamedCards(gx: seq<Deck>, gy: seq<Deck>, b: Board, x: string, y: string)
    requires Renamed(gx, gy, b, x, y) && |gx| > 0
    ensures CardsOf(gx, b) == {x} && CardsOf(gy, b) == {y}
  {
    assert forall i :: 0 <= i < |gx| ==> RenamedRow(gx[i], gy[i], b, x, y);
    OnlyCard(gx, b, x);
    OnlyCard(gy, b, y);
  }

  /** The one-row multiset of a one-card group. */
  lemma UnnamedSingle(c: string, row: CardRow)
    ensures Unnamed(map[c := row]) == multiset{row}
  {
    var m := map[c := row];
    assert m - {c} == map[];
  }

  /** A group listing only `x` reports one card. */
  lemma SingleCard(g: seq<Deck>, b: Board, x: string)
    requires |g| > 0 && CardsOf(g, b) == {x}
    ensures GroupCards(g, b) == map[x := CardRowOf(g, b, x)]
  {
  }

  /** A renamed group, with its one card, gives the same rows once the names are dropped. */
  lemma RenamedGroupCards(gx: seq<Deck>, gy: seq<Deck>, b: Board, x: string, y: string)
    requires Renamed(gx, gy, b, x, y) && |gx| > 0
    ensures Unnamed(GroupCards(gx, b)) == Unnamed(GroupCards(gy, b))
  {
    RenamedCards(gx, gy, b, x, y);
    RenamedSums(gx, gy, b, x, y);
    var row := CardRowOf(gx, b, x);
    assert row == CardRowOf(gy, b, y);
    SingleCard(gx, b, x);
    SingleCard(gy, b, y);
    UnnamedSingle(x, row);
    UnnamedSingle(y, row);
  }

  lemma SameTables(tx: map<Key, multiset<CardRow>>, ty: map<Key, multiset<CardRow>>)
    requires forall k :: (k in tx <==> k in ty) && (k in tx ==> tx[k] == ty[k])
    ensures tx == ty
  {
  }

  /** Both copies of a one-deck frame, renamed alike. */
  lemma RenamedWithBoth(dx: Deck, dy: Deck, b: Board, x: string, y: string)
    requires RenamedRow(dx, dy, b, x, y)
    ensures Renamed(WithBoth([dx]), WithBoth([dy]), b, x, y)
  {
    var wx := WithBoth([dx]);
    var wy := WithBoth([dy]);
    assert wx[0] == dx.(sourceName := Both) && wx[1] == dx;
    assert wy[0] == dy.(sourceName := Both) && wy[1] == dy;
    assert RenamedRow(wx[0], wy[0], b, x, y);
  }

  /**
   * As written, the report loses the card names: a deck listing only card `x` on board
   * `b`, and the same deck listing `y` instead, give the same report, while the
   * report keyed by card name tells them apart.
   */
  lemma AsWrittenLosesCardNames(d: Deck, b: Board, x: string, y: string, n: int)
    requires x != y
    ensures var dx := WithBoard(d, b, [CardEntry(x, n)]); var dy := WithBoard(d, b, [CardEntry(y, n)]);
      && ExecuteAsWritten(b, [dx]) == ExecuteAsWritten(b, [dy])
      && Execute(b, [dx]) != Execute(b, [dy])
  {
    var dx := WithBoard(d, b, [CardEntry(x, n)]);
    var dy := WithBoard(d, b, [CardEntry(y, n)]);
    assert RenamedRow(dx, dy, b, x, y);
    RenamedSameAsWritten(dx, dy, b, x, y);
    RenamedKeyedDiffer(dx, dy, b, x, y);
  }

  /** Two renamed one-deck frames give the same report as written. */
  lemma RenamedSameAsWritten(dx: Deck, dy: Deck, b: Board, x: string, y: string)
    requires RenamedRow(dx, dy, b, x, y)
    ensures ExecuteAsWritten(b, [dx]) == ExecuteAsWritten(b, [dy])
  {
    RenamedWithBoth(dx, dy, b, x, y);
    OneDeckWritten(b, dx);
    OneDeckWritten(b, dy);
    var ax := ExecuteAsWritten(b, [dx]);
    var ay := ExecuteAsWritten(b, [dy]);
    forall k
      ensures (k in ax.value <==> k in ay.value)
      ensures k in ax.value ==> ax.value[k] == ay.value[k]
    {
      RenamedKey(dx, dy, b, x, y, k);
    }
    SameTables(ax.value, ay.value);
  }

  /** Two renamed one-deck frames give different reports keyed by card name. */
  lemma RenamedKeyedDiffer(dx: Deck, dy: Deck, b: Board, x: string, y: string)
    requires RenamedRow(dx, dy, b, x, y) && x != y
    ensures Execute(b, [dx]) != Execute(b, [dy])
  {
    RenamedWithBoth(dx, dy, b, x, y);
    var wx := WithBoth([dx]);
    var wy := WithBoth([dy]);
    var k := KeyOf(dx);
    assert wx[1] == dx && Labels([dx][0], k);
    RenamedGroups(wx, wy, b, x, y, k);
    RenamedCards(GroupRows(wx, k), GroupRows(wy, k), b, x, y);
    NamedKey(b, dx, x, k);
    NamedKey(b, dy, y, k);
    Differ(Execute(b, [dx]), Execute(b, [dy]), k, x, y);
  }

  /** One group of the two renamed frames: both list a card or neither does, with the same rows. */
  lemma RenamedGroup(wx: seq<Deck>, wy: seq<Deck>, b: Board, x: string, y: string, k: Key)
    requires Renamed(wx, wy, b, x, y)
    ensures |GroupRows(wx, k)| == |GroupRows(wy, k)|
    ensures |CardsOf(GroupRows(wx, k), b)| > 0 <==> |CardsOf(GroupRows(wy, k), b)| > 0
    ensures |GroupRows(wx, k)| > 0 ==> Unnamed(GroupCards(GroupRows(wx, k), b)) == Unnamed(GroupCards(GroupRows(wy, k), b))
  {
    var gx := GroupRows(wx, k);
    var gy := GroupRows(wy, k);
    RenamedGroups(wx, wy, b, x, y, k);
    if |gx| > 0 {
      RenamedCards(gx, gy, b, x, y);
      RenamedGroupCards(gx, gy, b, x, y);
    } else {
      assert CardsOf(gx, b) == {} && CardsOf(gy, b) == {};
    }
  }

  /** One key of the two reports as written. */
  lemma RenamedKey(dx: Deck, dy: Deck, b: Board, x: string, y: string, k: Key)
    requires RenamedRow(dx, dy, b, x, y)
    requires Renamed(WithBoth([dx]), WithBoth([dy]), b, x, y)
    requires |BoardOf(dx, b)| > 0 && |BoardOf(dy, b)| > 0
    ensures ExecuteAsWritten(b, [dx]).Ok? && ExecuteAsWritten(b, [dy]).Ok?
    ensures k in ExecuteAsWritten(b, [dx]).value <==> k in ExecuteAsWritten(b, [dy]).value
    ensures k in ExecuteAsWritten(b, [dx]).value ==> ExecuteAsWritten(b, [dx]).value[k] == ExecuteAsWritten(b, [dy]).value[k]
  {
    RenamedGroup(WithBoth([dx]), WithBoth([dy]), b, x, y, k);
    OneDeckLabels(dx, k);
    OneDeckLabels(dy, k);
    assert Labels(dx, k) <==> Labels(dy, k);
    OneDeckWritten(b, dx);
    OneDeckWritten(b, dy);
  }

  /** The keys a one-deck frame labels are those of its deck. */
  lemma OneDeckLabels(d: Deck, k: Key)
    ensures (exists i :: 0 <= i < |[d]| && Labels([d][i], k)) <==> Labels(d, k)
  {
    assert [d][0] == d;
  }

  /** A one-deck frame whose deck lists a card on the board does not raise. */
  lemma OneDeckWritten(b: Board, d: Deck)
    requires |BoardOf(d, b)| > 0
    ensures ExecuteAsWritten(b, [d]).Ok?
  {
    assert [d][0] == d;
  }

  lemma Differ(ex: Result<map<Key, map<string, CardRow>>, CardError>, ey: Result<map<Key, map<string, CardRow>>, CardError>,
               k: Key, x: string, y: string)
    requires x != y && ex.Ok? && ey.Ok? && k in ex.value && k in ey.value
    requires ex.value[k].Keys == {x} && ey.value[k].Keys == {y}
    ensures ex != ey
  {
    assert x in ex.value[k].Keys;
  }

  /** A one-deck frame listing only `x` reports `x`, and nothing else, under the deck's own key. */
  lemma NamedKey(b: Board, d: Deck, x: string, k: Key)
    requires KeyOf(d) == k && CardsOf(GroupRows(WithBoth([d]), k), b) == {x}
    ensures Execute(b, [d]).Ok? && k in Execute(b, [d]).value && Execute(b, [d]).value[k].Keys == {x}
  {
    OneDeckLabels(d, k);
    CardsComeFromDecks(b, [d], k);
  }
}

=== FILE: card_tags.dfy ===
/**
 * The copy tags of `ArchetypeDeckAggregator.expand_cards`: entry `{name, n}` becomes
 * the `n` strings `"name 00"`, `"name 01"`, … (`f"{i:02}"`), and the regular-expression
 * substitution of `aggregate_cards` strips a trailing space-and-digits run to get the
 * name back.
 */
module CardTags {
  import opened Records

  predicate IsDigit(c: char)
  {
    '0' <= c <= '9'
  }

  predicate AllDigits(s: string)
  {
    forall k :: 0 <= k < |s| ==> IsDigit(s[k])
  }

  function DigitChar(d: nat): (c: char)
    requires d < 10
    ensures IsDigit(c) && (c as int) - ('0' as int) == d
  {
    (('0' as int) + d) as char
  }

  /** Decimal spelling of `i`, most significant digit first, without padding. */
  function Decimal(i: nat): (s: string)
    ensures |s| >= 1 && AllDigits(s)
    ensures i >= 10 ==> |s| >= 2 && s[0] != '0'
    decreases i
  {
    if i < 10 then [DigitChar(i)] else Decimal(i / 10) + [DigitChar(i % 10)]
  }

  /** The number a digit string spells (leading zeros allowed). */
  function DigitsValue(s: string): int
    requires AllDigits(s)
  {
    if |s| == 0 then 0 else DigitsValue(s[..|s| - 1]) * 10 + ((s[|s| - 1] as int) - ('0' as int))
  }

  /** `f"{i:02}"`: at least two digits, zero-padded. */
  function Pad2(i: nat): (s: string)
    ensures |s| >= 2 && AllDigits(s)
  {
    if i < 10 then ['0'] + Decimal(i) else Decimal(i)
  }

  lemma {:induction false} DecimalRoundTrip(i: nat)
    ensures DigitsValue(Decimal(i)) == i
    decreases i
  {
    if i >= 10 {
      DecimalRoundTrip(i / 10);
      var s := Decimal(i);
      assert s[..|s| - 1] == Decimal(i / 10);
    }
  }

  /** The padded index reads back as the index, so distinct copies get distinct tags. */
  lemma Pad2RoundTrip(i: nat)
    ensures DigitsValue(Pad2(i)) == i
  {
    DecimalRoundTrip(i);
    if i < 10 {
      var s := Pad2(i);
      assert s[..1] == ['0'];
      assert s[..1][..0] == [];
    }
  }

  lemma Pad2Injective(i: nat, j: nat)
    ensures Pad2(i) == Pad2(j) ==> i == j
  {
    Pad2RoundTrip(i);
    Pad2RoundTrip(j);
  }

  /** The tag of the i-th copy of card `name`. */
  function Tag(name: string, i: nat): string
  {
    name + " " + Pad2(i)
  }

  /** The copies of one entry; a non-positive count gives none (`range(n)` is empty). */
  function ExpandEntry(e: CardEntry): (tags: seq<string>)
    ensures |tags| == if e.n > 0 then e.n else 0
    ensures forall i :: 0 <= i < |tags| ==> tags[i] == Tag(e.name, i)
  {
    seq(if e.n > 0 then e.n else 0, i requires 0 <= i => Tag(e.name, i))
  }

  function Copies(entries: seq<CardEntry>): nat
  {
    if |entries| == 0 then 0
    else Copies(entries[..|entries| - 1]) + (if entries[|entries| - 1].n > 0 then entries[|entries| - 1].n else 0)
  }

  /** The tag stands for copy `i` of an entry of `entries`. */
  ghost predicate TagOf(entries: seq<CardEntry>, t: string)
  {
    exists j, i: nat :: 0 <= j < |entries| && i < entries[j].n && t == Tag(entries[j].name, i)
  }

  /** `expand_cards`: every entry's copies, entries in order; as many tags as copies. */
  function ExpandCards(entries: seq<CardEntry>): (tags: seq<string>)
    ensures |tags| == Copies(entries)
    ensures forall k :: 0 <= k < |tags| ==> TagOf(entries, tags[k])
    ensures forall j, i :: 0 <= j < |entries| && 0 <= i < entries[j].n ==> Tag(entries[j].name, i) in tags
  {
    if |entries| == 0 then []
    else
      var front := entries[..|entries| - 1];
      var rest := ExpandCards(front);
      var last := ExpandEntry(entries[|entries| - 1]);
      assert forall j :: 0 <= j < |front| ==> front[j] == entries[j];
      assert forall k :: 0 <= k < |last| ==> last[k] == Tag(entries[|entries| - 1].name, k);
      rest + last
  }

  /** Length of the run of digits at the end of `s`. */
  function TrailingDigits(s: string): (t: nat)
    ensures t <= |s| && AllDigits(s[|s| - t..])
    ensures t < |s| ==> !IsDigit(s[|s| - t - 1])
  {
    if |s| == 0 || !IsDigit(s[|s| - 1]) then 0
    else
      var t := TrailingDigits(s[..|s| - 1]);
      DigitRunGrows(s, t);
      t + 1
  }

  /** A digit after a run of `t` trailing digits extends the run by one. */
  lemma DigitRunGrows(s: string, t: nat)
    requires |s| > 0 && IsDigit(s[|s| - 1])
    requires t <= |s| - 1 && AllDigits(s[..|s| - 1][|s| - 1 - t..])
    requires t < |s| - 1 ==> !IsDigit(s[..|s| - 1][|s| - 2 - t])
    ensures AllDigits(s[|s| - 1 - t..])
    ensures t + 1 < |s| ==> !IsDigit(s[|s| - t - 2])
  {
    var front := s[..|s| - 1];
    var run := s[|s| - 1 - t..];
    forall k | 0 <= k < |run|
      ensures IsDigit(run[k])
    {
      if k < t {
        assert run[k] == front[|front| - t..][k];
      }
    }
    if t + 1 < |s| {
      assert s[|s| - t - 2] == front[|front| - t - 1];
    }
  }

  /**
   * The substitution of `" [0-9]+$"` by nothing: the match can only be the last space
   * when everything after it is one or more digits.
   */
  function StripTag(s: string): (r: string)
    ensures r == s || (exists d :: |d| >= 1 && AllDigits(d) && s == r + " " + d)
  {
    var t := TrailingDigits(s);
    if t > 0 && t < |s| && s[|s| - t - 1] == ' ' then
      assert s == s[..|s| - t - 1] + " " + s[|s| - t..];
      s[..|s| - t - 1]
    else s
  }

  lemma {:induction false} TrailingDigitsOfTag(name: string, d: string)
    requires AllDigits(d)
    ensures TrailingDigits(name + " " + d) == |d|
    decreases |d|
  {
    var s := name + " " + d;
    if |d| > 0 {
      TrailingDigitsOfTag(name, d[..|d| - 1]);
      assert s[..|s| - 1] == name + " " + d[..|d| - 1];
    }
  }

  /** Stripping a tag gives back the card name, whatever the name ends with. */
  lemma StripTagOfTag(name: string, i: nat)
    ensures StripTag(Tag(name, i)) == name
  {
    var d := Pad2(i);
    TrailingDigitsOfTag(name, d);
    var s := Tag(name, i);
    assert s[|s| - |d| - 1] == ' ';
    assert s[..|s| - |d| - 1] == name;
  }
}

=== FILE: day_agg.dfy ===
/**
 * `ArchetypeDayAggregator` of `scraper/aggregate/agg_arch_day.py`: every deck with at
 * least one match is active on each day from its creation to its last update (or
 * "now"), and each (group, day) counts the distinct people with an active deck. When no
 * deck with a match has a day in its range, the report raises instead.
 * Timestamps are integer seconds; turning an instant into a `YYYYMMDD` day number is
 * the parameter `dayOf`.
 */
module DayAggregation {
  import opened Outcomes
  import opened Records
  import opened Aggregation
  import opened Sets

  /** Seconds in a day: the step of `pd.date_range`'s default daily frequency. */
  const Day: int := 86400

  /** The columns the aggregator selects. */
  const SourceColumns: seq<string> :=
    ["seasonId", "personId", "sourceName", "matches", "archetypeId", "archetypeName", "createdDatetime", "updatedDatetime"]

  /** The grouping columns, which add the day to the report key. */
  const DayGroupColumns: seq<string> := ["seasonId", "sourceName", "date", "archetypeId", "archetypeName"]

  /** This aggregator passes both fields, so its construction succeeds and it duplicates by source. */
  lemma ConstructionSucceeds()
    ensures Construct([DayGroupColumns, SourceColumns]) == Ok(Aggregator(DayGroupColumns, SourceColumns))
    ensures "sourceName" in SourceColumns
  {
    assert SourceColumns[2] == "sourceName";
  }

  /** `pd.date_range(created, updated)`: the instants `created + k days` not after `updated`. */
  function Instants(created: int, updated: int): (ts: seq<int>)
    ensures updated < created ==> ts == []
    ensures updated >= created ==> |ts| == (updated - created) / Day + 1
    ensures forall k :: 0 <= k < |ts| ==> ts[k] == created + k * Day && created <= ts[k] <= updated
    ensures forall k: nat :: created + k * Day <= updated ==> k < |ts|
  {
    if updated < created then []
    else seq((updated - created) / Day + 1, k requires 0 <= k => created + k * Day)
  }

  /** A missing update time is filled with the time of the run. */
  function LastActive(d: Deck, now: int): int
  {
    match d.updated
    case Some(u) => u
    case None => now
  }

  /** The days on which deck `d` is active. */
  function Dates(d: Deck, now: int, dayOf: int -> int): set<int>
  {
    var ts := Instants(d.created, LastActive(d, now));
    set k | 0 <= k < |ts| :: dayOf(ts[k])
  }

  /** A group of the report together with one day. */
  datatype DayKey = DayKey(key: Key, date: int)

  /** Row `d` of the duplicated frame counts for `dk`: it has a match, the group's key, and is active that day. */
  predicate Active(d: Deck, dk: DayKey, now: int, dayOf: int -> int)
  {
    d.matches > 0 && KeyOf(d) == dk.key && dk.date in Dates(d, now, dayOf)
  }

  /** The distinct people of the rows active for `dk` (the frame after `drop_duplicates`). */
  function Players(rows: seq<Deck>, dk: DayKey, now: int, dayOf: int -> int): set<int>
  {
    set i | 0 <= i < |rows| && Active(rows[i], dk, now, dayOf) :: rows[i].personId
  }

  /** The (group, day) pairs on which some row is active. */
  function DayKeys(rows: seq<Deck>, now: int, dayOf: int -> int): (ks: set<DayKey>)
    ensures forall dk :: dk in ks <==> exists i :: 0 <= i < |rows| && Active(rows[i], dk, now, dayOf)
  {
    var ks := set i, date | 0 <= i < |rows| && rows[i].matches > 0 && date in Dates(rows[i], now, dayOf) :: DayKey(KeyOf(rows[i]), date);
    assert forall dk :: dk in ks ==> exists i :: 0 <= i < |rows| && Active(rows[i], dk, now, dayOf);
    ks
  }

  /**
   * The report `execute` builds when rows are left: for every (group, day) on which some
   * deck with a match is active, the number of distinct people with such a deck; a deck
   * updated before it was created is never active.
   */
  function Counts(decks: seq<Deck>, now: int, dayOf: int -> int): (r: map<DayKey, nat>)
    ensures forall dk :: dk in r <==> exists i :: 0 <= i < |WithBoth(decks)| && Active(WithBoth(decks)[i], dk, now, dayOf)
    ensures forall dk :: dk in r ==> r[dk] == |Players(WithBoth(decks), dk, now, dayOf)| && r[dk] >= 1
  {
    var rows := WithBoth(decks);
    var ks := DayKeys(rows, now, dayOf);
    forall dk | dk in ks
      ensures |Players(rows, dk, now, dayOf)| >= 1
    {
      var i :| 0 <= i < |rows| && Active(rows[i], dk, now, dayOf);
      assert rows[i].personId in Players(rows, dk, now, dayOf);
    }
    map dk | dk in ks :: |Players(rows, dk, now, dayOf)|
  }

  /** A deck that `date_range` gives at least one day: it has a match and was not updated before it was created. */
  predicate Dated(d: Deck, now: int)
  {
    d.matches > 0 && d.created <= LastActive(d, now)
  }

  /**
   * The two ways `execute` raises. With no deck that has a match the filtered frame is
   * empty, `apply` hands back a copy of the frame instead of a column, and assigning it
   * to `df["date"]` raises `ValueError`. With played decks whose day ranges are all
   * empty, `explode` leaves a column of missing values only, which is no datetime column,
   * and `.dt` raises `AttributeError`.
   */
  datatype DayError = NoPlayedDeck | NoDateInRange

  /** `execute`: the day counts, or the error of a frame without a deck that is active on some day. */
  function Execute(decks: seq<Deck>, now: int, dayOf: int -> int): (r: Result<map<DayKey, nat>, DayError>)
    ensures r.Err? <==> forall i :: 0 <= i < |decks| ==> !Dated(decks[i], now)
    ensures r == Err(NoPlayedDeck) <==> forall i :: 0 <= i < |decks| ==> decks[i].matches <= 0
    ensures r.Ok? ==> r.value == Counts(decks, now, dayOf)
    ensures r.Ok? ==> forall dk :: dk in r.value ==> r.value[dk] == |Players(WithBoth(decks), dk, now, dayOf)| && r.value[dk] >= 1
  {
    if !exists i :: 0 <= i < |decks| && decks[i].matches > 0 then Err(NoPlayedDeck)
    else if !exists i :: 0 <= i < |decks| && Dated(decks[i], now) then Err(NoDateInRange)
    else Ok(Counts(decks, now, dayOf))
  }

  /** A deck updated before it was created contributes no day. */
  lemma NoDaysWhenUpdatedFirst(d: Deck, now: int, dayOf: int -> int)
    requires LastActive(d, now) < d.created
    ensures Dates(d, now, dayOf) == {}
  {
  }

  /** Every person counted for a source on a day is counted for "Both" on that day. */
  lemma BothCoversSource(decks: seq<Deck>, dk: DayKey, now: int, dayOf: int -> int)
    ensures var rows := WithBoth(decks);
      Players(rows, dk, now, dayOf) <= Players(rows, DayKey(dk.key.(sourceName := Both), dk.date), now, dayOf)
  {
    var rows := WithBoth(decks);
    var bk := DayKey(dk.key.(sourceName := Both), dk.date);
    forall p | p in Players(rows, dk, now, dayOf)
      ensures p in Players(rows, bk, now, dayOf)
    {
      var i :| 0 <= i < |rows| && Active(rows[i], dk, now, dayOf) && rows[i].personId == p;
      BothRowActive(decks, i, dk, now, dayOf);
    }
  }

  /** A source row active on a day has its "Both" copy active on that day too. */
  lemma BothRowActive(decks: seq<Deck>, i: int, dk: DayKey, now: int, dayOf: int -> int)
    requires 0 <= i < |WithBoth(decks)| && Active(WithBoth(decks)[i], dk, now, dayOf)
    ensures var rows := WithBoth(decks);
      var j := if i < |decks| then i else i - |decks|;
      0 <= j < |rows| && Active(rows[j], DayKey(dk.key.(sourceName := Both), dk.date), now, dayOf)
  {
    var rows := WithBoth(decks);
    var j := if i < |decks| then i else i - |decks|;
    assert rows[j] == rows[i].(sourceName := Both);
    assert Dates(rows[j], now, dayOf) == Dates(rows[i], now, dayOf);
  }

  /** A row active for `dk` puts `dk` in the report, with the count of its players. */
  lemma ActiveRowReported(decks: seq<Deck>, i: int, dk: DayKey, now: int, dayOf: int -> int)
    requires 0 <= i < |WithBoth(decks)| && Active(WithBoth(decks)[i], dk, now, dayOf)
    ensures dk in Counts(decks, now, dayOf)
    ensures Counts(decks, now, dayOf)[dk] == |Players(WithBoth(decks), dk, now, dayOf)|
  {
  }

  /**
   * The error and the report exclude each other: the run fails exactly when no row of the
   * duplicated frame has a match and a day in its range, which is exactly when the counts
   * would be empty.
   */
  lemma {:induction false} FailsIffNothingActive(decks: seq<Deck>, now: int, dayOf: int -> int)
    ensures Execute(decks, now, dayOf).Err? <==>
      forall m :: 0 <= m < |WithBoth(decks)| ==> !Dated(WithBoth(decks)[m], now)
    ensures Execute(decks, now, dayOf).Err? <==> Counts(decks, now, dayOf) == map[]
  {
    var rows := WithBoth(decks);
    if Execute(decks, now, dayOf).Err? {
      forall m | 0 <= m < |rows|
        ensures !Dated(rows[m], now)
      {
        Origin(decks, m);
      }
      assert forall dk :: dk !in Counts(decks, now, dayOf);
    } else {
      var i :| 0 <= i < |decks| && Dated(decks[i], now);
      var d := rows[|decks| + i];
      assert d == decks[i];
      var ts := Instants(d.created, LastActive(d, now));
      assert ts[0] == d.created;
      var dk := DayKey(KeyOf(d), dayOf(ts[0]));
      assert Active(d, dk, now, dayOf);
      ActiveRowReported(decks, |decks| + i, dk, now, dayOf);
    }
  }

  /** The "Both" count of a day is at least the count of any one source on that day. */
  lemma BothCountAtLeastSource(decks: seq<Deck>, dk: DayKey, now: int, dayOf: int -> int)
    requires dk in Counts(decks, now, dayOf)
    ensures var bk := DayKey(dk.key.(sourceName := Both), dk.date);
      bk in Counts(decks, now, dayOf) && Counts(decks, now, dayOf)[bk] >= Counts(decks, now, dayOf)[dk]
  {
    var rows := WithBoth(decks);
    var bk := DayKey(dk.key.(sourceName := Both), dk.date);
    var i :| 0 <= i < |rows| && Active(rows[i], dk, now, dayOf);
    BothRowActive(decks, i, dk, now, dayOf);
    ActiveRowReported(decks, i, dk, now, dayOf);
    ActiveRowReported(decks, if i < |decks| then i else i - |decks|, bk, now, dayOf);
    BothCoversSource(decks, dk, now, dayOf);
    SubsetCard(Players(rows, dk, now, dayOf), Players(rows, bk, now, dayOf));
  }
}

=== FILE: deck_agg.dfy ===
/**
 * `ArchetypeDeckAggregator` of `aggregate/agg_arch_deck.py`: every copy tag of a board
 * is weighted by its deck's strategy weight, the weights of equal tags are summed per
 * group, and the `total` heaviest tags, stripped back to card names, form the group's
 * average list (60 maindeck and 15 sideboard cards).
 */
module DeckAggregation {
  import opened Outcomes
  import opened Records
  import opened Aggregation
  import opened Sets
  import opened CardTags

  // ----- Strategies and construction -------------------------------------------------

  datatype Strategy = Average | NetWins

  /** The columns a strategy reads. */
  function StrategyColumns(s: Strategy): seq<string>
  {
    match s
    case Average => ["matches"]
    case NetWins => ["wins", "losses"]
  }

  /** `weight_function`: the match count, or the net wins clipped at zero. */
  function Weight(s: Strategy, d: Deck): (w: int)
    ensures s == Average ==> w == d.matches
    ensures s == NetWins ==> w >= 0 && w >= d.wins - d.losses && (w == 0 || w == d.wins - d.losses)
  {
    match s
    case Average => d.matches
    case NetWins => if d.wins - d.losses > 0 then d.wins - d.losses else 0
  }

  /** The extra columns: the strategy's, or both boards when it names none, with both boards appended when missing. */
  function ExtraColumns(strategyColumns: seq<string>): (cols: seq<string>)
    ensures "maindeck" in cols && "sideboard" in cols
    ensures |cols| >= |strategyColumns| && (|strategyColumns| > 0 ==> cols[..|strategyColumns|] == strategyColumns)
    ensures forall c :: c in cols ==> c in strategyColumns || c == "maindeck" || c == "sideboard"
  {
    var base := if |strategyColumns| == 0 then ["maindeck", "sideboard"] else strategyColumns;
    var withMain := if "maindeck" in base then base else base + ["maindeck"];
    if "sideboard" in withMain then withMain else withMain + ["sideboard"]
  }

  /** The construction as written: one positional argument for a two-field dataclass. */
  function ConstructAsWritten(s: Strategy): Result<Aggregator, ConstructError>
  {
    Construct([GroupColumns + ExtraColumns(StrategyColumns(s))])
  }

  /** Building either deck aggregator as written raises before `execute` can run. */
  lemma ConstructionAsWrittenFails(s: Strategy)
    ensures ConstructAsWritten(s) == Err(WrongArgumentCount(1))
  {
  }

  /** The corrected construction: the grouping columns and the selected columns given separately. */
  function Configure(s: Strategy): (a: Aggregator)
    ensures Construct([GroupColumns, GroupColumns + ExtraColumns(StrategyColumns(s))]) == Ok(a)
    ensures a.groupbyColumns == GroupColumns
    ensures "sourceName" in a.sourceColumns && "maindeck" in a.sourceColumns && "sideboard" in a.sourceColumns
    ensures forall c :: c in StrategyColumns(s) ==> c in a.sourceColumns
  {
    var extra := ExtraColumns(StrategyColumns(s));
    assert (GroupColumns + extra)[1] == "sourceName";
    assert forall c :: c in extra ==> c in GroupColumns + extra;
    Aggregator(GroupColumns, GroupColumns + extra)
  }

  // ----- Weighted tags -------------------------------------------------------------

  /** A copy tag with the weight of the deck it came from. */
  type Weighted = (string, int)

  /** Tag `t` stands for a copy of a card on board `b` of some deck of `g`. */
  ghost predicate FromGroup(g: seq<Deck>, b: Board, t: string)
  {
    exists d :: d in g && TagOf(BoardOf(d, b), t)
  }

  /** The exploded `(card, weight)` rows of a group: each deck's tags carry the deck's weight. */
  function Units(g: seq<Deck>, s: Strategy, b: Board): (us: seq<Weighted>)
    ensures forall k :: 0 <= k < |us| ==> FromGroup(g, b, us[k].0)
  {
    if |g| == 0 then []
    else
      var d := g[|g| - 1];
      var tags := ExpandCards(BoardOf(d, b));
      var rest := Units(g[..|g| - 1], s, b);
      var mine := seq(|tags|, k requires 0 <= k < |tags| => (tags[k], Weight(s, d)));
      assert forall k :: 0 <= k < |mine| ==> mine[k].0 == tags[k];
      AppendFromGroup(g, b, rest, mine);
      rest + mine
  }

  /** The units of the front of a group and the tags of its last deck all come from the group. */
  lemma AppendFromGroup(g: seq<Deck>, b: Board, rest: seq<Weighted>, mine: seq<Weighted>)
    requires |g| > 0
    requires forall k :: 0 <= k < |rest| ==> FromGroup(g[..|g| - 1], b, rest[k].0)
    requires forall k :: 0 <= k < |mine| ==> TagOf(BoardOf(g[|g| - 1], b), mine[k].0)
    ensures forall k :: 0 <= k < |rest + mine| ==> FromGroup(g, b, (rest + mine)[k].0)
  {
    var front := g[..|g| - 1];
    forall k | 0 <= k < |rest + mine|
      ensures FromGroup(g, b, (rest + mine)[k].0)
    {
      if k < |rest| {
        assert (rest + mine)[k] == rest[k];
        var d :| d in front && TagOf(BoardOf(d, b), rest[k].0);
        assert d in g;
      } else {
        assert (rest + mine)[k] == mine[k - |rest|];
        assert g[|g| - 1] in g;
      }
    }
  }

  /** The summed weight of tag `t` (the reference for `groupby("card")["weight"].sum()`). */
  function SumFor(us: seq<Weighted>, t: string): int
  {
    if |us| == 0 then 0
    else SumFor(us[..|us| - 1], t) + (if us[|us| - 1].0 == t then us[|us| - 1].1 else 0)
  }

  lemma {:induction false} SumForAbsent(us: seq<Weighted>, t: string)
    requires forall k :: 0 <= k < |us| ==> us[k].0 != t
    ensures SumFor(us, t) == 0
    decreases |us|
  {
    if |us| > 0 {
      SumForAbsent(us[..|us| - 1], t);
    }
  }

  function TagsOf(ws: seq<Weighted>): set<string>
  {
    set k | 0 <= k < |ws| :: ws[k].0
  }

  predicate DistinctTags(ws: seq<Weighted>)
  {
    forall i, j :: 0 <= i < j < |ws| ==> ws[i].0 != ws[j].0
  }

  lemma TagsOfConcat(a: seq<Weighted>, b: seq<Weighted>)
    ensures TagsOf(a + b) == TagsOf(a) + TagsOf(b)
  {
    forall t | t in TagsOf(a + b)
      ensures t in TagsOf(a) + TagsOf(b)
    {
      var k :| 0 <= k < |a + b| && (a + b)[k].0 == t;
      if k < |a| {
        assert a[k] == (a + b)[k];
      } else {
        assert b[k - |a|] == (a + b)[k];
      }
    }
    forall t | t in TagsOf(a) + TagsOf(b)
      ensures t in TagsOf(a + b)
    {
      if t in TagsOf(a) {
        var k :| 0 <= k < |a| && a[k].0 == t;
        assert (a + b)[k] == a[k];
      } else {
        var k :| 0 <= k < |b| && b[k].0 == t;
        assert (a + b)[|a| + k] == b[k];
      }
    }
  }

  lemma TagsOfSingle(x: Weighted)
    ensures TagsOf([x]) == {x.0}
  {
    assert [x][0].0 == x.0;
  }

  /** Position of tag `t` in `ws`, or `|ws|` when absent. */
  function Find(ws: seq<Weighted>, t: string): (p: nat)
    ensures p <= |ws|
    ensures p < |ws| ==> ws[p].0 == t
    ensures p == |ws| ==> t !in TagsOf(ws)
  {
    if |ws| == 0 then 0
    else if ws[|ws| - 1].0 == t then |ws| - 1
    else
      var p := Find(ws[..|ws| - 1], t);
      TagsOfConcat(ws[..|ws| - 1], [ws[|ws| - 1]]);
      TagsOfSingle(ws[|ws| - 1]);
      assert ws[..|ws| - 1] + [ws[|ws| - 1]] == ws;
      if p < |ws| - 1 then
        assert ws[..|ws| - 1][p] == ws[p];
        p
      else |ws|
  }

  /** The summed weights of `ws` describe `us`: one entry per tag, each with the tag's total. */
  ghost predicate Totals(ws: seq<Weighted>, us: seq<Weighted>)
  {
    DistinctTags(ws) && TagsOf(ws) == TagsOf(us) && forall k :: 0 <= k < |ws| ==> ws[k].1 == SumFor(us, ws[k].0)
  }

  /** A unit whose tag is already present adds its weight to that entry. */
  lemma AddToTag(front: seq<Weighted>, u: Weighted, ws: seq<Weighted>, p: int)
    requires Totals(ws, front) && 0 <= p < |ws| && ws[p].0 == u.0
    ensures Totals(ws[p := (u.0, ws[p].1 + u.1)], front + [u])
  {
    var us := front + [u];
    var r := ws[p := (u.0, ws[p].1 + u.1)];
    assert us[..|us| - 1] == front && us[|us| - 1] == u;
    TagsOfConcat(front, [u]);
    TagsOfSingle(u);
    assert forall k :: 0 <= k < |ws| ==> r[k].0 == ws[k].0;
    assert TagsOf(r) == TagsOf(ws);
  }

  /** A unit with a new tag gets an entry of its own at the end. */
  lemma AppendTag(front: seq<Weighted>, u: Weighted, ws: seq<Weighted>)
    requires Totals(ws, front) && u.0 !in TagsOf(ws)
    ensures Totals(ws + [u], front + [u])
  {
    var us := front + [u];
    assert us[..|us| - 1] == front && us[|us| - 1] == u;
    TagsOfConcat(front, [u]);
    TagsOfConcat(ws, [u]);
    TagsOfSingle(u);
    assert forall k :: 0 <= k < |front| ==> front[k].0 in TagsOf(front);
    SumForAbsent(front, u.0);
  }

  /** One entry per distinct tag, in first-seen order, with the tag's summed weight. */
  function TagWeights(us: seq<Weighted>): (ws: seq<Weighted>)
    ensures DistinctTags(ws)
    ensures TagsOf(ws) == TagsOf(us)
    ensures forall k :: 0 <= k < |ws| ==> ws[k].1 == SumFor(us, ws[k].0)
  {
    if |us| == 0 then []
    else
      var front := us[..|us| - 1];
      var u := us[|us| - 1];
      var ws := TagWeights(front);
      assert front + [u] == us;
      var p := Find(ws, u.0);
      if p < |ws| then
        AddToTag(front, u, ws, p);
        ws[p := (u.0, ws[p].1 + u.1)]
      else
        AppendTag(front, u, ws);
        ws + [u]
  }

  // ----- Ranking -------------------------------------------------------------------

  predicate SortedDesc(ws: seq<Weighted>)
  {
    forall i, j :: 0 <= i < j < |ws| ==> ws[i].1 >= ws[j].1
  }

  /** Insert `x` after every entry at least as heavy. */
  function Insert(x: Weighted, ws: seq<Weighted>): (r: seq<Weighted>)
    requires SortedDesc(ws)
    ensures SortedDesc(r) && |r| == |ws| + 1
    ensures multiset(r) == multiset(ws) + multiset{x}
    ensures r[0] == x || (|ws| > 0 && r[0] == ws[0])
  {
    if |ws| == 0 then [x]
    else if ws[0].1 < x.1 then [x] + ws
    else
      var rest := Insert(x, ws[1..]);
      assert ws == [ws[0]] + ws[1..];
      assert rest[0].1 <= ws[0].1;
      assert forall k :: 0 <= k < |rest| ==> rest[k].1 <= rest[0].1;
      [ws[0]] + rest
  }

  lemma {:induction false} InsertTags(x: Weighted, ws: seq<Weighted>)
    requires SortedDesc(ws)
    ensures TagsOf(Insert(x, ws)) == TagsOf(ws) + {x.0}
    decreases |ws|
  {
    TagsOfSingle(x);
    if |ws| == 0 {
    } else if ws[0].1 < x.1 {
      TagsOfConcat([x], ws);
    } else {
      var rest := Insert(x, ws[1..]);
      InsertTags(x, ws[1..]);
      assert ws == [ws[0]] + ws[1..];
      TagsOfConcat([ws[0]], ws[1..]);
      TagsOfConcat([ws[0]], rest);
      TagsOfSingle(ws[0]);
    }
  }

  lemma DistinctCons(a: Weighted, ws: seq<Weighted>)
    requires DistinctTags(ws) && a.0 !in TagsOf(ws)
    ensures DistinctTags([a] + ws)
  {
    forall i, j | 0 <= i < j < |[a] + ws|
      ensures ([a] + ws)[i].0 != ([a] + ws)[j].0
    {
      assert ([a] + ws)[j] == ws[j - 1];
      if i > 0 {
        assert ([a] + ws)[i] == ws[i - 1];
      }
    }
  }

  /** A distinct sequence's front is distinct and does not hold its last tag. */
  lemma DistinctSplit(ws: seq<Weighted>)
    requires |ws| > 0
    ensures DistinctTags(ws) ==> DistinctTags(ws[..|ws| - 1]) && ws[|ws| - 1].0 !in TagsOf(ws[..|ws| - 1])
  {
    var front := ws[..|ws| - 1];
    assert forall k :: 0 <= k < |front| ==> front[k] == ws[k];
  }

  lemma {:induction false} InsertDistinct(x: Weighted, ws: seq<Weighted>)
    requires SortedDesc(ws)
    ensures DistinctTags(ws) && x.0 !in TagsOf(ws) ==> DistinctTags(Insert(x, ws))
    decreases |ws|
  {
    if !(DistinctTags(ws) && x.0 !in TagsOf(ws)) {
    } else if |ws| == 0 {
    } else if ws[0].1 < x.1 {
      DistinctCons(x, ws);
    } else {
      assert ws == [ws[0]] + ws[1..];
      TagsOfConcat([ws[0]], ws[1..]);
      TagsOfSingle(ws[0]);
      InsertDistinct(x, ws[1..]);
      InsertTags(x, ws[1..]);
      DistinctCons(ws[0], Insert(x, ws[1..]));
    }
  }

  /** Heaviest first; `sort_values` is not stable, so only the weight order is promised. */
  function SortDesc(ws: seq<Weighted>): (r: seq<Weighted>)
    ensures SortedDesc(r) && |r| == |ws|
    ensures multiset(r) == multiset(ws)
    ensures TagsOf(r) == TagsOf(ws)
    ensures DistinctTags(ws) ==> DistinctTags(r)
  {
    if |ws| == 0 then []
    else
      var front := ws[..|ws| - 1];
      assert ws == front + [ws[|ws| - 1]];
      TagsOfConcat(front, [ws[|ws| - 1]]);
      TagsOfSingle(ws[|ws| - 1]);
      InsertTags(ws[|ws| - 1], SortDesc(front));
      DistinctSplit(ws);
      InsertDistinct(ws[|ws| - 1], SortDesc(front));
      Insert(ws[|ws| - 1], SortDesc(front))
  }

  function Min(a: nat, b: nat): nat
  {
    if a <= b then a else b
  }

  /** A distinct sequence of tags has as many entries as its set. */
  lemma {:induction false} DistinctCount(ws: seq<Weighted>)
    requires DistinctTags(ws)
    ensures |TagsOf(ws)| == |ws|
    decreases |ws|
  {
    if |ws| > 0 {
      var front := ws[..|ws| - 1];
      DistinctCount(front);
      assert ws == front + [ws[|ws| - 1]];
      TagsOfConcat(front, [ws[|ws| - 1]]);
      TagsOfSingle(ws[|ws| - 1]);
      assert ws[|ws| - 1].0 !in TagsOf(front);
    }
  }

  /** Every distinct tag once, heaviest first, each with its summed weight. */
  function Ranked(us: seq<Weighted>): (ranked: seq<Weighted>)
    ensures SortedDesc(ranked) && DistinctTags(ranked)
    ensures TagsOf(ranked) == TagsOf(us) && |ranked| == |TagsOf(us)|
    ensures forall k :: 0 <= k < |ranked| ==> ranked[k].1 == SumFor(us, ranked[k].0)
  {
    var ws := TagWeights(us);
    var ranked := SortDesc(ws);
    DistinctCount(ranked);
    forall k | 0 <= k < |ranked|
      ensures ranked[k].1 == SumFor(us, ranked[k].0)
    {
      assert ranked[k] in multiset(ranked);
      assert ranked[k] in multiset(ws);
    }
    ranked
  }

  /**
   * The `total` heaviest tags of the exploded rows: as many as the smaller of `total` and
   * the number of distinct tags, each with its summed weight, and none lighter than a tag
   * left out.
   */
  function TopTags(us: seq<Weighted>, total: nat): (sel: seq<Weighted>)
    ensures |sel| == Min(total, |TagsOf(us)|)
    ensures DistinctTags(sel)
    ensures forall i :: 0 <= i < |sel| ==> sel[i].0 in TagsOf(us) && sel[i].1 == SumFor(us, sel[i].0)
  {
    var ranked := Ranked(us);
    var sel := ranked[..Min(total, |ranked|)];
    assert forall i :: 0 <= i < |sel| ==> sel[i] == ranked[i] && ranked[i].0 in TagsOf(ranked);
    sel
  }

  /** No tag left out of the selection is heavier than a selected one. */
  lemma InTagsOf(ws: seq<Weighted>, k: nat)
    requires k < |ws|
    ensures ws[k].0 in TagsOf(ws)
  {
  }

  lemma SelectedOutweighLeftOut(us: seq<Weighted>, total: nat, i: nat, t: string)
    requires i < |TopTags(us, total)|
    requires t in TagsOf(us) && t !in TagsOf(TopTags(us, total))
    ensures TopTags(us, total)[i].1 >= SumFor(us, t)
  {
    var ranked := Ranked(us);
    var m := Min(total, |ranked|);
    var sel := TopTags(us, total);
    assert sel == ranked[..m];
    forall k | 0 <= k < m
      ensures ranked[k].0 != t
    {
      assert ranked[k] == sel[k];
      InTagsOf(sel, k);
    }
    var j :| 0 <= j < |ranked| && ranked[j].0 == t;
    assert sel[i] == ranked[i];
  }

  // ----- Weights in terms of the decks ----------------------------------------------

  /** The weight of tag `t` in group `g`: every deck's weight times its copies of `t` on board `b`. */
  function GroupWeight(g: seq<Deck>, s: Strategy, b: Board, t: string): int
  {
    if |g| == 0 then 0
    else GroupWeight(g[..|g| - 1], s, b, t) + Weight(s, g[|g| - 1]) * multiset(ExpandCards(BoardOf(g[|g| - 1], b)))[t]
  }

  lemma {:induction false} SumForConcat(a: seq<Weighted>, c: seq<Weighted>, t: string)
    ensures SumFor(a + c, t) == SumFor(a, t) + SumFor(c, t)
    decreases |c|
  {
    if |c| > 0 {
      var front := c[..|c| - 1];
      assert (a + c)[..|a + c| - 1] == a + front;
      assert (a + c)[|a + c| - 1] == c[|c| - 1];
      SumForConcat(a, front, t);
    } else {
      assert a + c == a;
    }
  }

  /** Tags that all carry weight `w`, as `Units` pairs them. */
  function WithWeight(tags: seq<string>, w: int): (ws: seq<Weighted>)
    ensures |ws| == |tags| && forall k :: 0 <= k < |tags| ==> ws[k] == (tags[k], w)
  {
    seq(|tags|, k requires 0 <= k < |tags| => (tags[k], w))
  }

  /** Tags of one weight sum to the weight times the number of times the tag occurs. */
  lemma {:induction false} SumForWithWeight(tags: seq<string>, w: int, t: string)
    ensures SumFor(WithWeight(tags, w), t) == w * multiset(tags)[t]
    decreases |tags|
  {
    if |tags| > 0 {
      var front := tags[..|tags| - 1];
      var last := tags[|tags| - 1];
      var ws := WithWeight(tags, w);
      assert ws[..|ws| - 1] == WithWeight(front, w);
      SumForWithWeight(front, w, t);
      assert tags == front + [last];
      var m := multiset(front)[t];
      var add := if last == t then 1 else 0;
      assert multiset(tags)[t] == m + add;
      Distribute(w, m, add);
    }
  }

  lemma Distribute(w: int, m: int, add: int)
    ensures w * (m + add) == w * m + w * add
  {
  }

  /** The summed weight of a tag among the exploded rows is its weight in the group's decks. */
  lemma {:induction false} UnitsWeight(g: seq<Deck>, s: Strategy, b: Board, t: string)
    ensures SumFor(Units(g, s, b), t) == GroupWeight(g, s, b, t)
    decreases |g|
  {
    if |g| > 0 {
      var d := g[|g| - 1];
      var tags := ExpandCards(BoardOf(d, b));
      var rest := Units(g[..|g| - 1], s, b);
      assert Units(g, s, b) == rest + WithWeight(tags, Weight(s, d));
      SumForConcat(rest, WithWeight(tags, Weight(s, d)), t);
      SumForWithWeight(tags, Weight(s, d), t);
      UnitsWeight(g[..|g| - 1], s, b, t);
    }
  }

  /** The tags that carry one weight are the tags themselves. */
  lemma TagsOfWithWeight(tags: seq<string>, w: int, t: string)
    ensures t in TagsOf(WithWeight(tags, w)) <==> t in tags
  {
    if t in tags {
      var k :| 0 <= k < |tags| && tags[k] == t;
      assert WithWeight(tags, w)[k].0 == t;
    }
  }

  /** Some deck of `g` has tag `t` among the copies of its board `b`. */
  predicate HasTag(g: seq<Deck>, b: Board, t: string)
  {
    |g| > 0 && (HasTag(g[..|g| - 1], b, t) || t in ExpandCards(BoardOf(g[|g| - 1], b)))
  }

  /** A tag of the group is a tag of one of its decks. */
  lemma {:induction false} HasTagDeck(g: seq<Deck>, b: Board, t: string)
    requires HasTag(g, b, t)
    ensures exists j :: 0 <= j < |g| && t in ExpandCards(BoardOf(g[j], b))
    decreases |g|
  {
    var front := g[..|g| - 1];
    if HasTag(front, b, t) {
      HasTagDeck(front, b, t);
      var j :| 0 <= j < |front| && t in ExpandCards(BoardOf(front[j], b));
      assert g[j] == front[j];
    }
  }

  /** A tag of one of the decks is a tag of the group. */
  lemma {:induction false} DeckHasTag(g: seq<Deck>, b: Board, t: string, j: nat)
    requires j < |g| && t in ExpandCards(BoardOf(g[j], b))
    ensures HasTag(g, b, t)
    decreases |g|
  {
    if j < |g| - 1 {
      var front := g[..|g| - 1];
      assert front[j] == g[j];
      DeckHasTag(front, b, t, j);
    }
  }

  /** The tags among the exploded rows are exactly the tags of the group's decks. */
  lemma {:induction false} UnitsTags(g: seq<Deck>, s: Strategy, b: Board, t: string)
    ensures t in TagsOf(Units(g, s, b)) <==> HasTag(g, b, t)
    decreases |g|
  {
    if |g| > 0 {
      var front := g[..|g| - 1];
      var d := g[|g| - 1];
      var tags := ExpandCards(BoardOf(d, b));
      var mine := WithWeight(tags, Weight(s, d));
      var rest := Units(front, s, b);
      assert Units(g, s, b) == rest + mine;
      TagsOfConcat(rest, mine);
      TagsOfWithWeight(tags, Weight(s, d), t);
      UnitsTags(front, s, b, t);
    }
  }

  /**
   * The average list is made of the heaviest tags: no tag of the group's decks that is
   * left out weighs more, in the decks' own weights, than a selected one.
   */
  lemma SelectedHeaviest(g: seq<Deck>, s: Strategy, b: Board, total: nat, i: nat, t: string)
    requires i < |TopTags(Units(g, s, b), total)|
    requires HasTag(g, b, t)
    requires t !in TagsOf(TopTags(Units(g, s, b), total))
    ensures GroupWeight(g, s, b, TopTags(Units(g, s, b), total)[i].0) >= GroupWeight(g, s, b, t)
  {
    var us := Units(g, s, b);
    var sel := TopTags(us, total);
    UnitsTags(g, s, b, t);
    SelectedOutweighLeftOut(us, total, i, t);
    UnitsWeight(g, s, b, t);
    UnitsWeight(g, s, b, sel[i].0);
  }

  /** The card `c` is listed with at least one copy on board `b` of some deck of `g`. */
  ghost predicate Listed(g: seq<Deck>, b: Board, c: string)
  {
    exists d :: d in g && exists e :: e in BoardOf(d, b) && e.name == c && e.n >= 1
  }

  lemma StrippedTagListed(g: seq<Deck>, b: Board, t: string)
    requires FromGroup(g, b, t)
    ensures Listed(g, b, StripTag(t))
  {
    var d :| d in g && TagOf(BoardOf(d, b), t);
    var j, n: nat :| 0 <= j < |BoardOf(d, b)| && n < BoardOf(d, b)[j].n && t == Tag(BoardOf(d, b)[j].name, n);
    StripTagOfTag(BoardOf(d, b)[j].name, n);
    assert BoardOf(d, b)[j] in BoardOf(d, b);
  }

  /** The card names of selected tags, in selection order. */
  function Names(ws: seq<Weighted>): (names: seq<string>)
    ensures |names| == |ws| && forall i :: 0 <= i < |ws| ==> names[i] == StripTag(ws[i].0)
  {
    seq(|ws|, i requires 0 <= i < |ws| => StripTag(ws[i].0))
  }

  /** The card names of one board's average list, as counts per name (`value_counts`). */
  function AverageList(g: seq<Deck>, s: Strategy, b: Board, total: nat): (cards: multiset<string>)
    ensures cards == multiset(Names(TopTags(Units(g, s, b), total)))
    ensures |cards| == Min(total, |TagsOf(Units(g, s, b))|)
    ensures forall c :: c in cards ==> Listed(g, b, c)
  {
    var us := Units(g, s, b);
    var sel := TopTags(us, total);
    var names := Names(sel);
    forall c | c in multiset(names)
      ensures Listed(g, b, c)
    {
      var i :| 0 <= i < |names| && names[i] == c;
      var k :| 0 <= k < |us| && us[k].0 == sel[i].0;
      StrippedTagListed(g, b, us[k].0);
    }
    multiset(names)
  }

  // ----- How many copies of one card an average list can hold ------------------------------

  /** The largest count with which card `c` is listed on board `b` of a deck of `g` (0 if never). */
  function MaxCopies(g: seq<Deck>, b: Board, c: string): (m: nat)
    ensures forall d, e :: d in g && e in BoardOf(d, b) && e.name == c ==> e.n <= m
  {
    if |g| == 0 then 0
    else
      var front := MaxCopies(g[..|g| - 1], b, c);
      var mine := EntryMax(BoardOf(g[|g| - 1], b), c);
      assert forall d :: d in g ==> d in g[..|g| - 1] || d == g[|g| - 1];
      if front >= mine then front else mine
  }

  function EntryMax(entries: seq<CardEntry>, c: string): (m: nat)
    ensures forall e :: e in entries && e.name == c ==> e.n <= m
  {
    if |entries| == 0 then 0
    else
      var front := EntryMax(entries[..|entries| - 1], c);
      var last := entries[|entries| - 1];
      assert forall e :: e in entries ==> e in entries[..|entries| - 1] || e == last;
      if last.name == c && last.n > front then last.n else front
  }

  /** The distinct tags of `ws` whose entry in `names` is `c`. */
  function TagsWith(ws: seq<Weighted>, names: seq<string>, c: string): set<string>
    requires |names| == |ws|
  {
    set i | 0 <= i < |ws| && names[i] == c :: ws[i].0
  }

  lemma TagsWithSnoc(ws: seq<Weighted>, names: seq<string>, c: string)
    requires |names| == |ws| > 0
    ensures var n := |ws| - 1;
      TagsWith(ws, names, c) == TagsWith(ws[..n], names[..n], c) + (if names[n] == c then {ws[n].0} else {})
  {
    var n := |ws| - 1;
    var front, fnames := ws[..n], names[..n];
    var extra: set<string> := if names[n] == c then {ws[n].0} else {};
    forall t | t in TagsWith(ws, names, c)
      ensures t in TagsWith(front, fnames, c) + extra
    {
      var i :| 0 <= i < |ws| && names[i] == c && ws[i].0 == t;
      if i < n {
        assert front[i] == ws[i] && fnames[i] == names[i];
      }
    }
    forall t | t in TagsWith(front, fnames, c)
      ensures t in TagsWith(ws, names, c)
    {
      var i :| 0 <= i < n && fnames[i] == c && front[i].0 == t;
      assert ws[i] == front[i] && names[i] == fnames[i];
    }
    if names[n] == c {
      assert ws[n].0 in TagsWith(ws, names, c);
    }
  }

  /** The distinct selected tags whose card is `c`. */
  function TagsNamed(ws: seq<Weighted>, c: string): set<string>
  {
    TagsWith(ws, Names(ws), c)
  }

  lemma TagsNamedSnoc(ws: seq<Weighted>, c: string)
    requires |ws| > 0
    ensures var last := ws[|ws| - 1];
      TagsNamed(ws, c) == TagsNamed(ws[..|ws| - 1], c) + (if StripTag(last.0) == c then {last.0} else {})
  {
    NamesSnoc(ws);
    TagsWithSnoc(ws, Names(ws), c);
    assert Names(ws)[..|ws| - 1] == Names(ws[..|ws| - 1]);
  }

  lemma NamesSnoc(ws: seq<Weighted>)
    requires |ws| > 0
    ensures Names(ws) == Names(ws[..|ws| - 1]) + [StripTag(ws[|ws| - 1].0)]
  {
  }

  /** With distinct tags, the count of `c` among the names is the number of tags of `c`. */
  lemma {:induction false} CountIsTagsNamed(ws: seq<Weighted>, c: string)
    requires DistinctTags(ws)
    ensures multiset(Names(ws))[c] == |TagsNamed(ws, c)|
    decreases |ws|
  {
    if |ws| > 0 {
      var front := ws[..|ws| - 1];
      var last := ws[|ws| - 1];
      DistinctSplit(ws);
      CountIsTagsNamed(front, c);
      NamesSnoc(ws);
      TagsNamedSnoc(ws, c);
      assert multiset(Names(ws)) == multiset(Names(front)) + multiset{StripTag(last.0)};
      if StripTag(last.0) == c {
        assert TagsNamed(front, c) <= TagsOf(front);
      }
    }
  }

  /** The tags of the first `m` copies of `c`. */
  function CopyTags(c: string, m: nat): set<string>
  {
    set n | 0 <= n < m :: Tag(c, n)
  }

  lemma {:induction false} CopyTagsCount(c: string, m: nat)
    ensures |CopyTags(c, m)| <= m
    decreases m
  {
    if m > 0 {
      CopyTagsCount(c, m - 1);
      assert CopyTags(c, m) == CopyTags(c, m - 1) + {Tag(c, m - 1)};
    }
  }

  /** A group's tag of card `c` is the tag of a copy below the largest listed count of `c`. */
  lemma TagOfCardIsCopyTag(g: seq<Deck>, b: Board, t: string, c: string)
    requires FromGroup(g, b, t) && StripTag(t) == c
    ensures t in CopyTags(c, MaxCopies(g, b, c))
  {
    var d :| d in g && TagOf(BoardOf(d, b), t);
    var j, n: nat :| 0 <= j < |BoardOf(d, b)| && n < BoardOf(d, b)[j].n && t == Tag(BoardOf(d, b)[j].name, n);
    StripTagOfTag(BoardOf(d, b)[j].name, n);
    assert BoardOf(d, b)[j] in BoardOf(d, b);
  }

  /** No card appears in an average list more often than some deck of the group lists it. */
  lemma CopiesBounded(g: seq<Deck>, s: Strategy, b: Board, total: nat, c: string)
    ensures AverageList(g, s, b, total)[c] <= MaxCopies(g, b, c)
  {
    var us := Units(g, s, b);
    var sel := TopTags(us, total);
    CountIsTagsNamed(sel, c);
    forall t | t in TagsNamed(sel, c)
      ensures t in CopyTags(c, MaxCopies(g, b, c))
    {
      var i :| 0 <= i < |sel| && Names(sel)[i] == c && sel[i].0 == t;
      var k :| 0 <= k < |us| && us[k].0 == t;
      TagOfCardIsCopyTag(g, b, t, c);
    }
    assert TagsNamed(sel, c) <= CopyTags(c, MaxCopies(g, b, c));
    CopyTagsCount(c, MaxCopies(g, b, c));
    SubsetCard(TagsNamed(sel, c), CopyTags(c, MaxCopies(g, b, c)));
  }


  // ----- execute ---------------------------------------------------------------------

  const MaindeckTotal: nat := 60
  const SideboardTotal: nat := 15

  datatype DeckReport = DeckReport(decks: nat, maindeck: multiset<string>, sideboard: multiset<string>)

  /** One group's row: its deck count and the two average lists. */
  function Report(g: seq<Deck>, s: Strategy): (r: DeckReport)
    ensures r.decks == |g|
    ensures |r.maindeck| <= MaindeckTotal && |r.sideboard| <= SideboardTotal
  {
    DeckReport(|g|, AverageList(g, s, Maindeck, MaindeckTotal), AverageList(g, s, Sideboard, SideboardTotal))
  }

  /**
   * `execute`: one row per key of the duplicated frame (a deck's own key or its "Both"
   * key); every group has at least one deck and at most 60 + 15 cards.
   */
  function Execute(s: Strategy, decks: seq<Deck>): (r: map<Key, DeckReport>)
    ensures forall k :: k in r <==> (exists i :: 0 <= i < |decks| && Labels(decks[i], k))
    ensures forall k :: k in r ==> r[k].decks >= 1 && |r[k].maindeck| <= MaindeckTotal && |r[k].sideboard| <= SideboardTotal
    ensures forall k :: k in r ==> r[k] == Report(GroupRows(WithBoth(decks), k), s)
  {
    KeysOfWithBoth(decks);
    Reports(s, WithBoth(decks))
  }

  /** One row per group of `rows`: at least one deck and at most 60 + 15 cards each. */
  function Reports(s: Strategy, rows: seq<Deck>): (r: map<Key, DeckReport>)
    ensures forall k :: k in r <==> k in GroupKeys(rows)
    ensures forall k :: k in r ==> r[k] == Report(GroupRows(rows, k), s) && r[k].decks >= 1
  {
    forall k | k in GroupKeys(rows)
      ensures |GroupRows(rows, k)| > 0
    {
      GroupOfKeyNonEmpty(rows, k);
    }
    map k | k in GroupKeys(rows) :: Report(GroupRows(rows, k), s)
  }

  /** A group's row depends only on that group's decks. */
  lemma GroupsIndependent(s: Strategy, a: seq<Deck>, b: seq<Deck>, k: Key)
    requires k in Execute(s, a) && k in Execute(s, b)
    requires GroupRows(WithBoth(a), k) == GroupRows(WithBoth(b), k)
    ensures Execute(s, a)[k] == Execute(s, b)[k]
  {
  }
}

=== FILE: extractor.dfy ===
/**
 * `Extractor.execute` of `extract/extractor.py`: drain the page generator and
 * concatenate every page's objects into one list, or stop after the first page in
 * test mode. The generator it reads is the run of `Paginator.execute`
 * (the helper the file imports under another name is not part of this model).
 */
module Extractor {
  import opened Outcomes
  import opened Values
  import opened Pagination

  datatype ExtractError =
    | WalkFailed(error: WalkError)  // the exception that ended the generator
    | NotIterable(page: nat)        // `list.extend` on a scalar page

  /** What `list.extend(v)` appends: the items of a list, the keys of a dict, the characters of a string. */
  function Iterate(v: Value): (r: Option<seq<Value>>)
    ensures v.List? ==> r == Some(v.items)
    ensures r.None? <==> !(v.List? || v.Dict? || v.Str?)
    ensures r.Some? ==> Size(v) == Some(|r.value|)
    ensures r.Some? && v.Dict? ==> forall k :: 0 <= k < |v.entries| ==> r.value[k] == Str(v.entries[k].0)
    ensures r.Some? && v.Str? ==> forall k :: 0 <= k < |v.s| ==> r.value[k] == Str([v.s[k]])
  {
    match v
    case List(items) => Some(items)
    case Dict(entries) => Some(seq(|entries|, k requires 0 <= k < |entries| => Str(entries[k].0)))
    case Str(s) => Some(seq(|s|, k requires 0 <= k < |s| => Str([s[k]])))
    case _ => None
  }

  /** The value a page hands to `extend`. */
  function PageValue(page: Page): Value
  {
    match page
    case Objects(objs) => objs
    case Raw(body) => body
  }

  /** Total number of items over the pages that can be iterated. */
  function ObjectCount(pages: seq<Page>): nat
  {
    if |pages| == 0 then 0
    else
      (match Size(PageValue(pages[|pages| - 1])) case Some(n) => n case None => 0) + ObjectCount(pages[..|pages| - 1])
  }

  /** The items one page contributes: none when it cannot be iterated. */
  function PageItems(page: Page): seq<Value>
  {
    match Iterate(PageValue(page)) case Some(items) => items case None => []
  }

  /** The items of all iterable pages, in page order (the reference definition of the concatenation). */
  function Flatten(pages: seq<Page>): seq<Value>
  {
    if |pages| == 0 then [] else Flatten(pages[..|pages| - 1]) + PageItems(pages[|pages| - 1])
  }

  /** `objects.extend(res)` over the pages in order; the first page that cannot be iterated raises. */
  function Extend(pages: seq<Page>): (r: Result<seq<Value>, ExtractError>)
    ensures r.Err? <==> exists k :: 0 <= k < |pages| && Iterate(PageValue(pages[k])).None?
    ensures r.Err? ==>
      r.error.NotIterable? && r.error.page < |pages| && Iterate(PageValue(pages[r.error.page])).None? &&
      forall k :: 0 <= k < r.error.page ==> Iterate(PageValue(pages[k])).Some?
    ensures r.Ok? ==> r.value == Flatten(pages) && |r.value| == ObjectCount(pages)
  {
    if |pages| == 0 then Ok([])
    else
      var front := pages[..|pages| - 1];
      assert forall k :: 0 <= k < |front| ==> front[k] == pages[k];
      var done :- Extend(front);
      match Iterate(PageValue(pages[|pages| - 1]))
      case None => Err(NotIterable(|pages| - 1))
      case Some(items) => Ok(done + items)
  }

  /** The concatenation splits over the pages: the items of `a + b` are those of `a`, then those of `b`. */
  lemma {:induction false} FlattenConcat(a: seq<Page>, b: seq<Page>)
    ensures Flatten(a + b) == Flatten(a) + Flatten(b)
    decreases |b|
  {
    if |b| == 0 {
      assert a + b == a;
    } else {
      var front := b[..|b| - 1];
      var last := PageItems(b[|b| - 1]);
      assert (a + b)[..|a + b| - 1] == a + front;
      assert (a + b)[|a + b| - 1] == b[|b| - 1];
      FlattenConcat(a, front);
      calc {
        Flatten(a + b);
        Flatten(a + front) + last;
        (Flatten(a) + Flatten(front)) + last;
        Flatten(a) + (Flatten(front) + last);
        Flatten(a) + Flatten(b);
      }
    }
  }

  /** One page contributes exactly its own items. */
  lemma FlattenOne(page: Page)
    ensures Flatten([page]) == PageItems(page)
    ensures Iterate(PageValue(page)).Some? ==> Flatten([page]) == Iterate(PageValue(page)).value
  {
    assert [page][..0] == [];
  }

  /**
   * Extending over `a + b` succeeds exactly when it succeeds over each part, and then
   * gives the items of `a` followed by those of `b`.
   */
  lemma ExtendConcat(a: seq<Page>, b: seq<Page>)
    ensures Extend(a + b).Ok? <==> Extend(a).Ok? && Extend(b).Ok?
    ensures Extend(a + b).Ok? ==> Extend(a + b).value == Extend(a).value + Extend(b).value
  {
    var ab := a + b;
    assert forall k :: 0 <= k < |a| ==> ab[k] == a[k];
    assert forall k :: 0 <= k < |b| ==> ab[|a| + k] == b[k];
    if Extend(ab).Err? {
      var k :| 0 <= k < |ab| && Iterate(PageValue(ab[k])).None?;
      if k >= |a| {
        assert Iterate(PageValue(b[k - |a|])).None?;
      }
    }
    FlattenConcat(a, b);
  }

  /**
   * `Extractor.execute` over a generator run: all pages and then the generator's own
   * ending, or in test mode only the first page (the generator is never resumed, so
   * what would have ended it is never seen).
   */
  function Execute(w: Walk, test: bool): (r: Result<seq<Value>, ExtractError>)
    ensures |w.pages| == 0 && w.end.Exhausted? ==> r == Ok([])
    ensures |w.pages| == 0 && w.end.Failed? ==> r == Err(WalkFailed(w.end.error))
    ensures test && |w.pages| > 0 ==> r == Extend(w.pages[..1])
    ensures test && |w.pages| > 0 ==>
      match Iterate(PageValue(w.pages[0]))
      case Some(items) => r == Ok(items)
      case None => r == Err(NotIterable(0))
    ensures !test && w.end.Failed? ==> r.Err?
    ensures !test && w.end.Exhausted? ==>
      (r.Ok? <==> forall k :: 0 <= k < |w.pages| ==> Iterate(PageValue(w.pages[k])).Some?)
    ensures !test && r.Ok? ==> r.value == Flatten(w.pages) && |r.value| == ObjectCount(w.pages)
  {
    if test && |w.pages| > 0 then
      var first := w.pages[..1];
      assert first[..0] == [] && first[0] == w.pages[0];
      assert first[..|first| - 1] == [];
      match Iterate(PageValue(w.pages[0]))
      case Some(items) =>
        assert Flatten(first) == [] + items == items;
        assert forall k :: 0 <= k < |first| ==> Iterate(PageValue(first[k])).Some?;
        assert Extend(first) == Ok(items);
        Extend(first)
      case None => Extend(first)
    else
      var objects :- Extend(w.pages);
      if w.end.Failed? then Err(WalkFailed(w.end.error)) else Ok(objects)
  }

  /**
   * Over a walk that ran to its end, the pages are the first envelope's "objects" followed
   * by the "objects" of each later page's 200 answer, and the extraction succeeds exactly
   * when every page can be iterated, and is then every page's items in order.
   */
  lemma ExhaustedWalkExtractsAll(p: Paginator, server: Server, gap: nat -> real)
    requires Pagination.Execute(p, server, gap).end.Exhausted?
    ensures var w := Pagination.Execute(p, server, gap);
      (forall k :: 0 <= k < |w.pages| ==> w.pages[k].Objects?) &&
      (Execute(w, false).Ok? <==> forall k :: 0 <= k < |w.pages| ==> Iterate(w.pages[k].objs).Some?) &&
      (Execute(w, false).Ok? ==> Execute(w, false).value == Flatten(w.pages))
    ensures var w := Pagination.Execute(p, server, gap); var o := Open(p, server);
      && o.Opened? && IsEnvelope(o.response.body)
      && w.pages[0] == Objects(Field(o.response.body, "objects").value)
      && |w.pages| == |w.starts| + 1 && (|w.starts| > 0 ==> w.starts[0] == o.requests)
      && forall k :: 1 <= k < |w.pages| ==> Served(PageFetch(p, server, o.params, w.starts[k - 1], k).Response(), w.pages[k])
  {
    var w := Pagination.Execute(p, server, gap);
    assert forall k :: 0 <= k < |w.pages| ==> PageValue(w.pages[k]) == w.pages[k].objs;
  }
}

=== FILE: loader.dfy ===
/**
 * `Loader.execute` of `scraper/load/load.py`: the batch of decks is split into people,
 * archetype, deck and card-line rows, and written to the database so that every deck of
 * the batch ends up with exactly the card lines of the batch. The database is a set of
 * abstract tables: people, archetypes and decks map an id to a row and are written by
 * upsert; the two card-line tables are sequences of `(deckId, n, name)` rows with
 * generated ids, written by insert; the temporary id table is a set that may not exist.
 */
module Loader {
  import opened Outcomes
  import opened Values
  import opened Records

  /** No element appears twice. */
  predicate NoDuplicates<T(==,!new)>(xs: seq<T>)
  {
    forall i, j :: 0 <= i < j < |xs| ==> xs[i] != xs[j]
  }

  /** `drop_duplicates`: the first occurrence of every element, in input order. */
  function DropDuplicates<T(==,!new)>(xs: seq<T>): (r: seq<T>)
    ensures forall x :: x in r <==> x in xs
    ensures NoDuplicates(r)
    ensures |r| <= |xs|
  {
    if |xs| == 0 then []
    else
      var front := DropDuplicates(xs[..|xs| - 1]);
      assert forall x :: x in xs <==> x in xs[..|xs| - 1] || x == xs[|xs| - 1];
      if xs[|xs| - 1] in xs[..|xs| - 1] then front else front + [xs[|xs| - 1]]
  }

  /** The people rows `(id, name)`: the distinct `(personId, person)` pairs. */
  function People(batch: seq<Deck>): (rows: seq<(int, string)>)
    ensures NoDuplicates(rows)
    ensures forall p :: p in rows <==> exists i :: 0 <= i < |batch| && p == (batch[i].personId, batch[i].person)
  {
    var pairs := seq(|batch|, i requires 0 <= i < |batch| => (batch[i].personId, batch[i].person));
    forall p | p in pairs
      ensures exists i :: 0 <= i < |batch| && p == (batch[i].personId, batch[i].person)
    {
      var i :| 0 <= i < |pairs| && pairs[i] == p;
    }
    forall i | 0 <= i < |batch|
      ensures (batch[i].personId, batch[i].person) in pairs
    {
      assert pairs[i] == (batch[i].personId, batch[i].person);
    }
    DropDuplicates(pairs)
  }

  /** The archetype rows `(id, archetype)`: the distinct `(archetypeId, archetypeName)` pairs. */
  function Archetypes(batch: seq<Deck>): (rows: seq<(int, string)>)
    ensures NoDuplicates(rows)
    ensures forall a :: a in rows <==> exists i :: 0 <= i < |batch| && a == (batch[i].archetypeId, batch[i].archetypeName)
  {
    var pairs := seq(|batch|, i requires 0 <= i < |batch| => (batch[i].archetypeId, batch[i].archetypeName));
    forall a | a in pairs
      ensures exists i :: 0 <= i < |batch| && a == (batch[i].archetypeId, batch[i].archetypeName)
    {
      var i :| 0 <= i < |pairs| && pairs[i] == a;
    }
    forall i | 0 <= i < |batch|
      ensures (batch[i].archetypeId, batch[i].archetypeName) in pairs
    {
      assert pairs[i] == (batch[i].archetypeId, batch[i].archetypeName);
    }
    DropDuplicates(pairs)
  }

  /** A row of the decks table: the deck without its boards, person name and archetype name. */
  datatype DeckRow = DeckRow(
    id: int, seasonId: int, sourceName: string, personId: int, archetypeId: int,
    wins: int, losses: int, draws: int, matches: int,
    created: int, updated: Option<int>, attributes: seq<(string, Value)>)

  function DeckRowOf(d: Deck): DeckRow
  {
    DeckRow(d.id, d.seasonId, d.sourceName, d.personId, d.archetypeId,
      d.wins, d.losses, d.draws, d.matches, d.created, d.updated, d.attributes)
  }

  /** Dropping the four columns loses nothing else: the deck is its row plus the dropped columns. */
  lemma DeckRowKeepsColumns(d: Deck)
    ensures var r := DeckRowOf(d);
      d == Deck(r.id, r.seasonId, r.sourceName, r.personId, d.person, r.archetypeId, d.archetypeName,
        r.wins, r.losses, r.draws, r.matches, r.created, r.updated, d.maindeck, d.sideboard, r.attributes)
  {
  }

  /** The deck rows keyed by id, in batch order. */
  function DeckRows(batch: seq<Deck>): (rows: seq<(int, DeckRow)>)
    ensures |rows| == |batch|
    ensures forall i :: 0 <= i < |batch| ==> rows[i] == (batch[i].id, DeckRowOf(batch[i]))
  {
    seq(|batch|, i requires 0 <= i < |batch| => (batch[i].id, DeckRowOf(batch[i])))
  }

  /** The distinct deck ids of the batch: the contents of the temporary id table. */
  function BatchIds(batch: seq<Deck>): (ids: set<int>)
    ensures forall id :: id in ids <==> exists i :: 0 <= i < |batch| && batch[i].id == id
  {
    set i | 0 <= i < |batch| :: batch[i].id
  }

  /** A row of the maindecks or sideboards table. */
  datatype CardLine = CardLine(deckId: int, n: int, name: string)

  /** The number of card entries on board `b` over the batch. */
  function EntryCount(batch: seq<Deck>, b: Board): nat
  {
    if |batch| == 0 then 0 else EntryCount(batch[..|batch| - 1], b) + |BoardOf(batch[|batch| - 1], b)|
  }

  /** The lines of one deck's board. */
  function LinesOf(d: Deck, b: Board): (lines: seq<CardLine>)
    ensures |lines| == |BoardOf(d, b)|
    ensures forall j :: 0 <= j < |lines| ==> lines[j] == CardLine(d.id, BoardOf(d, b)[j].n, BoardOf(d, b)[j].name)
  {
    seq(|BoardOf(d, b)|, j requires 0 <= j < |BoardOf(d, b)| => CardLine(d.id, BoardOf(d, b)[j].n, BoardOf(d, b)[j].name))
  }

  /** Line `l` stands for an entry of deck `d`'s board `b`. */
  predicate LineOf(d: Deck, b: Board, l: CardLine)
  {
    exists j :: 0 <= j < |BoardOf(d, b)| && l == CardLine(d.id, BoardOf(d, b)[j].n, BoardOf(d, b)[j].name)
  }

  /**
   * The exploded board: one line per card entry, decks in batch order; an empty board
   * explodes to a missing value, which is dropped, so it gives no line.
   */
  function Lines(batch: seq<Deck>, b: Board): (lines: seq<CardLine>)
    ensures |lines| == EntryCount(batch, b)
  {
    if |batch| == 0 then [] else Lines(batch[..|batch| - 1], b) + LinesOf(batch[|batch| - 1], b)
  }

  /** Every line stands for a card entry of some deck of the batch. */
  lemma {:induction false} LinesSound(batch: seq<Deck>, b: Board)
    ensures forall l :: l in Lines(batch, b) ==> exists i :: 0 <= i < |batch| && LineOf(batch[i], b, l)
    decreases |batch|
  {
    if |batch| > 0 {
      var front := batch[..|batch| - 1];
      var last := batch[|batch| - 1];
      LinesSound(front, b);
      forall l | l in Lines(batch, b)
        ensures exists i :: 0 <= i < |batch| && LineOf(batch[i], b, l)
      {
        if l in Lines(front, b) {
          var i :| 0 <= i < |front| && LineOf(front[i], b, l);
          assert batch[i] == front[i];
        } else {
          var own := LinesOf(last, b);
          var j :| 0 <= j < |own| && own[j] == l;
          assert LineOf(batch[|batch| - 1], b, l);
        }
      }
    }
  }

  /** Every card entry of every deck of the batch has its line. */
  lemma {:induction false} LinesComplete(batch: seq<Deck>, b: Board)
    ensures forall i, j :: 0 <= i < |batch| && 0 <= j < |BoardOf(batch[i], b)| ==>
      CardLine(batch[i].id, BoardOf(batch[i], b)[j].n, BoardOf(batch[i], b)[j].name) in Lines(batch, b)
    decreases |batch|
  {
    if |batch| > 0 {
      var front := batch[..|batch| - 1];
      LinesComplete(front, b);
      forall i, j | 0 <= i < |batch| && 0 <= j < |BoardOf(batch[i], b)|
        ensures CardLine(batch[i].id, BoardOf(batch[i], b)[j].n, BoardOf(batch[i], b)[j].name) in Lines(batch, b)
      {
        if i < |front| {
          assert batch[i] == front[i];
        } else {
          assert LinesOf(batch[i], b)[j] == CardLine(batch[i].id, BoardOf(batch[i], b)[j].n, BoardOf(batch[i], b)[j].name);
        }
      }
    }
  }

  /** The database: the four keyed tables, the two card-line tables and the temporary id table. */
  datatype Store = Store(
    people: map<int, string>, archetypes: map<int, string>, decks: map<int, DeckRow>,
    maindecks: seq<CardLine>, sideboards: seq<CardLine>, temp: Option<set<int>>)

  function Table(s: Store, b: Board): seq<CardLine>
  {
    match b
    case Maindeck => s.maindecks
    case Sideboard => s.sideboards
  }

  /** The foreign keys of the schema: card lines name a stored deck, decks a stored person and archetype. */
  predicate ForeignKeys(s: Store)
  {
    (forall l :: l in s.maindecks ==> l.deckId in s.decks) &&
    (forall l :: l in s.sideboards ==> l.deckId in s.decks) &&
    (forall id :: id in s.decks ==> s.decks[id].personId in s.people && s.decks[id].archetypeId in s.archetypes)
  }


  /** The keys a batch of keyed rows writes. */
  function KeysOf<V>(rows: seq<(int, V)>): (ks: set<int>)
    ensures forall k :: k in ks <==> exists i :: 0 <= i < |rows| && rows[i].0 == k
  {
    set i | 0 <= i < |rows| :: rows[i].0
  }

  /** Row `rows[i]` is the last one with key `k`. */
  predicate LastFor<V>(rows: seq<(int, V)>, k: int, i: int)
  {
    0 <= i < |rows| && rows[i].0 == k && forall j :: i < j < |rows| ==> rows[j].0 != k
  }

  /** The position of the last row with key `k`. */
  function LastIndex<V>(rows: seq<(int, V)>, k: int): (i: int)
    requires k in KeysOf(rows)
    ensures LastFor(rows, k, i)
  {
    if rows[|rows| - 1].0 == k then |rows| - 1
    else
      var front := rows[..|rows| - 1];
      assert k in KeysOf(front) by {
        var i :| 0 <= i < |rows| && rows[i].0 == k;
        assert front[i] == rows[i];
      }
      LastIndex(front, k)
  }

  /**
   * An insert with `ON CONFLICT DO UPDATE`, row by row: the table gains every key of the
   * batch and keeps every other key.
   */
  function Upsert<V>(m: map<int, V>, rows: seq<(int, V)>): (r: map<int, V>)
    ensures r.Keys == m.Keys + KeysOf(rows)
  {
    if |rows| == 0 then m
    else
      var front := rows[..|rows| - 1];
      assert KeysOf(rows) == KeysOf(front) + {rows[|rows| - 1].0} by {
        forall k | k in KeysOf(rows) && k != rows[|rows| - 1].0
          ensures k in KeysOf(front)
        {
          var i :| 0 <= i < |rows| && rows[i].0 == k;
          assert front[i] == rows[i];
        }
      }
      Upsert(m, front)[rows[|rows| - 1].0 := rows[|rows| - 1].1]
  }

  /** A key the batch writes holds the value of the batch's last row with that key. */
  lemma {:induction false} UpsertLast<V>(m: map<int, V>, rows: seq<(int, V)>, k: int, i: int)
    requires LastFor(rows, k, i)
    ensures k in Upsert(m, rows) && Upsert(m, rows)[k] == rows[i].1
    decreases |rows|
  {
    if i < |rows| - 1 {
      var front := rows[..|rows| - 1];
      assert LastFor(front, k, i);
      UpsertLast(m, front, k, i);
    }
  }

  /** A key the batch does not write keeps its value. */
  lemma {:induction false} UpsertUntouched<V>(m: map<int, V>, rows: seq<(int, V)>, k: int)
    requires k !in KeysOf(rows)
    ensures k in Upsert(m, rows) <==> k in m
    ensures k in m ==> Upsert(m, rows)[k] == m[k]
    decreases |rows|
  {
    if |rows| > 0 {
      var front := rows[..|rows| - 1];
      assert rows[|rows| - 1].0 != k;
      assert k !in KeysOf(front) by {
        forall i | 0 <= i < |front|
          ensures front[i].0 != k
        {
          assert front[i] == rows[i];
        }
      }
      UpsertUntouched(m, front, k);
    }
  }

  /** Upserting the same rows twice leaves what upserting them once left. */
  lemma UpsertIdempotent<V>(m: map<int, V>, rows: seq<(int, V)>)
    ensures Upsert(Upsert(m, rows), rows) == Upsert(m, rows)
  {
    var once := Upsert(m, rows);
    var twice := Upsert(once, rows);
    forall k | k in twice
      ensures twice[k] == once[k]
    {
      if k in KeysOf(rows) {
        var i := LastIndex(rows, k);
        UpsertLast(m, rows, k, i);
        UpsertLast(once, rows, k, i);
      } else {
        UpsertUntouched(once, rows, k);
      }
    }
  }

  /** The card lines of decks outside `ids`, in table order. */
  function Outside(lines: seq<CardLine>, ids: set<int>): (r: seq<CardLine>)
    ensures |r| <= |lines|
  {
    if |lines| == 0 then []
    else
      var front := Outside(lines[..|lines| - 1], ids);
      var last := lines[|lines| - 1];
      if last.deckId in ids then front else front + [last]
  }

  /** The card lines of decks in `ids`, in table order. */
  function Inside(lines: seq<CardLine>, ids: set<int>): (r: seq<CardLine>)
    ensures |r| <= |lines|
  {
    if |lines| == 0 then []
    else
      var front := Inside(lines[..|lines| - 1], ids);
      var last := lines[|lines| - 1];
      if last.deckId in ids then front + [last] else front
  }

  /** The two selections keep exactly the lines inside, and exactly the lines outside, `ids`. */
  lemma {:induction false} SelectMembers(lines: seq<CardLine>, ids: set<int>)
    ensures forall l :: l in Inside(lines, ids) <==> l in lines && l.deckId in ids
    ensures forall l :: l in Outside(lines, ids) <==> l in lines && l.deckId !in ids
    decreases |lines|
  {
    if |lines| > 0 {
      var front := lines[..|lines| - 1];
      var last := lines[|lines| - 1];
      SelectMembers(front, ids);
      assert front + [last] == lines;
      assert forall l :: l in lines <==> l in front || l == last;
    }
  }

  /** Selecting from a concatenation selects from each part. */
  lemma {:induction false} SelectConcat(a: seq<CardLine>, b: seq<CardLine>, ids: set<int>)
    ensures Outside(a + b, ids) == Outside(a, ids) + Outside(b, ids)
    ensures Inside(a + b, ids) == Inside(a, ids) + Inside(b, ids)
    decreases |b|
  {
    if |b| == 0 {
      assert a + b == a;
    } else {
      var b' := b[..|b| - 1];
      var last := b[|b| - 1];
      assert (a + b)[..|a + b| - 1] == a + b' && (a + b)[|a + b| - 1] == last;
      SelectConcat(a, b', ids);
      if last.deckId in ids {
        assert Outside(a + b, ids) == Outside(a + b', ids) && Outside(b, ids) == Outside(b', ids);
        assert Inside(a + b, ids) == Inside(a + b', ids) + [last] && Inside(b, ids) == Inside(b', ids) + [last];
      } else {
        assert Outside(a + b, ids) == Outside(a + b', ids) + [last] && Outside(b, ids) == Outside(b', ids) + [last];
        assert Inside(a + b, ids) == Inside(a + b', ids) && Inside(b, ids) == Inside(b', ids);
      }
    }
  }

  /** Selecting lines that all lie inside `ids` keeps them all and drops none. */
  lemma {:induction false} AllInside(lines: seq<CardLine>, ids: set<int>)
    requires forall k :: 0 <= k < |lines| ==> lines[k].deckId in ids
    ensures Inside(lines, ids) == lines && Outside(lines, ids) == []
    decreases |lines|
  {
    if |lines| > 0 {
      var front := lines[..|lines| - 1];
      assert forall k :: 0 <= k < |front| ==> front[k] == lines[k];
      var last := lines[|lines| - 1];
      AllInside(front, ids);
      assert Inside(lines, ids) == Inside(front, ids) + [last] && Outside(lines, ids) == Outside(front, ids);
      assert front + [last] == lines;
    }
  }

  /** Selecting lines that all lie outside `ids` keeps none and drops them all. */
  lemma {:induction false} AllOutside(lines: seq<CardLine>, ids: set<int>)
    requires forall k :: 0 <= k < |lines| ==> lines[k].deckId !in ids
    ensures Inside(lines, ids) == [] && Outside(lines, ids) == lines
    decreases |lines|
  {
    if |lines| > 0 {
      var front := lines[..|lines| - 1];
      assert forall k :: 0 <= k < |front| ==> front[k] == lines[k];
      var last := lines[|lines| - 1];
      AllOutside(front, ids);
      assert Inside(lines, ids) == Inside(front, ids) && Outside(lines, ids) == Outside(front, ids) + [last];
      assert front + [last] == lines;
    }
  }

  /** Selecting lines that all lie inside (or all outside) `ids` keeps (or drops) them all. */
  lemma SelectAll(lines: seq<CardLine>, ids: set<int>)
    ensures (forall l :: l in lines ==> l.deckId in ids) ==> Inside(lines, ids) == lines && Outside(lines, ids) == []
    ensures (forall l :: l in lines ==> l.deckId !in ids) ==> Inside(lines, ids) == [] && Outside(lines, ids) == lines
  {
    if forall l :: l in lines ==> l.deckId in ids {
      AllInside(lines, ids);
    }
    if forall l :: l in lines ==> l.deckId !in ids {
      AllOutside(lines, ids);
    }
  }

  /** Every line of the batch names a deck of the batch. */
  lemma LinesInBatch(batch: seq<Deck>, b: Board)
    ensures forall l :: l in Lines(batch, b) ==> l.deckId in BatchIds(batch)
  {
    LinesSound(batch, b);
    forall l | l in Lines(batch, b)
      ensures l.deckId in BatchIds(batch)
    {
      var i :| 0 <= i < |batch| && LineOf(batch[i], b, l);
    }
  }

  /** The number of temporary ids already in the decks table. */
  function Existing(s: Store, batch: seq<Deck>): (n: nat)
    ensures n > 0 <==> exists i :: 0 <= i < |batch| && batch[i].id in s.decks
  {
    var common := BatchIds(batch) * s.decks.Keys;
    if exists i :: 0 <= i < |batch| && batch[i].id in s.decks then
      var i :| 0 <= i < |batch| && batch[i].id in s.decks;
      assert batch[i].id in common;
      |common|
    else
      assert common == {};
      0
  }

  /**
   * The states a reader can observe: the commit after the delete (only when some batch
   * deck is already stored), and the state after the last commit. `raised` records that
   * `execute` stopped with an exception; `final` is then what its earlier writers committed.
   */
  datatype Commits = Commits(afterDelete: Option<Store>, final: Store, raised: bool)

  /**
   * The card frames get their three column names only when the board has some entry: an
   * exploded board with no entry gives `pd.DataFrame([])`, which has no columns, so the
   * frame keeps the id column alone and renaming it to three names raises `ValueError`.
   */
  predicate CardFramesNamed(batch: seq<Deck>)
  {
    EntryCount(batch, Maindeck) > 0 && EntryCount(batch, Sideboard) > 0
  }

  /** People and archetypes are written first, each by its own writer and transaction. */
  function WriteReferences(s: Store, batch: seq<Deck>): Store
  {
    s.(people := Upsert(s.people, People(batch)), archetypes := Upsert(s.archetypes, Archetypes(batch)))
  }

  /** The temporary table gets the batch ids; when some batch deck is stored, the lines of every batch deck are deleted. */
  function DeleteLines(s: Store, batch: seq<Deck>): Store
  {
    var ids := BatchIds(batch);
    if Existing(s, batch) > 0 then
      s.(maindecks := Outside(s.maindecks, ids), sideboards := Outside(s.sideboards, ids), temp := Some(ids))
    else s.(temp := Some(ids))
  }

  /** The upsert of the deck rows and the insert of the new card lines; then the temporary table is dropped. */
  function WriteDecks(s: Store, batch: seq<Deck>): Store
  {
    s.(decks := Upsert(s.decks, DeckRows(batch)),
       maindecks := s.maindecks + Lines(batch, Maindeck),
       sideboards := s.sideboards + Lines(batch, Sideboard),
       temp := None)
  }

  /**
   * `execute`, as the sequence of committed states. A board without any entry over the
   * whole batch (an empty batch included) makes the column rename raise after people and
   * archetypes are written and before the database connection is opened.
   */
  function Load(s: Store, batch: seq<Deck>): (c: Commits)
    ensures c.raised <==> EntryCount(batch, Maindeck) == 0 || EntryCount(batch, Sideboard) == 0
    ensures c.afterDelete.Some? <==> !c.raised && exists i :: 0 <= i < |batch| && batch[i].id in s.decks
    ensures c.raised ==>
      c.final.decks == s.decks && c.final.maindecks == s.maindecks && c.final.sideboards == s.sideboards && c.final.temp == s.temp
    ensures !c.raised ==> c.final.temp == None
    ensures !c.raised ==> c.final.decks.Keys == s.decks.Keys + BatchIds(batch)
  {
    var s1 := WriteReferences(s, batch);
    if !CardFramesNamed(batch) then Commits(None, s1, true)
    else
      var s2 := DeleteLines(s1, batch);
      assert KeysOf(DeckRows(batch)) == BatchIds(batch);
      Commits(if Existing(s1, batch) > 0 then Some(s2) else None, WriteDecks(s2, batch), false)
  }

  /** The people and archetype rows carry the id of every deck's person and archetype. */
  lemma ReferenceKeys(batch: seq<Deck>, i: int)
    requires 0 <= i < |batch|
    ensures batch[i].personId in KeysOf(People(batch)) && batch[i].archetypeId in KeysOf(Archetypes(batch))
  {
    var people, archetypes := People(batch), Archetypes(batch);
    assert (batch[i].personId, batch[i].person) in people;
    assert (batch[i].archetypeId, batch[i].archetypeName) in archetypes;
    var j :| 0 <= j < |people| && people[j] == (batch[i].personId, batch[i].person);
    var k :| 0 <= k < |archetypes| && archetypes[k] == (batch[i].archetypeId, batch[i].archetypeName);
  }

  /** Every deck of the batch has its person and its archetype stored after the load. */
  lemma LoadStoresReferences(s: Store, batch: seq<Deck>)
    ensures forall i :: 0 <= i < |batch| ==>
      batch[i].personId in Load(s, batch).final.people && batch[i].archetypeId in Load(s, batch).final.archetypes
  {
    FinalReferences(s, batch);
    var people := Upsert(s.people, People(batch));
    var archetypes := Upsert(s.archetypes, Archetypes(batch));
    forall i | 0 <= i < |batch|
      ensures batch[i].personId in people && batch[i].archetypeId in archetypes
    {
      ReferenceKeys(batch, i);
    }
  }

  /** The load writes the people and archetype tables once, from the batch. */
  lemma FinalReferences(s: Store, batch: seq<Deck>)
    ensures Load(s, batch).final.people == Upsert(s.people, People(batch))
    ensures Load(s, batch).final.archetypes == Upsert(s.archetypes, Archetypes(batch))
  {
    LoadFinal(s, batch);
    DeleteKeepsRows(WriteReferences(s, batch), batch);
  }

  /** A completed load writes the decks table once, by upserting the batch's deck rows. */
  lemma FinalDecks(s: Store, batch: seq<Deck>)
    requires !Load(s, batch).raised
    ensures Load(s, batch).final.decks == Upsert(s.decks, DeckRows(batch))
  {
    LoadFinal(s, batch);
    DeleteKeepsRows(WriteReferences(s, batch), batch);
  }

  /** A completed load appends the batch's card lines to what the delete kept. */
  lemma FinalLines(s: Store, batch: seq<Deck>, b: Board)
    requires !Load(s, batch).raised
    ensures Table(Load(s, batch).final, b) == Table(DeleteLines(WriteReferences(s, batch), batch), b) + Lines(batch, b)
  {
    LoadFinal(s, batch);
  }

  /** The committed end state: references written, lines deleted, decks and lines written. */
  lemma LoadFinal(s: Store, batch: seq<Deck>)
    ensures !Load(s, batch).raised ==> Load(s, batch).final == WriteDecks(DeleteLines(WriteReferences(s, batch), batch), batch)
    ensures Load(s, batch).raised ==> Load(s, batch).final == WriteReferences(s, batch)
  {
  }

  /** The delete touches only the card lines and the temporary table. */
  lemma DeleteKeepsRows(s: Store, batch: seq<Deck>)
    ensures var d := DeleteLines(s, batch);
      d.decks == s.decks && d.people == s.people && d.archetypes == s.archetypes
  {
  }

  /** After a completed load, a deck of the batch holds the row of the batch's last deck with its id. */
  lemma LoadStoresLastRow(s: Store, batch: seq<Deck>, i: int)
    requires 0 <= i < |batch| && LastFor(DeckRows(batch), batch[i].id, i)
    ensures !Load(s, batch).raised ==> Load(s, batch).final.decks[batch[i].id] == DeckRowOf(batch[i])
  {
    UpsertLast(DeleteLines(WriteReferences(s, batch), batch).decks, DeckRows(batch), batch[i].id, i);
  }

  /** The card lines left before the insert: the lines of decks outside the batch, when the foreign keys hold. */
  lemma {:induction false} KeptLines(s: Store, batch: seq<Deck>, b: Board)
    requires ForeignKeys(s)
    ensures var ids := BatchIds(batch);
      var rest := Table(DeleteLines(WriteReferences(s, batch), batch), b);
      rest == Outside(Table(s, b), ids) && Inside(rest, ids) == [] && Outside(rest, ids) == rest
  {
    var ids := BatchIds(batch);
    var s1 := WriteReferences(s, batch);
    var rest := Table(DeleteLines(s1, batch), b);
    SelectMembers(Table(s, b), ids);
    if Existing(s1, batch) == 0 {
      assert forall i :: 0 <= i < |batch| ==> batch[i].id !in s.decks;
      assert forall l :: l in Table(s, b) ==> l.deckId in s.decks;
      assert forall l :: l in Table(s, b) ==> l.deckId !in ids;
      SelectAll(Table(s, b), ids);
    }
    SelectAll(rest, ids);
  }

  /**
   * Under the schema's foreign keys, after a completed load every batch deck has exactly
   * the card lines of the batch, in batch order, and the lines of every other deck are
   * untouched; a load that raised leaves every card line where it was.
   */
  lemma LoadReplacesLines(s: Store, batch: seq<Deck>, b: Board)
    requires ForeignKeys(s)
    ensures var ids := BatchIds(batch);
      !Load(s, batch).raised ==>
        Inside(Table(Load(s, batch).final, b), ids) == Lines(batch, b) &&
        Outside(Table(Load(s, batch).final, b), ids) == Outside(Table(s, b), ids)
    ensures Load(s, batch).raised ==> Table(Load(s, batch).final, b) == Table(s, b)
  {
    if Load(s, batch).raised {
      return;
    }
    var ids := BatchIds(batch);
    var rest := Table(DeleteLines(WriteReferences(s, batch), batch), b);
    var incoming := Lines(batch, b);
    var fin := Table(Load(s, batch).final, b);
    FinalLines(s, batch, b);
    assert fin == rest + incoming;
    LinesInBatch(batch, b);
    SelectAll(incoming, ids);
    KeptLines(s, batch, b);
    SelectConcat(rest, incoming, ids);
    assert Inside(fin, ids) == [] + incoming;
    assert [] + incoming == incoming;
    assert Outside(fin, ids) == rest + [];
    assert rest + [] == rest;
  }

  /** The load keeps the schema's foreign keys. */
  lemma LoadKeepsForeignKeys(s: Store, batch: seq<Deck>)
    requires ForeignKeys(s)
    ensures ForeignKeys(Load(s, batch).final)
  {
    var final := Load(s, batch).final;
    if Load(s, batch).raised {
      RaisedKeepsForeignKeys(s, batch);
      return;
    }
    LinesStayReferenced(s, batch, Maindeck);
    LinesStayReferenced(s, batch, Sideboard);
    assert final.maindecks == Table(final, Maindeck) && final.sideboards == Table(final, Sideboard);
    forall id | id in final.decks
      ensures final.decks[id].personId in final.people && final.decks[id].archetypeId in final.archetypes
    {
      DeckStaysReferenced(s, batch, id);
    }
  }

  /** A load that raised wrote only people and archetypes, so the keys still hold. */
  lemma RaisedKeepsForeignKeys(s: Store, batch: seq<Deck>)
    requires ForeignKeys(s) && Load(s, batch).raised
    ensures ForeignKeys(Load(s, batch).final)
  {
    FinalReferences(s, batch);
  }

  /** After a completed load every card line still names a stored deck. */
  lemma LinesStayReferenced(s: Store, batch: seq<Deck>, b: Board)
    requires ForeignKeys(s) && !Load(s, batch).raised
    ensures forall l :: l in Table(Load(s, batch).final, b) ==> l.deckId in Load(s, batch).final.decks
  {
    var final := Load(s, batch).final;
    var rest := Table(DeleteLines(WriteReferences(s, batch), batch), b);
    FinalLines(s, batch, b);
    KeptLines(s, batch, b);
    LinesInBatch(batch, b);
    SelectMembers(Table(s, b), BatchIds(batch));
    assert forall l :: l in Table(s, b) ==> l.deckId in s.decks;
    forall l | l in Table(final, b)
      ensures l.deckId in final.decks
    {
      if l in rest {
        assert l in Table(s, b);
      } else {
        assert l in Lines(batch, b);
      }
    }
  }

  /** After a completed load every stored deck still names a stored person and archetype. */
  lemma DeckStaysReferenced(s: Store, batch: seq<Deck>, id: int)
    requires ForeignKeys(s) && !Load(s, batch).raised && id in Load(s, batch).final.decks
    ensures var final := Load(s, batch).final;
      final.decks[id].personId in final.people && final.decks[id].archetypeId in final.archetypes
  {
    var final := Load(s, batch).final;
    var rows := DeckRows(batch);
    FinalDecks(s, batch);
    FinalReferences(s, batch);
    if id in KeysOf(rows) {
      var i := LastIndex(rows, id);
      UpsertLast(s.decks, rows, id, i);
      LoadStoresReferences(s, batch);
      assert final.decks[id] == DeckRowOf(batch[i]);
    } else {
      UpsertUntouched(s.decks, rows, id);
      assert final.decks[id] == s.decks[id];
    }
  }

  /** Loading the same batch twice leaves the database as loading it once did, whether or not the load raised. */
  lemma LoadIdempotent(s: Store, batch: seq<Deck>)
    requires ForeignKeys(s)
    ensures Load(Load(s, batch).final, batch).final == Load(s, batch).final
  {
    var once := Load(s, batch).final;
    var twice := Load(once, batch).final;
    if Load(s, batch).raised {
      FinalReferences(s, batch);
      FinalReferences(once, batch);
      UpsertIdempotent(s.people, People(batch));
      UpsertIdempotent(s.archetypes, Archetypes(batch));
      return;
    }
    FinalReferences(s, batch);
    FinalReferences(once, batch);
    FinalDecks(s, batch);
    FinalDecks(once, batch);
    UpsertIdempotent(s.people, People(batch));
    UpsertIdempotent(s.archetypes, Archetypes(batch));
    UpsertIdempotent(s.decks, DeckRows(batch));
    LoadKeepsForeignKeys(s, batch);
    LinesAfterSecondLoad(s, batch, Maindeck);
    LinesAfterSecondLoad(s, batch, Sideboard);
    assert Table(twice, Maindeck) == Table(once, Maindeck) && Table(twice, Sideboard) == Table(once, Sideboard);
  }

  /** A second load of the same batch deletes exactly the lines the first one inserted, then inserts them again. */
  lemma LinesAfterSecondLoad(s: Store, batch: seq<Deck>, b: Board)
    requires ForeignKeys(s) && ForeignKeys(Load(s, batch).final)
    ensures Table(Load(Load(s, batch).final, batch).final, b) == Table(Load(s, batch).final, b)
  {
    if Load(s, batch).raised {
      assert Load(Load(s, batch).final, batch).raised;
      return;
    }
    var once := Load(s, batch).final;
    var ids := BatchIds(batch);
    var rest := Table(DeleteLines(WriteReferences(s, batch), batch), b);
    var incoming := Lines(batch, b);
    FinalLines(s, batch, b);
    FinalLines(once, batch, b);
    KeptLines(s, batch, b);
    KeptLines(once, batch, b);
    LinesInBatch(batch, b);
    SelectAll(incoming, ids);
    SelectConcat(rest, incoming, ids);
    assert Outside(rest + incoming, ids) == rest + [];
    assert Table(DeleteLines(WriteReferences(once, batch), batch), b) == rest;
  }

  /**
   * The delete is committed on its own: a reader between the two commits sees the batch
   * decks with their old rows and without any card line.
   */
  lemma DeleteCommittedAlone(s: Store, batch: seq<Deck>, b: Board)
    requires Load(s, batch).afterDelete.Some?
    ensures var mid := Load(s, batch).afterDelete.value;
      var ids := BatchIds(batch);
      mid.decks == s.decks && mid.temp == Some(ids) &&
      Inside(Table(mid, b), ids) == [] && Outside(Table(mid, b), ids) == Outside(Table(s, b), ids)
  {
    var ids := BatchIds(batch);
    var s1 := WriteReferences(s, batch);
    var mid := Load(s, batch).afterDelete.value;
    assert CardFramesNamed(batch) && Existing(s1, batch) > 0;
    assert mid == DeleteLines(s1, batch);
    assert mid.decks == s.decks && mid.temp == Some(ids);
    var kept := Outside(Table(s, b), ids);
    SelectMembers(Table(s, b), ids);
    assert Table(mid, b) == kept;
    SelectAll(kept, ids);
  }
}

=== FILE: manager.dfy ===
/**
 * `AggregateManager` of `aggregate/aggregate_manager.py`: a class-level registry from
 * report name to aggregator class, filled in import order by the `register` decorator,
 * and an `execute` that runs every registered aggregator once, in registration order,
 * writing each result as `<name>.parquet`. The writer is modelled by the list of files
 * it is handed. A run is stated both for the classes as written, whose deck and card
 * constructors raise, and with those constructors corrected.
 */
module Manager {
  import opened Outcomes
  import opened Records
  import WinRate
  import DeckAggregation
  import CardAggregation
  import DayAggregation
  import Aggregation

  /** The registered aggregator classes. */
  datatype Kind =
    | ArchetypeDay
    | ArchetypeWinRate
    | ArchetypeDeck(strategy: DeckAggregation.Strategy)
    | ArchetypeCards(board: Board)

  /** The registry: a dictionary, so its entries keep their insertion order. */
  type Registry = seq<(string, Kind)>

  function Names(reg: Registry): (names: seq<string>)
    ensures |names| == |reg| && forall i :: 0 <= i < |reg| ==> names[i] == reg[i].0
  {
    seq(|reg|, i requires 0 <= i < |reg| => reg[i].0)
  }

  predicate Distinct(names: seq<string>)
  {
    forall i, j :: 0 <= i < j < |names| ==> names[i] != names[j]
  }

  /** The class registered under `name`, if any. */
  function Lookup(reg: Registry, name: string): (r: Option<Kind>)
    ensures r.None? <==> name !in Names(reg)
    ensures r.Some? ==> exists i :: 0 <= i < |reg| && reg[i] == (name, r.value)
  {
    if |reg| == 0 then None
    else if reg[|reg| - 1].0 == name && name !in Names(reg[..|reg| - 1]) then Some(reg[|reg| - 1].1)
    else
      var r := Lookup(reg[..|reg| - 1], name);
      assert Names(reg) == Names(reg[..|reg| - 1]) + [reg[|reg| - 1].0];
      r
  }

  /** The `ValueError` of a second registration, listing the names already registered. */
  datatype RegisterError = AlreadyRegistered(name: string, registered: seq<string>)

  /**
   * `register(name)` applied to a class: a name already present raises; otherwise the
   * class is stored under the name, after every earlier entry, and handed back unchanged.
   */
  function Register(reg: Registry, name: string, kind: Kind): (r: Result<(Registry, Kind), RegisterError>)
    ensures r.Err? <==> name in Names(reg)
    ensures r.Err? ==> r.error == AlreadyRegistered(name, Names(reg))
    ensures r.Ok? ==> Names(r.value.0) == Names(reg) + [name] && r.value.1 == kind
    ensures r.Ok? ==> Lookup(r.value.0, name) == Some(kind)
    ensures r.Ok? ==> forall other :: other != name ==> Lookup(r.value.0, other) == Lookup(reg, other)
  {
    if name in Names(reg) then Err(AlreadyRegistered(name, Names(reg)))
    else
      var next := reg + [(name, kind)];
      assert next[..|next| - 1] == reg;
      Ok((next, kind))
  }

  /** Registration keeps the registry's names distinct. */
  lemma RegisterKeepsDistinct(reg: Registry, name: string, kind: Kind)
    requires Distinct(Names(reg))
    ensures Register(reg, name, kind).Ok? ==> Distinct(Names(Register(reg, name, kind).value.0))
  {
  }

  /** The decorators in the order the package imports the aggregator modules. */
  function RegisterAll(reg: Registry, entries: Registry): (r: Result<Registry, RegisterError>)
    decreases |entries|
  {
    if |entries| == 0 then Ok(reg)
    else
      var r := Register(reg, entries[0].0, entries[0].1);
      if r.Err? then Err(r.error) else RegisterAll(r.value.0, entries[1..])
  }

  /** Registering a list of distinct new names succeeds and appends it to the registry. */
  lemma {:induction false} RegisterAllAppends(reg: Registry, entries: Registry)
    requires Distinct(Names(reg + entries))
    ensures RegisterAll(reg, entries) == Ok(reg + entries)
    decreases |entries|
  {
    if |entries| > 0 {
      var names := Names(reg + entries);
      assert names[|reg|] == entries[0].0;
      forall i | 0 <= i < |reg|
        ensures Names(reg)[i] != entries[0].0
      {
        assert names[i] == Names(reg)[i];
      }
      assert entries[0].0 !in Names(reg);
      var next := reg + [entries[0]];
      assert Register(reg, entries[0].0, entries[0].1) == Ok((next, entries[0].1));
      assert next + entries[1..] == reg + entries;
      RegisterAllAppends(next, entries[1..]);
      assert RegisterAll(reg, entries) == RegisterAll(next, entries[1..]);
    } else {
      assert reg + entries == reg;
    }
  }

  const Default: Registry := [
    ("archetype_day", ArchetypeDay),
    ("archetype_win_rate", ArchetypeWinRate),
    ("average_archetype_deck", ArchetypeDeck(DeckAggregation.Average)),
    ("average_net_wins_archetype_deck", ArchetypeDeck(DeckAggregation.NetWins)),
    ("average_archetype_maindeck", ArchetypeCards(Maindeck)),
    ("average_archetype_sideboard", ArchetypeCards(Sideboard))
  ]

  /** The package's six registrations all succeed, in import order. */
  lemma DefaultRegistration()
    ensures RegisterAll([], Default) == Ok(Default)
    ensures Distinct(Names(Default))
  {
    var names := Names(Default);
    var lengths := [13, 18, 22, 31, 26, 27];
    assert forall i :: 0 <= i < 6 ==> |names[i]| == lengths[i];
    forall i, j | 0 <= i < j < 6
      ensures names[i] != names[j]
    {
      assert lengths[i] != lengths[j];
    }
    RegisterAllFromEmpty(Default);
  }

  /** Registering distinct names into an empty registry yields exactly those entries. */
  lemma RegisterAllFromEmpty(entries: Registry)
    requires Distinct(Names(entries))
    ensures RegisterAll([], entries) == Ok(entries)
  {
    assert [] + entries == entries;
    RegisterAllAppends([], entries);
  }

  /** What an aggregator hands to the writer. */
  datatype Report =
    | DayCounts(days: map<DayAggregation.DayKey, nat>)
    | WinRates(rates: map<Key, WinRate.WinRateRow>)
    | DeckLists(lists: map<Key, DeckAggregation.DeckReport>)
    | CardStats(cards: map<Key, map<string, CardAggregation.CardRow>>)

  /**
   * Which constructor calls a run uses. As written, the deck and card classes hand the
   * base dataclass a single list where it takes two fields, so `agg_class()` raises
   * `TypeError` for them; `Corrected` passes the grouping and the selected columns apart.
   */
  datatype Build = AsWritten | Corrected

  /** `agg_class()`: the day and win-rate classes always construct; the other four depend on the build. */
  function Instantiate(build: Build, kind: Kind): (r: Result<Aggregation.Aggregator, Aggregation.ConstructError>)
    ensures r.Err? <==> build.AsWritten? && (kind.ArchetypeDeck? || kind.ArchetypeCards?)
    ensures r.Err? ==> r.error == Aggregation.WrongArgumentCount(1)
  {
    match kind
    case ArchetypeDay =>
      DayAggregation.ConstructionSucceeds();
      Aggregation.Construct([DayAggregation.DayGroupColumns, DayAggregation.SourceColumns])
    case ArchetypeWinRate =>
      WinRate.ConstructionSucceeds();
      Aggregation.Construct([Aggregation.GroupColumns, Aggregation.GroupColumns + WinRate.ExtraColumns])
    case ArchetypeDeck(s) =>
      if build.AsWritten? then DeckAggregation.ConstructAsWritten(s) else Ok(DeckAggregation.Configure(s))
    case ArchetypeCards(b) =>
      if build.AsWritten? then CardAggregation.ConstructAsWritten(b) else Ok(CardAggregation.Configure(b))
  }

  /** What stops a run: the constructor's `TypeError`, or the error `execute` raises. */
  datatype RunError =
    | ConstructionFailed(construct: Aggregation.ConstructError)
    | DayFailed(day: DayAggregation.DayError)
    | CardsFailed(cards: CardAggregation.CardError)

  /**
   * `agg_class().execute(df)`: construction raises for the deck and card classes as
   * written; the day report raises when no deck with a match has a day in its range, a
   * card report when no deck has a card on its board; every other run yields its report.
   */
  function Run(build: Build, kind: Kind, decks: seq<Deck>, now: int, dayOf: int -> int): (r: Result<Report, RunError>)
    ensures r.Err? <==>
      || (build.AsWritten? && (kind.ArchetypeDeck? || kind.ArchetypeCards?))
      || (kind.ArchetypeDay? && forall i :: 0 <= i < |decks| ==> !DayAggregation.Dated(decks[i], now))
      || (kind.ArchetypeCards? && forall i :: 0 <= i < |decks| ==> |BoardOf(decks[i], kind.board)| == 0)
    ensures build.AsWritten? && kind.ArchetypeDeck? ==>
      r == Err(ConstructionFailed(DeckAggregation.ConstructAsWritten(kind.strategy).error))
    ensures build.AsWritten? && kind.ArchetypeCards? ==>
      r == Err(ConstructionFailed(CardAggregation.ConstructAsWritten(kind.board).error))
    ensures kind.ArchetypeDay? && r.Err? ==> r.error == DayFailed(DayError(decks))
    ensures r.Ok? ==> match kind
      case ArchetypeDay => r.value == DayCounts(DayAggregation.Counts(decks, now, dayOf))
      case ArchetypeWinRate => r.value == WinRates(WinRate.Execute(decks))
      case ArchetypeDeck(s) => r.value == DeckLists(DeckAggregation.Execute(s, decks))
      case ArchetypeCards(b) => r.value.CardStats? && CardAggregation.Execute(b, decks) == Ok(r.value.cards)
  {
    var made := Instantiate(build, kind);
    if made.Err? then Err(ConstructionFailed(made.error))
    else
      match kind
      case ArchetypeDay => DayRun(decks, now, dayOf)
      case ArchetypeWinRate => Ok(WinRates(WinRate.Execute(decks)))
      case ArchetypeDeck(s) => Ok(DeckLists(DeckAggregation.Execute(s, decks)))
      case ArchetypeCards(b) => CardsRun(b, decks)
  }

  /** Which error the day report raises when it raises: `ValueError` without a played deck, else `AttributeError`. */
  function DayError(decks: seq<Deck>): DayAggregation.DayError
  {
    if forall i :: 0 <= i < |decks| ==> decks[i].matches <= 0 then DayAggregation.NoPlayedDeck
    else DayAggregation.NoDateInRange
  }

  /** The day aggregator's `execute`, its errors lifted into the run's errors. */
  function DayRun(decks: seq<Deck>, now: int, dayOf: int -> int): (r: Result<Report, RunError>)
    ensures r.Err? <==> forall i :: 0 <= i < |decks| ==> !DayAggregation.Dated(decks[i], now)
    ensures r.Err? ==> r.error == DayFailed(DayError(decks))
    ensures r.Ok? ==> r.value == DayCounts(DayAggregation.Counts(decks, now, dayOf))
  {
    match DayAggregation.Execute(decks, now, dayOf)
    case Ok(m) => Ok(DayCounts(m))
    case Err(e) => Err(DayFailed(e))
  }

  /** A card aggregator's `execute`, its `ValueError` lifted into the run's errors. */
  function CardsRun(b: Board, decks: seq<Deck>): (r: Result<Report, RunError>)
    ensures r.Err? <==> forall i :: 0 <= i < |decks| ==> |BoardOf(decks[i], b)| == 0
    ensures r.Err? ==> r.error == CardsFailed(CardAggregation.NothingToConcatenate)
    ensures r.Ok? ==> r.value.CardStats? && CardAggregation.Execute(b, decks) == Ok(r.value.cards)
  {
    match CardAggregation.Execute(b, decks)
    case Ok(m) => Ok(CardStats(m))
    case Err(e) => Err(CardsFailed(e))
  }

  /** The number of registrations, from the first, whose runs succeed before one raises. */
  function Completed(build: Build, reg: Registry, decks: seq<Deck>, now: int, dayOf: int -> int): (n: nat)
    ensures n <= |reg|
    ensures forall i :: 0 <= i < n ==> Run(build, reg[i].1, decks, now, dayOf).Ok?
    ensures n < |reg| ==> Run(build, reg[n].1, decks, now, dayOf).Err?
    decreases |reg|
  {
    if |reg| == 0 || Run(build, reg[0].1, decks, now, dayOf).Err? then 0
    else
      var n := Completed(build, reg[1..], decks, now, dayOf);
      assert forall i :: 1 <= i < |reg| ==> reg[1..][i - 1] == reg[i];
      1 + n
  }

  const Suffix: string := ".parquet"

  /** One call of the writer: the report and its file name. */
  datatype Written = Written(file: string, report: Report)

  /**
   * `execute`: the registered aggregators in registration order, each run once and its
   * report written as `<name>.parquet`; the first aggregator that raises stops the loop,
   * after the reports before it have been written.
   */
  method Execute(build: Build, reg: Registry, decks: seq<Deck>, now: int, dayOf: int -> int)
    returns (written: seq<Written>, failure: Option<RunError>)
    ensures |written| == Completed(build, reg, decks, now, dayOf)
    ensures forall i :: 0 <= i < |written| ==>
      written[i].file == reg[i].0 + Suffix && Run(build, reg[i].1, decks, now, dayOf) == Ok(written[i].report)
    ensures failure.None? ==> |written| == |reg|
    ensures failure.Some? ==> |written| < |reg| && Run(build, reg[|written|].1, decks, now, dayOf) == Err(failure.value)
  {
    written := [];
    var i := 0;
    while i < |reg|
      invariant 0 <= i <= |reg| && |written| == i
      invariant forall j :: 0 <= j < i ==>
        written[j].file == reg[j].0 + Suffix && Run(build, reg[j].1, decks, now, dayOf) == Ok(written[j].report)
    {
      var r := Run(build, reg[i].1, decks, now, dayOf);
      if r.Err? {
        CompletedAt(build, reg, decks, now, dayOf, i);
        return written, Some(r.error);
      }
      written := written + [Written(reg[i].0 + Suffix, r.value)];
      i := i + 1;
    }
    CompletedAt(build, reg, decks, now, dayOf, i);
    failure := None;
  }

  /** `Completed` is the one prefix length whose runs all succeed and after which the next one raises. */
  lemma CompletedAt(build: Build, reg: Registry, decks: seq<Deck>, now: int, dayOf: int -> int, n: nat)
    requires n <= |reg|
    requires forall i :: 0 <= i < n ==> Run(build, reg[i].1, decks, now, dayOf).Ok?
    requires n < |reg| ==> Run(build, reg[n].1, decks, now, dayOf).Err?
    ensures Completed(build, reg, decks, now, dayOf) == n
  {
  }

  /** Appending the suffix keeps names apart. */
  lemma SuffixCancels(a: string, b: string)
    ensures a + Suffix == b + Suffix ==> a == b
  {
    if a + Suffix == b + Suffix {
      assert a == (a + Suffix)[..|a|];
    }
  }

  /** Distinct names give distinct files, so no report overwrites another. */
  lemma FilesDistinct(reg: Registry, files: seq<string>)
    requires Distinct(Names(reg)) && |files| <= |reg|
    requires forall i :: 0 <= i < |files| ==> files[i] == reg[i].0 + Suffix
    ensures Distinct(files)
  {
    forall i, j | 0 <= i < j < |files|
      ensures files[i] != files[j]
    {
      SuffixCancels(reg[i].0, reg[j].0);
      assert Names(reg)[i] != Names(reg)[j];
    }
  }

  /**
   * The package as written: with a played deck that has a day in its range, the day and
   * win-rate reports are written and the run raises at the first deck aggregator's
   * construction.
   */
  lemma AsWrittenStopsAtDeckConstruction(decks: seq<Deck>, now: int, dayOf: int -> int, p: int)
    requires 0 <= p < |decks| && DayAggregation.Dated(decks[p], now)
    ensures Completed(AsWritten, Default, decks, now, dayOf) == 2
    ensures Run(AsWritten, Default[2].1, decks, now, dayOf) == Err(ConstructionFailed(Aggregation.WrongArgumentCount(1)))
  {
    assert Run(AsWritten, Default[0].1, decks, now, dayOf).Ok?;
    assert Run(AsWritten, Default[1].1, decks, now, dayOf).Ok?;
  }

  /**
   * Under either build, a frame without a played deck that has a day in its range raises
   * at the first report and nothing is written: a `ValueError` when no deck has a match,
   * an `AttributeError` otherwise.
   */
  lemma NoDatedDeckWritesNothing(build: Build, decks: seq<Deck>, now: int, dayOf: int -> int)
    requires forall i :: 0 <= i < |decks| ==> !DayAggregation.Dated(decks[i], now)
    ensures Completed(build, Default, decks, now, dayOf) == 0
    ensures Run(build, Default[0].1, decks, now, dayOf) ==
      Err(DayFailed(if forall i :: 0 <= i < |decks| ==> decks[i].matches <= 0
                    then DayAggregation.NoPlayedDeck else DayAggregation.NoDateInRange))
  {
  }

  /**
   * Corrected construction: with a played deck that has a day in its range, a card on
   * some maindeck and a card on some sideboard, the run writes all six reports.
   */
  lemma DefaultRunsAll(decks: seq<Deck>, now: int, dayOf: int -> int, p: int, m: int, s: int)
    requires 0 <= p < |decks| && DayAggregation.Dated(decks[p], now)
    requires 0 <= m < |decks| && |decks[m].maindeck| > 0
    requires 0 <= s < |decks| && |decks[s].sideboard| > 0
    ensures Completed(Corrected, Default, decks, now, dayOf) == |Default|
  {
    assert |BoardOf(decks[m], Maindeck)| > 0 && |BoardOf(decks[s], Sideboard)| > 0;
    assert Run(Corrected, ArchetypeDay, decks, now, dayOf).Ok?;
    assert Run(Corrected, ArchetypeCards(Maindeck), decks, now, dayOf).Ok?;
    assert Run(Corrected, ArchetypeCards(Sideboard), decks, now, dayOf).Ok?;
    CompletedAt(Corrected, Default, decks, now, dayOf, |Default|);
  }

  /**
   * Corrected construction without any maindeck card: the run stops at the maindeck card
   * report, after the four reports before it.
   */
  lemma DefaultStopsAtMaindeckCards(decks: seq<Deck>, now: int, dayOf: int -> int, p: int)
    requires 0 <= p < |decks| && DayAggregation.Dated(decks[p], now)
    requires forall i :: 0 <= i < |decks| ==> |decks[i].maindeck| == 0
    ensures Completed(Corrected, Default, decks, now, dayOf) == 4
    ensures Run(Corrected, Default[4].1, decks, now, dayOf) == Err(CardsFailed(CardAggregation.NothingToConcatenate))
  {
    assert forall i :: 0 <= i < |decks| ==> |BoardOf(decks[i], Maindeck)| == 0;
    assert Default[4].1 == ArchetypeCards(Maindeck);
    forall i | 0 <= i < 4
      ensures Run(Corrected, Default[i].1, decks, now, dayOf).Ok?
    {
      assert !Default[i].1.ArchetypeCards?;
    }
    CompletedAt(Corrected, Default, decks, now, dayOf, 4);
  }
}

=== FILE: outcomes.dfy ===
/** Failure-compatible wrappers shared by every module of the model. */
module Outcomes {

  /** A value that may be absent (Python's `None`). */
  datatype Option<+T> = None | Some(value: T)

  /** A computation that either produced a value or raised an exception. */
  datatype Result<+T, +E> = Ok(value: T) | Err(error: E) {
    predicate IsFailure() { Err? }

    function PropagateFailure<U>(): Result<U, E>
      requires Err?
    {
      Err(error)
    }

    function Extract(): T
      requires Ok?
    {
      value
    }
  }
}

=== FILE: paginator.dfy ===
/**
 * The paginated extraction of `extract/paginator.py`: parameter normalisation on
 * construction, the bounded retry loop with exponential backoff, and the walk over
 * the pages of a `{total, objects}` resource.
 *
 * The HTTP session is a total function from (request number, query parameters) to a
 * response, so a scripted server is just such a function. Sleeping is recorded, not
 * performed; the wall clock is the function `gap`, the time that elapsed since the
 * generator last resumed when it is about to request page `i`.
 */
module Pagination {
  import opened Outcomes
  import opened Values

  /** HTTP statuses after which `get_or_retry` waits and tries again. */
  const WaitCodes: set<int> := {429, 503, 504}

  const DefaultPageSize: int := 500
  const DefaultMinTime: real := 0.5
  const DefaultMaxRetries: int := 7
  const DefaultBackoff: real := 2.0

  type Params = map<string, Value>

  /** A response: its status and its decoded JSON body. */
  datatype Response = Response(status: int, body: Value)

  /** The first page's schema check: an object with both a "total" and an "objects" key. */
  predicate IsEnvelope(body: Value)
  {
    Field(body, "total").Some? && Field(body, "objects").Some?
  }

  /** The remote API: the answer to the n-th request of a session sent with `params`. */
  type Server = (nat, Params) -> Response

  datatype Paginator = Paginator(url: string, pageSize: int, minTime: real, params: Params)

  /** Construction (`__post_init__`): `page` is owned by the walk and `pageSize` defaults to the page size. */
  function Make(url: string, pageSize: int, minTime: real, params: Params): (p: Paginator)
    ensures "page" !in p.params && "pageSize" in p.params
    ensures "pageSize" in params ==> p.params["pageSize"] == params["pageSize"]
    ensures "pageSize" !in params ==> p.params["pageSize"] == Int(pageSize)
    ensures p.params.Keys == params.Keys - {"page"} + {"pageSize"}
    ensures forall k :: k in params && k != "page" && k != "pageSize" ==> p.params[k] == params[k]
    ensures p.url == url && p.pageSize == pageSize && p.minTime == minTime
  {
    var stripped := params - {"page"};
    var sized := if "pageSize" in stripped then stripped else stripped["pageSize" := Int(pageSize)];
    Paginator(url, pageSize, minTime, sized)
  }

  /** The k-th backoff sleep of a retry sequence: `wait * backoff^k`. */
  function WaitTime(wait: real, backoff: real, k: nat): real
  {
    if k == 0 then wait else WaitTime(wait, backoff, k - 1) * backoff
  }

  /** What one retry sequence did: every response it received, in order, and the sleeps between them. */
  datatype Attempts = Attempts(responses: seq<Response>, sleeps: seq<real>) {
    predicate Valid() { |responses| >= 1 }

    function Requests(): nat { |responses| }

    /** The response `get_or_retry` returns: the last one received. */
    function Response(): Response
      requires Valid()
    {
      responses[|responses| - 1]
    }
  }

  /** The two argument assertions of `get_or_retry`. */
  datatype RetryError = NonPositiveRetries | BackoffNotAboveOne

  datatype RetryResult = Done(attempts: Attempts) | Rejected(error: RetryError)

  /** Starting one sleep later is the same as multiplying the first wait by the factor. */
  lemma {:induction false} WaitTimeShift(wait: real, backoff: real, k: nat)
    ensures WaitTime(wait * backoff, backoff, k) == WaitTime(wait, backoff, k + 1)
  {
    if k > 0 {
      WaitTimeShift(wait, backoff, k - 1);
    }
  }

  /**
   * What attempts `i, i+1, ...` of a retry sequence promise: at most the attempts left, the
   * requests in session order from number `start + i`, every answer but the last a wait
   * status, the k-th sleep `wait * backoff^k` and none after the last request, and a stop
   * only at 200, at a non-wait status or when the attempts run out.
   */
  ghost predicate Retried(a: Attempts, server: Server, start: nat, params: Params, i: nat, maxRetries: nat,
                          wait: real, backoff: real)
  {
    && a.Valid() && a.Requests() <= maxRetries - i
    && |a.sleeps| == a.Requests() - 1
    && (forall k :: 0 <= k < |a.responses| ==> a.responses[k] == server(start + i + k, params))
    && (forall k :: 0 <= k < |a.responses| - 1 ==> a.responses[k].status in WaitCodes)
    && (forall k :: 0 <= k < |a.sleeps| ==> a.sleeps[k] == WaitTime(wait, backoff, k))
    && (a.Response().status == 200 || a.Response().status !in WaitCodes || i + a.Requests() == maxRetries)
  }

  /** A wait answer at attempt `i`, a sleep, and the attempts from `i + 1` make the attempts from `i`. */
  lemma RetryAgain(server: Server, start: nat, params: Params, i: nat, maxRetries: nat,
                   wait: real, backoff: real, rest: Attempts)
    requires i + 1 < maxRetries && server(start + i, params).status in WaitCodes
    requires Retried(rest, server, start, params, i + 1, maxRetries, wait * backoff, backoff)
    ensures Retried(Attempts([server(start + i, params)] + rest.responses, [wait] + rest.sleeps),
                    server, start, params, i, maxRetries, wait, backoff)
  {
    var a := Attempts([server(start + i, params)] + rest.responses, [wait] + rest.sleeps);
    forall k | 0 < k < |a.responses|
      ensures a.responses[k] == server(start + i + k, params)
    {
      assert a.responses[k] == rest.responses[k - 1];
    }
    forall k | 0 < k < |a.sleeps|
      ensures a.sleeps[k] == WaitTime(wait, backoff, k)
    {
      assert a.sleeps[k] == rest.sleeps[k - 1];
      WaitTimeShift(wait, backoff, k - 1);
    }
    assert forall k :: 0 < k < |a.responses| - 1 ==> a.responses[k] == rest.responses[k - 1];
    assert a.Response() == rest.Response();
  }

  /** Attempts i, i+1, ... of a retry sequence whose first request is number `start` of the session. */
  function RetryLoop(server: Server, start: nat, params: Params, i: nat, maxRetries: nat,
                     wait: real, backoff: real): (a: Attempts)
    requires i < maxRetries
    decreases maxRetries - i
    ensures Retried(a, server, start, params, i, maxRetries, wait, backoff)
  {
    var resp := server(start + i, params);
    if resp.status == 200 || resp.status !in WaitCodes || i == maxRetries - 1 then
      Attempts([resp], [])
    else
      var rest := RetryLoop(server, start, params, i + 1, maxRetries, wait * backoff, backoff);
      RetryAgain(server, start, params, i, maxRetries, wait, backoff, rest);
      Attempts([resp] + rest.responses, [wait] + rest.sleeps)
  }

  /**
   * `get_or_retry`: at most `maxRetries` requests, stopping at the first 200 or
   * non-retryable status, sleeping `minTime * backoff^k` after the k-th retryable answer
   * and never after the last request.
   */
  function GetOrRetry(p: Paginator, server: Server, start: nat, params: Params,
                      maxRetries: int, backoff: real): (r: RetryResult)
    ensures maxRetries <= 0 <==> r == Rejected(NonPositiveRetries)
    ensures maxRetries > 0 && backoff <= 1.0 <==> r == Rejected(BackoffNotAboveOne)
    ensures r.Done? ==>
      && var a := r.attempts;
      && a.Valid() && a.Requests() <= maxRetries
      && |a.sleeps| == a.Requests() - 1
      && (forall k :: 0 <= k < |a.responses| ==> a.responses[k] == server(start + k, params))
      && (forall k :: 0 <= k < |a.responses| - 1 ==> a.responses[k].status in WaitCodes)
      && (forall k :: 0 <= k < |a.sleeps| ==> a.sleeps[k] == WaitTime(p.minTime, backoff, k))
      && (a.Response().status == 200 || a.Response().status !in WaitCodes || a.Requests() == maxRetries)
  {
    if maxRetries <= 0 then Rejected(NonPositiveRetries)
    else if backoff <= 1.0 then Rejected(BackoffNotAboveOne)
    else Done(RetryLoop(server, start, params, 0, maxRetries, p.minTime, backoff))
  }

  /** The call `get_or_retry(session, params)` with its default arguments, as the walk makes it. */
  function Fetch(p: Paginator, server: Server, start: nat, params: Params): (a: Attempts)
    ensures a.Valid()
  {
    RetryLoop(server, start, params, 0, DefaultMaxRetries, p.minTime, DefaultBackoff)
  }

  /** The walk's fetch is `get_or_retry` with 7 attempts and factor 2, which never trips its assertions. */
  lemma FetchIsDefaultRetry(p: Paginator, server: Server, start: nat, params: Params)
    ensures GetOrRetry(p, server, start, params, DefaultMaxRetries, DefaultBackoff) == Done(Fetch(p, server, start, params))
  {
  }

  /** The spacing sleep before a later page: the part of `minTime` not yet elapsed. */
  function Spacing(minTime: real, elapsed: real): (s: real)
    ensures s >= 0.0 && s + elapsed >= minTime
    ensures elapsed >= minTime ==> s == 0.0
    ensures elapsed < minTime ==> s + elapsed == minTime
  {
    var diff := minTime - elapsed;
    if diff > 0.0 then diff else 0.0
  }

  /** `ceil(total / size)` for a positive divisor. */
  function CeilDiv(total: int, size: int): (q: int)
    requires size > 0
    ensures (q - 1) * size < total <= q * size
  {
    (total + size - 1) / size
  }

  /** A yielded page: the value under "objects", or a first body that failed the schema check, verbatim. */
  datatype Page = Objects(objs: Value) | Raw(body: Value)

  datatype WalkError =
    | MissingPageSize                     // params.pop("pageSize") on parameters without it
    | FirstFetchFailed(status: int)       // the assertion after the pageSize fallback
    | StopIterationRaised                 // `raise StopIteration` inside a generator (a RuntimeError)
    | UnsizedObjects                      // TypeError: `len` of a first "objects" that is no list, object or string
    | NonNumericTotal                     // TypeError: dividing a "total" that is not a number
    | EmptyFirstPage                      // ZeroDivisionError: the first "objects" is empty
    | ProgressDomainError                 // log10 of a non-positive number: total_pages < 0
    | LaterFetchFailed(page: nat, status: int)
    | MissingObjects(page: nat)           // `jsn["objects"]` on a later body that is no object with that key

  datatype End = Exhausted | Failed(error: WalkError)

  /**
   * A run of the generator: the pages it yielded in order and how it ended, the query
   * parameters of each retry sequence for the first page, and for each later page its
   * index, the spacing sleep that preceded its request (0 when no sleep was needed) and
   * the session number of its first request.
   */
  datatype Walk = Walk(pages: seq<Page>, end: End, firstSequences: seq<Params>,
                       pageOrder: seq<nat>, spacing: seq<real>, starts: seq<nat>)

  /** The first page's response after the optional fallback, with the parameters used from then on. */
  datatype Opening =
    | Opened(sequences: seq<Params>, response: Response, params: Params, requests: nat)
    | NotOpened(sequences: seq<Params>, error: WalkError)

  /**
   * Lines 58-62: one retry sequence, and on a non-200 answer one more without `pageSize`;
   * when `pageSize` is absent the `pop` raises before that second sequence is made.
   */
  function Open(p: Paginator, server: Server): (o: Opening)
    ensures |o.sequences| in {1, 2} && o.sequences[0] == p.params
    ensures |o.sequences| == 2 <==> Fetch(p, server, 0, p.params).Response().status != 200 && "pageSize" in p.params
    ensures |o.sequences| == 2 && "pageSize" in p.params ==> o.sequences[1] == p.params - {"pageSize"}
    ensures o.Opened? ==> o.response.status == 200 && o.params == o.sequences[|o.sequences| - 1]
    ensures o.NotOpened? ==> |o.sequences| == (if o.error == MissingPageSize then 1 else 2)
    ensures o.NotOpened? && o.error == MissingPageSize <==>
      Fetch(p, server, 0, p.params).Response().status != 200 && "pageSize" !in p.params
  {
    var first := Fetch(p, server, 0, p.params);
    if first.Response().status == 200 then
      Opened([p.params], first.Response(), p.params, first.Requests())
    else if "pageSize" !in p.params then
      NotOpened([p.params], MissingPageSize)
    else
      var params := p.params - {"pageSize"};
      var second := Fetch(p, server, first.Requests(), params);
      if second.Response().status != 200 then
        NotOpened([p.params, params], FirstFetchFailed(second.Response().status))
      else
        Opened([p.params, params], second.Response(), params, first.Requests() + second.Requests())
  }

  /** The pages after the first one, from index `i` up to `totalPages - 1`. */
  datatype Later = Later(pages: seq<Page>, end: End, pageOrder: seq<nat>, spacing: seq<real>, starts: seq<nat>)

  /** The retry sequence for later page `page` (line 84), its first request being number `start` of the session. */
  function PageFetch(p: Paginator, server: Server, params: Params, start: nat, page: nat): (a: Attempts)
    ensures a.Valid()
  {
    Fetch(p, server, start, params["page" := Int(page)])
  }

  /** Lines 85-89 passing: a 200 answer whose body has "objects", and the page yielded is that value. */
  predicate Served(resp: Response, page: Page)
  {
    resp.status == 200 && Field(resp.body, "objects").Some? && page == Objects(Field(resp.body, "objects").value)
  }

  /** Lines 85-87 raising: the assertion on a non-200 status, or the subscript of a body without "objects". */
  predicate Refused(resp: Response, page: nat, e: WalkError)
  {
    if resp.status != 200 then e == LaterFetchFailed(page, resp.status)
    else Field(resp.body, "objects").None? && e == MissingObjects(page)
  }

  /**
   * Retry sequences that follow each other in the session: the one for page `i` starts at
   * request `next`, and each later one where the one before it stopped.
   */
  ghost predicate Chained(starts: seq<nat>, p: Paginator, server: Server, params: Params, next: nat, i: nat)
  {
    && (|starts| > 0 ==> starts[0] == next)
    && (forall k :: 0 <= k < |starts| - 1 ==>
          starts[k + 1] == starts[k] + PageFetch(p, server, params, starts[k], i + k).Requests())
  }

  /** Every page is the "objects" of the 200 answer to its own retry sequence. */
  ghost predicate AllServed(pages: seq<Page>, starts: seq<nat>, p: Paginator, server: Server, params: Params, i: nat)
  {
    && |pages| <= |starts|
    && (forall k :: 0 <= k < |pages| ==> Served(PageFetch(p, server, params, starts[k], i + k).Response(), pages[k]))
  }

  /** A failed run stops at the page after the yielded ones, whose answer was refused with the matching error. */
  ghost predicate EndRefused(l: Later, p: Paginator, server: Server, params: Params, i: nat)
  {
    l.end.Failed? ==>
      && |l.pages| < |l.starts|
      && Refused(PageFetch(p, server, params, l.starts[|l.pages|], i + |l.pages|).Response(), i + |l.pages|, l.end.error)
  }

  /**
   * The shape of a run from page `i`: pages `i, i+1, ...` are requested in order, never
   * reaching `totalPages`, each after the spacing sleep for its own gap; a full run
   * requests and yields every remaining page, and a failed one requests one page more
   * than it yields, which can only be refused; every page yielded is a value of "objects".
   */
  ghost predicate Shaped(l: Later, i: nat, totalPages: int, minTime: real, gap: nat -> real)
  {
    && |l.spacing| == |l.pageOrder| && |l.starts| == |l.pageOrder|
    && (l.end.Exhausted? ==> |l.pages| == |l.pageOrder|)
    && (l.end.Failed? ==> |l.pages| + 1 == |l.pageOrder|)
    && (forall k :: 0 <= k < |l.pageOrder| ==> l.pageOrder[k] == i + k)
    && i + |l.pageOrder| <= (if totalPages > i then totalPages else i)
    && (forall k :: 0 <= k < |l.spacing| ==> l.spacing[k] == Spacing(minTime, gap(i + k)))
    && (l.end.Exhausted? ==> |l.pageOrder| == (if totalPages > i then totalPages - i else 0))
    && (l.end.Failed? ==> l.end.error.LaterFetchFailed? || l.end.error.MissingObjects?)
    && (forall k :: 0 <= k < |l.pages| ==> l.pages[k].Objects?)
  }

  /**
   * What a run from page `i` promises: its shape; each retry sequence starting where the
   * previous one stopped; every yielded page the "objects" of its 200 answer; and a failed
   * run stopped at the first page whose answer it could not use, with that answer's status.
   */
  ghost predicate FromPage(l: Later, p: Paginator, server: Server, params: Params, next: nat,
                           i: nat, totalPages: int, gap: nat -> real)
  {
    && Shaped(l, i, totalPages, p.minTime, gap)
    && Chained(l.starts, p, server, params, next, i)
    && AllServed(l.pages, l.starts, p, server, params, i)
    && EndRefused(l, p, server, params, i)
  }

  /** A page served at `i`, in front of a run from `i + 1`, is a run from `i`. */
  lemma PrependPage(p: Paginator, server: Server, params: Params, next: nat, page: Page, rest: Later,
                    i: nat, totalPages: int, gap: nat -> real)
    requires 1 <= i < totalPages
    requires Served(PageFetch(p, server, params, next, i).Response(), page)
    requires FromPage(rest, p, server, params, next + PageFetch(p, server, params, next, i).Requests(), i + 1, totalPages, gap)
    ensures FromPage(Later([page] + rest.pages, rest.end, [i] + rest.pageOrder,
                           [Spacing(p.minTime, gap(i))] + rest.spacing, [next] + rest.starts),
                     p, server, params, next, i, totalPages, gap)
  {
    var l := Later([page] + rest.pages, rest.end, [i] + rest.pageOrder,
                   [Spacing(p.minTime, gap(i))] + rest.spacing, [next] + rest.starts);
    assert page.Objects? && l.pages[1..] == rest.pages;
    PrependShaped(rest, l, i, totalPages, p.minTime, gap);
    PrependChained(p, server, params, next, rest.starts, i);
    PrependServed(p, server, params, next, page, rest.pages, rest.starts, i);
    PrependRefused(p, server, params, rest, l, i);
  }

  lemma PrependRefused(p: Paginator, server: Server, params: Params, rest: Later, l: Later, i: nat)
    requires EndRefused(rest, p, server, params, i + 1)
    requires l.end == rest.end && |l.pages| == |rest.pages| + 1
    requires |l.starts| == |rest.starts| + 1 && l.starts[1..] == rest.starts
    ensures EndRefused(l, p, server, params, i)
  {
    if l.end.Failed? {
      var m := |l.pages|;
      assert l.starts[m] == rest.starts[m - 1];
      assert i + m == (i + 1) + (m - 1);
    }
  }

  lemma PrependShaped(rest: Later, l: Later, i: nat, totalPages: int, minTime: real, gap: nat -> real)
    requires 1 <= i < totalPages && Shaped(rest, i + 1, totalPages, minTime, gap)
    requires l == Later(l.pages, rest.end, [i] + rest.pageOrder, [Spacing(minTime, gap(i))] + rest.spacing, l.starts)
    requires |l.pages| == |rest.pages| + 1 && l.pages[0].Objects? && l.pages[1..] == rest.pages
    requires |l.starts| == |rest.starts| + 1
    ensures Shaped(l, i, totalPages, minTime, gap)
  {
    assert forall k :: 0 < k < |l.pages| ==> l.pages[k] == rest.pages[k - 1];
    forall k | 0 < k < |l.pageOrder|
      ensures l.pageOrder[k] == i + k && l.spacing[k] == Spacing(minTime, gap(i + k))
    {
      assert l.pageOrder[k] == rest.pageOrder[k - 1] && l.spacing[k] == rest.spacing[k - 1];
    }
  }

  lemma PrependChained(p: Paginator, server: Server, params: Params, next: nat, starts: seq<nat>, i: nat)
    requires Chained(starts, p, server, params, next + PageFetch(p, server, params, next, i).Requests(), i + 1)
    ensures Chained([next] + starts, p, server, params, next, i)
  {
    var s := [next] + starts;
    forall k | 0 <= k < |s| - 1
      ensures s[k + 1] == s[k] + PageFetch(p, server, params, s[k], i + k).Requests()
    {
      if k > 0 {
        assert s[k] == starts[k - 1] && s[k + 1] == starts[k];
        assert i + k == (i + 1) + (k - 1);
      }
    }
  }

  lemma PrependServed(p: Paginator, server: Server, params: Params, next: nat, page: Page,
                      pages: seq<Page>, starts: seq<nat>, i: nat)
    requires Served(PageFetch(p, server, params, next, i).Response(), page)
    requires AllServed(pages, starts, p, server, params, i + 1)
    ensures AllServed([page] + pages, [next] + starts, p, server, params, i)
  {
    var ps, ss := [page] + pages, [next] + starts;
    forall k | 0 <= k < |ps|
      ensures Served(PageFetch(p, server, params, ss[k], i + k).Response(), ps[k])
    {
      if k > 0 {
        assert ps[k] == pages[k - 1] && ss[k] == starts[k - 1] && i + k == (i + 1) + (k - 1);
      }
    }
  }

  /** A run from `i` that stops at page `i` on a refused answer. */
  lemma StopAt(p: Paginator, server: Server, params: Params, next: nat, i: nat, totalPages: int,
               gap: nat -> real, e: WalkError)
    requires 1 <= i < totalPages && Refused(PageFetch(p, server, params, next, i).Response(), i, e)
    ensures FromPage(Later([], Failed(e), [i], [Spacing(p.minTime, gap(i))], [next]), p, server, params, next, i, totalPages, gap)
  {
    var l := Later([], Failed(e), [i], [Spacing(p.minTime, gap(i))], [next]);
    assert Shaped(l, i, totalPages, p.minTime, gap);
    assert Chained(l.starts, p, server, params, next, i);
    assert AllServed(l.pages, l.starts, p, server, params, i);
    RefusedEnd(l, p, server, params, i, next, i);
  }

  /** A failed run whose first unyielded page starts at request `start` and was refused there. */
  lemma RefusedEnd(l: Later, p: Paginator, server: Server, params: Params, i: nat, start: nat, page: nat)
    requires l.end.Failed? && |l.pages| < |l.starts| && l.starts[|l.pages|] == start && page == i + |l.pages|
    requires Refused(PageFetch(p, server, params, start, page).Response(), page, l.end.error)
    ensures EndRefused(l, p, server, params, i)
  {
  }

  /** Lines 78-90: the pages from `i`, the first request of page `i` being number `next` of the session. */
  function LaterPages(p: Paginator, server: Server, gap: nat -> real, params: Params,
                      next: nat, i: nat, totalPages: int): (l: Later)
    requires i >= 1
    decreases totalPages - i
    ensures FromPage(l, p, server, params, next, i, totalPages, gap)
  {
    if i >= totalPages then Later([], Exhausted, [], [], [])
    else
      var sleep := Spacing(p.minTime, gap(i));
      var attempts := PageFetch(p, server, params, next, i);
      var resp := attempts.Response();
      if resp.status != 200 then
        StopAt(p, server, params, next, i, totalPages, gap, LaterFetchFailed(i, resp.status));
        Later([], Failed(LaterFetchFailed(i, resp.status)), [i], [sleep], [next])
      else
        match Field(resp.body, "objects")
        case None =>
          StopAt(p, server, params, next, i, totalPages, gap, MissingObjects(i));
          Later([], Failed(MissingObjects(i)), [i], [sleep], [next])
        case Some(objs) =>
          var rest := LaterPages(p, server, gap, params, next + attempts.Requests(), i + 1, totalPages);
          PrependPage(p, server, params, next, Objects(objs), rest, i, totalPages, gap);
          Later([Objects(objs)] + rest.pages, rest.end, [i] + rest.pageOrder, [sleep] + rest.spacing, [next] + rest.starts)
  }

  /**
   * The pages after the first one in a walk whose first page was read with `params`
   * after `next` requests: page `k` is the answer to the retry sequence starting at
   * `starts[k - 1]`, each sequence starting where the one before stopped, and a walk
   * ended by a later page ends at the first answer it could not use.
   */
  ghost predicate LaterServed(w: Walk, p: Paginator, server: Server, params: Params, next: nat)
  {
    && |w.starts| == |w.pageOrder| && |w.pages| <= |w.starts| + 1
    && (|w.starts| > 0 ==> w.starts[0] == next)
    && (forall k :: 0 <= k < |w.starts| - 1 ==>
          w.starts[k + 1] == w.starts[k] + PageFetch(p, server, params, w.starts[k], k + 1).Requests())
    && (forall k :: 1 <= k < |w.pages| ==> Served(PageFetch(p, server, params, w.starts[k - 1], k).Response(), w.pages[k]))
    && (w.end.Exhausted? ==> |w.pages| == |w.starts| + 1)
    && (w.end.Failed? && (w.end.error.LaterFetchFailed? || w.end.error.MissingObjects?) ==>
          && 1 <= |w.pages| == |w.starts|
          && Refused(PageFetch(p, server, params, w.starts[|w.starts| - 1], |w.starts|).Response(), |w.starts|, w.end.error))
  }

  /** `Paginator.execute`, the whole generator run. */
  function Execute(p: Paginator, server: Server, gap: nat -> real): (w: Walk)
    ensures w.firstSequences == Open(p, server).sequences
    ensures forall k :: 0 <= k < |w.pageOrder| ==> w.pageOrder[k] == k + 1
    ensures |w.spacing| == |w.pageOrder|
    ensures forall k :: 0 <= k < |w.spacing| ==> w.spacing[k] == Spacing(p.minTime, gap(k + 1))
    ensures Open(p, server).NotOpened? ==> w.pages == [] && w.end == Failed(Open(p, server).error)
    ensures Open(p, server).Opened? && !IsEnvelope(Open(p, server).response.body) ==>
      w.pages == [Raw(Open(p, server).response.body)] && w.end == Failed(StopIterationRaised)
    ensures Open(p, server).Opened? && IsEnvelope(Open(p, server).response.body) ==>
      FirstPageRead(w, Field(Open(p, server).response.body, "objects").value, Field(Open(p, server).response.body, "total").value)
    ensures w.end.Exhausted? ==> |w.pages| >= 1 && forall k :: 0 <= k < |w.pages| ==> w.pages[k].Objects?
    ensures Open(p, server).Opened? ==> LaterServed(w, p, server, Open(p, server).params, Open(p, server).requests)
  {
    var o := Open(p, server);
    if o.NotOpened? then Walk([], Failed(o.error), o.sequences, [], [], [])
    else if !IsEnvelope(o.response.body) then Walk([Raw(o.response.body)], Failed(StopIterationRaised), o.sequences, [], [], [])
    else Walked(p, server, gap, o, Field(o.response.body, "objects").value, Field(o.response.body, "total").value)
  }

  /**
   * How the first envelope shapes the run (lines 71-76): `len(objs)` needs a sized value,
   * the division a numeric total and a non-zero length; a full run yields
   * `max(1, ceil(total / len(objs)))` pages, the first page's objects first.
   */
  ghost predicate FirstPageRead(w: Walk, objs: Value, total: Value)
  {
    && (w.end == Failed(UnsizedObjects) <==> Size(objs).None?)
    && (w.end == Failed(NonNumericTotal) <==> Size(objs).Some? && Number(total).None?)
    && (w.end == Failed(EmptyFirstPage) <==> Size(objs) == Some(0) && Number(total).Some?)
    && (w.end.Exhausted? ==>
          && Size(objs).Some? && Size(objs).value > 0 && Number(total).Some?
          && var pages := CeilDiv(Number(total).value, Size(objs).value);
          && |w.pages| == (if pages > 1 then pages else 1)
          && w.pages[0] == Objects(objs))
  }

  /** The walk after an envelope first page holding `objs` and `total`. */
  function Walked(p: Paginator, server: Server, gap: nat -> real, o: Opening, objs: Value, total: Value): (w: Walk)
    requires o.Opened?
    ensures w.firstSequences == o.sequences
    ensures forall k :: 0 <= k < |w.pageOrder| ==> w.pageOrder[k] == k + 1
    ensures |w.spacing| == |w.pageOrder|
    ensures forall k :: 0 <= k < |w.spacing| ==> w.spacing[k] == Spacing(p.minTime, gap(k + 1))
    ensures FirstPageRead(w, objs, total)
    ensures w.end.Exhausted? ==> |w.pages| >= 1 && forall k :: 0 <= k < |w.pages| ==> w.pages[k].Objects?
    ensures LaterServed(w, p, server, o.params, o.requests)
  {
    if Size(objs).None? then Walk([], Failed(UnsizedObjects), o.sequences, [], [], [])
    else if Number(total).None? then Walk([], Failed(NonNumericTotal), o.sequences, [], [], [])
    else if Size(objs).value == 0 then Walk([], Failed(EmptyFirstPage), o.sequences, [], [], [])
    else
      var totalPages := CeilDiv(Number(total).value, Size(objs).value);
      if totalPages + 1 <= 0 then Walk([], Failed(ProgressDomainError), o.sequences, [], [], [])
      else
        ReadOn(p, server, gap, o, objs, totalPages)
  }

  /** The walk once the first page is read: `objs`, then the pages from 1 up to `totalPages - 1`. */
  function ReadOn(p: Paginator, server: Server, gap: nat -> real, o: Opening, objs: Value, totalPages: int): (w: Walk)
    requires o.Opened?
    ensures w.firstSequences == o.sequences
    ensures forall k :: 0 <= k < |w.pageOrder| ==> w.pageOrder[k] == k + 1
    ensures |w.spacing| == |w.pageOrder|
    ensures forall k :: 0 <= k < |w.spacing| ==> w.spacing[k] == Spacing(p.minTime, gap(k + 1))
    ensures |w.pages| >= 1 && w.pages[0] == Objects(objs)
    ensures forall k :: 0 <= k < |w.pages| ==> w.pages[k].Objects?
    ensures w.end.Exhausted? ==> |w.pages| == (if totalPages > 1 then totalPages else 1)
    ensures w.end.Failed? ==> w.end.error.LaterFetchFailed? || w.end.error.MissingObjects?
    ensures LaterServed(w, p, server, o.params, o.requests)
  {
    var rest := LaterPages(p, server, gap, o.params, o.requests, 1, totalPages);
    var w := Walk([Objects(objs)] + rest.pages, rest.end, o.sequences, rest.pageOrder, rest.spacing, rest.starts);
    assert forall k :: 0 < k < |w.pages| ==> w.pages[k] == rest.pages[k - 1];
    FirstThenLater(p, server, o.params, o.requests, totalPages, gap, rest, w);
    w
  }

  /** A first page in front of a run from page 1 gives a walk whose later pages are served. */
  lemma FirstThenLater(p: Paginator, server: Server, params: Params, next: nat, totalPages: int,
                       gap: nat -> real, rest: Later, w: Walk)
    requires FromPage(rest, p, server, params, next, 1, totalPages, gap)
    requires |w.pages| == |rest.pages| + 1 && w.pages[1..] == rest.pages
    requires w.end == rest.end && w.pageOrder == rest.pageOrder && w.starts == rest.starts
    ensures LaterServed(w, p, server, params, next)
  {
    FirstThenServed(p, server, params, rest.pages, w.pages, w.starts);
    FirstThenChained(p, server, params, next, w.starts);
    assert Shaped(rest, 1, totalPages, p.minTime, gap);
    assert Chained(rest.starts, p, server, params, next, 1);
    if w.end.Failed? {
      var m := |rest.pages|;
      assert EndRefused(rest, p, server, params, 1);
      assert Refused(PageFetch(p, server, params, rest.starts[m], 1 + m).Response(), 1 + m, rest.end.error);
      assert |w.starts| - 1 == m && |w.starts| == 1 + m;
    }
  }

  lemma FirstThenServed(p: Paginator, server: Server, params: Params, rest: seq<Page>, pages: seq<Page>, starts: seq<nat>)
    requires AllServed(rest, starts, p, server, params, 1)
    requires |pages| == |rest| + 1 && pages[1..] == rest
    ensures forall k :: 1 <= k < |pages| ==> Served(PageFetch(p, server, params, starts[k - 1], k).Response(), pages[k])
  {
    forall k | 1 <= k < |pages|
      ensures Served(PageFetch(p, server, params, starts[k - 1], k).Response(), pages[k])
    {
      assert pages[k] == rest[k - 1] && k == 1 + (k - 1);
    }
  }

  lemma FirstThenChained(p: Paginator, server: Server, params: Params, next: nat, starts: seq<nat>)
    requires Chained(starts, p, server, params, next, 1)
    ensures forall k :: 0 <= k < |starts| - 1 ==>
      starts[k + 1] == starts[k] + PageFetch(p, server, params, starts[k], k + 1).Requests()
  {
    forall k | 0 <= k < |starts| - 1
      ensures starts[k + 1] == starts[k] + PageFetch(p, server, params, starts[k], k + 1).Requests()
    {
      assert k + 1 == 1 + k;
    }
  }

  /**
   * With the default factor, two rate-limited answers and then a success are served
   * after exactly two backoff sleeps of 0.5 and 1.0 time units.
   */
  lemma RateLimitedTwiceThenOk(p: Paginator, server: Server, params: Params)
    requires p.minTime == DefaultMinTime
    requires server(0, params).status == 429 && server(1, params).status == 429
    requires server(2, params).status == 200
    ensures GetOrRetry(p, server, 0, params, DefaultMaxRetries, DefaultBackoff).Done?
    ensures var a := GetOrRetry(p, server, 0, params, DefaultMaxRetries, DefaultBackoff).attempts;
      a.Requests() == 3 && a.sleeps == [0.5, 1.0] && a.Response() == server(2, params)
  {
    var a := GetOrRetry(p, server, 0, params, DefaultMaxRetries, DefaultBackoff).attempts;
    assert a.responses[0] == server(0, params) && a.responses[1] == server(1, params);
    assert a.Requests() == 3;
    assert a.sleeps[0] == WaitTime(0.5, 2.0, 0) && a.sleeps[1] == WaitTime(0.5, 2.0, 1);
  }

  /** The walk ends in the KeyError of the fallback exactly when opening it does. */
  lemma MissingPageSizeOnlyAtOpen(p: Paginator, server: Server, gap: nat -> real)
    ensures Execute(p, server, gap).end == Failed(MissingPageSize) <==>
      Open(p, server).NotOpened? && Open(p, server).error == MissingPageSize
  {
    var o := Open(p, server);
    if o.Opened? && IsEnvelope(o.response.body) {
      var objs := Field(o.response.body, "objects").value;
      var total := Field(o.response.body, "total").value;
      if Size(objs).Some? && Number(total).Some? && Size(objs).value > 0 {
        var totalPages := CeilDiv(Number(total).value, Size(objs).value);
        if totalPages + 1 > 0 {
          var rest := LaterPages(p, server, gap, o.params, o.requests, 1, totalPages);
          assert FromPage(rest, p, server, o.params, o.requests, 1, totalPages, gap);
        }
      }
    }
  }

  /** A paginator built by `Make` always has `pageSize` to drop, so the fallback cannot raise a KeyError. */
  lemma MadePaginatorHasFallback(url: string, pageSize: int, minTime: real, params: Params,
                                 server: Server, gap: nat -> real)
    ensures Execute(Make(url, pageSize, minTime, params), server, gap).end != Failed(MissingPageSize)
  {
    var p := Make(url, pageSize, minTime, params);
    MissingPageSizeOnlyAtOpen(p, server, gap);
  }
}

=== FILE: records.dfy ===
/**
 * The normalised deck record the loader and the aggregators consume, and grouping by
 * the report key (season, source, archetype id, archetype name).
 */
module Records {
  import opened Outcomes
  import opened Values

  /** One card line of a board: `{name, n}`. */
  datatype CardEntry = CardEntry(name: string, n: int)

  /**
   * A deck row after transformation. `attributes` holds the remaining columns
   * (name, colour flags, url, competition, finish, retired, omwPercent) untouched.
   * Timestamps are integer seconds; `updated` may be missing.
   */
  datatype Deck = Deck(
    id: int, seasonId: int, sourceName: string,
    personId: int, person: string,
    archetypeId: int, archetypeName: string,
    wins: int, losses: int, draws: int, matches: int,
    created: int, updated: Option<int>,
    maindeck: seq<CardEntry>, sideboard: seq<CardEntry>,
    attributes: seq<(string, Value)>)

  /** The two card lists of a deck. */
  datatype Board = Maindeck | Sideboard

  function BoardOf(d: Deck, b: Board): seq<CardEntry>
  {
    match b
    case Maindeck => d.maindeck
    case Sideboard => d.sideboard
  }

  /** The frame column that holds the board. */
  function BoardColumn(b: Board): string
  {
    match b
    case Maindeck => "maindeck"
    case Sideboard => "sideboard"
  }

  /** The grouping columns shared by the reports: seasonId, sourceName, archetypeId, archetypeName. */
  datatype Key = Key(seasonId: int, sourceName: string, archetypeId: int, archetypeName: string)

  function KeyOf(d: Deck): Key
  {
    Key(d.seasonId, d.sourceName, d.archetypeId, d.archetypeName)
  }

  /** The rows of one group, in input order. */
  function GroupRows(rows: seq<Deck>, k: Key): (g: seq<Deck>)
    ensures |g| <= |rows|
    ensures forall i :: 0 <= i < |g| ==> KeyOf(g[i]) == k && g[i] in rows
    ensures forall i :: 0 <= i < |rows| && KeyOf(rows[i]) == k ==> rows[i] in g
    ensures |g| == 0 <==> forall i :: 0 <= i < |rows| ==> KeyOf(rows[i]) != k
  {
    if |rows| == 0 then []
    else
      var rest := GroupRows(rows[..|rows| - 1], k);
      var last := rows[|rows| - 1];
      assert forall i :: 0 <= i < |rows| - 1 ==> rows[..|rows| - 1][i] == rows[i];
      if KeyOf(last) == k then rest + [last] else rest
  }

  /** A group holds every row of its key as often as the input does, and nothing else. */
  lemma {:induction false} GroupRowsCount(rows: seq<Deck>, k: Key, d: Deck)
    ensures multiset(GroupRows(rows, k))[d] == if KeyOf(d) == k then multiset(rows)[d] else 0
  {
    if |rows| > 0 {
      var front := rows[..|rows| - 1];
      var last := rows[|rows| - 1];
      assert rows == front + [last];
      GroupRowsCount(front, k, d);
    }
  }

  /** Grouping keeps input order: the group of a concatenation is the concatenation of the groups. */
  lemma {:induction false} GroupRowsConcat(a: seq<Deck>, b: seq<Deck>, k: Key)
    ensures GroupRows(a + b, k) == GroupRows(a, k) + GroupRows(b, k)
  {
    if |b| == 0 {
      assert a + b == a;
    } else {
      var front := b[..|b| - 1];
      assert (a + b)[..|a + b| - 1] == a + front;
      assert (a + b)[|a + b| - 1] == b[|b| - 1];
      GroupRowsConcat(a, front, k);
    }
  }

  /** The keys that occur, i.e. the groups `groupby(..., observed=True)` produces. */
  function GroupKeys(rows: seq<Deck>): (ks: set<Key>)
    ensures forall k :: k in ks <==> exists i :: 0 <= i < |rows| && KeyOf(rows[i]) == k
  {
    set i | 0 <= i < |rows| :: KeyOf(rows[i])
  }

  /** A group that occurs is non-empty. */
  lemma GroupOfKeyNonEmpty(rows: seq<Deck>, k: Key)
    requires k in GroupKeys(rows)
    ensures |GroupRows(rows, k)| > 0
  {
  }

  function SumWins(g: seq<Deck>): int
  {
    if |g| == 0 then 0 else SumWins(g[..|g| - 1]) + g[|g| - 1].wins
  }

  function SumMatches(g: seq<Deck>): int
  {
    if |g| == 0 then 0 else SumMatches(g[..|g| - 1]) + g[|g| - 1].matches
  }

  /** The rows whose match count exceeds `threshold` (`df[df["matches"] > threshold]`). */
  function MoreMatchesThan(rows: seq<Deck>, threshold: int): (r: seq<Deck>)
    ensures |r| <= |rows|
    ensures forall i :: 0 <= i < |r| ==> r[i].matches > threshold && r[i] in rows
    ensures forall i :: 0 <= i < |rows| && rows[i].matches > threshold ==> rows[i] in r
  {
    if |rows| == 0 then []
    else
      var rest := MoreMatchesThan(rows[..|rows| - 1], threshold);
      var last := rows[|rows| - 1];
      assert forall i :: 0 <= i < |rows| - 1 ==> rows[..|rows| - 1][i] == rows[i];
      if last.matches > threshold then rest + [last] else rest
  }

  /** The filter keeps every row above the threshold as often as the input does, and nothing else. */
  lemma {:induction false} MoreMatchesThanCount(rows: seq<Deck>, threshold: int, d: Deck)
    ensures multiset(MoreMatchesThan(rows, threshold))[d] == if d.matches > threshold then multiset(rows)[d] else 0
  {
    if |rows| > 0 {
      var front := rows[..|rows| - 1];
      var last := rows[|rows| - 1];
      assert rows == front + [last];
      MoreMatchesThanCount(front, threshold, d);
    }
  }

  /** The filter keeps input order: filtering a concatenation concatenates the filtered parts. */
  lemma {:induction false} MoreMatchesThanConcat(a: seq<Deck>, b: seq<Deck>, threshold: int)
    ensures MoreMatchesThan(a + b, threshold) == MoreMatchesThan(a, threshold) + MoreMatchesThan(b, threshold)
  {
    if |b| == 0 {
      assert a + b == a;
    } else {
      var front := b[..|b| - 1];
      assert (a + b)[..|a + b| - 1] == a + front;
      assert (a + b)[|a + b| - 1] == b[|b| - 1];
      MoreMatchesThanConcat(a, front, threshold);
    }
  }
}

=== FILE: sets.dfy ===
/** Cardinality facts about finite sets used by the counting proofs. */
module Sets {
  /** A subset is no larger than its superset. */
  lemma SubsetCard<T>(a: set<T>, b: set<T>)
    requires a <= b
    ensures |a| <= |b|
  {
    assert b == a + (b - a);
  }
}

=== FILE: source.dfy ===
/** The `Source` enumeration of `scraper/database/models.py` and its string parser. */
module SourceEnum {
  import opened Outcomes

  /** Where a deck was played. */
  datatype Source = League | Gatherling

  /** The string value each member is stored under. */
  function Value(s: Source): string
  {
    match s
    case League => "League"
    case Gatherling => "Gatherling"
  }

  /** `Source.convert`: the member whose value is the string, or `None` for any other string. */
  function Convert(value: string): (r: Option<Source>)
    ensures r.Some? <==> exists s: Source :: Value(s) == value
    ensures r.Some? ==> Value(r.value) == value
  {
    if value == Value(League) then Some(League)
    else if value == Value(Gatherling) then Some(Gatherling)
    else None
  }

  /** Converting a member's value gives the member back. */
  lemma ConvertValue(s: Source)
    ensures Convert(Value(s)) == Some(s)
  {
    assert Value(League) != Value(Gatherling) by {
      assert Value(League)[0] != Value(Gatherling)[0];
    }
  }

  /** Two members never share a value, so the parser is a left inverse of `Value`. */
  lemma ValueInjective(s: Source, t: Source)
    ensures Value(s) == Value(t) ==> s == t
  {
    ConvertValue(s);
    ConvertValue(t);
  }
}

=== FILE: transform_functions.dfy ===
/**
 * The registered column functions of `transform/transform_functions.py`, each applied
 * row by row to a column (a sequence of cells). The three library-backed ones
 * (`str_replace`, `to_datetime`, `strftime`) are supplied from outside as `Library`.
 */
module ColumnFunctions {
  import opened Outcomes
  import opened Values

  /** The functions the module registers, one case per `@Transformer.register` name. */
  datatype ColumnFn =
    | IsinList | StrReplace | Replace | Fillna | Prepend | ToDatetime | Strftime | ColumnSum

  /** Regex replacement and datetime parsing/formatting: (function, column, args, kwargs) to a column, or None if it raises. */
  type Library = (ColumnFn, seq<Value>, seq<Value>, seq<(string, Value)>) -> Option<seq<Value>>

  /** `f` applied to every element; None as soon as one application fails. */
  function MapAll<A, B>(xs: seq<A>, f: A -> Option<B>): (r: Option<seq<B>>)
    ensures r.Some? ==> |r.value| == |xs| && forall i :: 0 <= i < |xs| ==> f(xs[i]) == Some(r.value[i])
    ensures r.None? <==> exists i :: 0 <= i < |xs| && f(xs[i]).None?
  {
    if |xs| == 0 then Some([])
    else
      match f(xs[0])
      case None => None
      case Some(y) =>
        match MapAll(xs[1..], f)
        case None =>
          assert forall i :: 0 <= i < |xs[1..]| ==> xs[1..][i] == xs[i + 1];
          None
        case Some(ys) =>
          assert forall i :: 1 <= i < |xs| ==> xs[i] == xs[1..][i - 1];
          Some([y] + ys)
  }

  /** `a` occurs in `s` as a contiguous piece: Python's `a in s` on two strings. */
  predicate Substring(a: string, s: string)
  {
    exists i :: 0 <= i <= |s| && a <= s[i..]
  }

  /**
   * `value in v` for one row of `isin_list`: membership in a list, a substring test on
   * a string (which needs a string operand), a key test on an object (which needs a
   * hashable operand). Any other cell raises `TypeError`.
   */
  function IsinRow(value: Value, v: Value): (r: Option<Value>)
    ensures r.Some? <==> v.List? || (v.Str? && value.Str?) || (v.Dict? && !value.List? && !value.Dict?)
    ensures r.Some? ==> r.value.Bool?
    ensures v.List? ==> r == Some(Bool(value in v.items))
    ensures v.Str? && value.Str? ==> r == Some(Bool(Substring(value.s, v.s)))
    ensures v.Dict? && r.Some? ==>
      (r.value.b <==> value.Str? && exists k :: 0 <= k < |v.entries| && v.entries[k].0 == value.s)
  {
    match v
    case List(items) => Some(Bool(value in items))
    case Str(s) => if value.Str? then Some(Bool(Substring(value.s, s))) else None
    case Dict(entries) =>
      if value.List? || value.Dict? then None
      else Some(Bool(value.Str? && Lookup(entries, value.s).Some?))
    case _ => None
  }

  /** `isin_list`: whether `value` occurs in each row's list, string or object. */
  function IsinListColumn(col: seq<Value>, value: Value): (r: Option<seq<Value>>)
    ensures r.Some? <==> forall i :: 0 <= i < |col| ==>
      col[i].List? || (col[i].Str? && value.Str?) || (col[i].Dict? && !value.List? && !value.Dict?)
    ensures r.Some? ==> |r.value| == |col|
    ensures r.Some? ==> forall i :: 0 <= i < |col| ==> r.value[i].Bool?
    ensures r.Some? ==> forall i :: 0 <= i < |col| && col[i].List? ==> (r.value[i] == Bool(true) <==> value in col[i].items)
    ensures r.Some? ==> forall i :: 0 <= i < |col| && col[i].Str? ==>
      value.Str? && (r.value[i] == Bool(true) <==> Substring(value.s, col[i].s))
    ensures r.Some? ==> forall i :: 0 <= i < |col| && col[i].Dict? ==>
      (r.value[i] == Bool(true) <==> value.Str? && exists k :: 0 <= k < |col[i].entries| && col[i].entries[k].0 == value.s)
  {
    MapAll(col, v => IsinRow(value, v))
  }

  /** `value + ss` for one string cell; a missing cell stays missing. */
  function PrependRow(value: string, v: Value): Option<Value>
  {
    match v
    case Str(s) => Some(Str(value + s))
    case Null => Some(Null)
    case _ => None
  }

  /** `prepend`: the prefix put in front of every string in the column. */
  function PrependColumn(col: seq<Value>, value: string): (r: Option<seq<Value>>)
    ensures r.Some? <==> forall i :: 0 <= i < |col| ==> col[i].Str? || col[i].Null?
    ensures r.Some? ==> |r.value| == |col|
    ensures r.Some? ==> forall i :: 0 <= i < |col| && col[i].Str? ==>
      r.value[i].Str? && r.value[i].s == value + col[i].s && r.value[i].s[|value|..] == col[i].s
    ensures r.Some? ==> forall i :: 0 <= i < |col| && col[i].Null? ==> r.value[i].Null?
  {
    MapAll(col, v => PrependRow(value, v))
  }

  /** After `prepend(p)` on a column of strings, `isin_list(p)` holds in every row. */
  lemma PrependedContainsPrefix(col: seq<Value>, p: string)
    requires forall i :: 0 <= i < |col| ==> col[i].Str?
    ensures PrependColumn(col, p).Some?
    ensures var c := PrependColumn(col, p).value;
      IsinListColumn(c, Str(p)).Some? && forall i :: 0 <= i < |c| ==> IsinListColumn(c, Str(p)).value[i] == Bool(true)
  {
    var c := PrependColumn(col, p).value;
    forall i | 0 <= i < |c| ensures c[i].Str? && Substring(p, c[i].s) {
      assert c[i].s[0..] == c[i].s;
    }
  }

  /** Filling with a scalar: missing cells become `value`, every other cell is kept. */
  function FillnaColumn(col: seq<Value>, value: Value): (r: seq<Value>)
    ensures |r| == |col|
    ensures forall i :: 0 <= i < |col| ==> (col[i].Null? ==> r[i] == value) && (!col[i].Null? ==> r[i] == col[i])
    ensures !value.Null? ==> forall i :: 0 <= i < |r| ==> !r[i].Null?
  {
    seq(|col|, i requires 0 <= i < |col| => if col[i].Null? then value else col[i])
  }

  /**
   * `fillna(value)` on a column. A missing value raises `ValueError` and a list raises
   * `TypeError`. An object fills by index label, and the labels of a frame built from a
   * list of records are its row numbers, which no JSON key equals, so nothing is filled.
   */
  function FillnaWith(col: seq<Value>, value: Value): (r: Option<seq<Value>>)
    ensures r.None? <==> value.Null? || value.List?
    ensures value.Dict? ==> r == Some(col)
    ensures r.Some? ==> |r.value| == |col|
    ensures r.Some? && !value.Dict? ==> forall i :: 0 <= i < |col| ==>
      (col[i].Null? ==> r.value[i] == value) && (!col[i].Null? ==> r.value[i] == col[i])
  {
    match value
    case Null => None
    case List(_) => None
    case Dict(_) => Some(col)
    case _ => Some(FillnaColumn(col, value))
  }

  /** Filling twice with the same value fills nothing more. */
  lemma FillnaIdempotent(col: seq<Value>, value: Value)
    requires FillnaWith(col, value).Some?
    ensures FillnaWith(FillnaWith(col, value).value, value) == FillnaWith(col, value)
  {
    if !value.Dict? {
      var once := FillnaColumn(col, value);
      assert FillnaColumn(once, value) == once;
    }
  }

  /** `replace(before, after)` with a scalar `before`: equal cells become `after`, others are kept. */
  function ReplaceColumn(col: seq<Value>, before: Value, after: Value): (r: seq<Value>)
    ensures |r| == |col|
    ensures forall i :: 0 <= i < |col| ==> (col[i] == before ==> r[i] == after) && (col[i] != before ==> r[i] == col[i])
    ensures before !in col ==> r == col
  {
    seq(|col|, i requires 0 <= i < |col| => if col[i] == before then after else col[i])
  }

  /**
   * The sum of one row as `df.sum(axis=1)` forms it: integers add, booleans add as 0 or 1,
   * missing cells are skipped; None if some cell is none of these.
   */
  function RowSum(vs: seq<Value>): (r: Option<int>)
    ensures r.Some? <==> forall j :: 0 <= j < |vs| ==> Number(vs[j]).Some? || vs[j].Null?
    ensures (forall j :: 0 <= j < |vs| ==> vs[j].Null?) ==> r == Some(0)
  {
    if |vs| == 0 then Some(0)
    else
      var last := vs[|vs| - 1];
      match RowSum(vs[..|vs| - 1])
      case None => None
      case Some(s) =>
        if last.Null? then Some(s)
        else match Number(last)
          case Some(n) => Some(s + n)
          case None => None
  }

  /** The sum of a row split in two is the sum of the two parts' sums. */
  lemma {:induction false} RowSumConcat(a: seq<Value>, b: seq<Value>)
    ensures RowSum(a + b) ==
      if RowSum(a).Some? && RowSum(b).Some? then Some(RowSum(a).value + RowSum(b).value) else None
  {
    if |b| == 0 {
      assert a + b == a;
    } else {
      var front := b[..|b| - 1];
      assert (a + b)[..|a + b| - 1] == a + front;
      assert (a + b)[|a + b| - 1] == b[|b| - 1];
      RowSumConcat(a, front);
      if RowSum(a).Some? && RowSum(b).None? {
        var j :| 0 <= j < |b| && Number(b[j]).None? && !b[j].Null?;
        assert (a + b)[|a| + j] == b[j];
      }
    }
  }

  /** `column_sum`: row i of the result is the sum of row i's cells (`df.sum(axis=1)`). */
  function ColumnSumTable(rows: seq<seq<Value>>): (r: Option<seq<Value>>)
    ensures r.Some? ==> |r.value| == |rows|
    ensures r.Some? ==> forall i :: 0 <= i < |rows| ==> RowSum(rows[i]).Some? && r.value[i] == Int(RowSum(rows[i]).value)
    ensures r.None? <==> exists i :: 0 <= i < |rows| && RowSum(rows[i]).None?
  {
    MapAll(rows, (vs: seq<Value>) => match RowSum(vs) case Some(s) => Some(Int(s)) case None => None)
  }

  /** With three integer cells the row sum is their arithmetic sum: `matches = wins + losses + draws`. */
  lemma RowSumOfThree(w: int, l: int, d: int)
    ensures RowSum([Int(w), Int(l), Int(d)]) == Some(w + l + d)
  {
    assert [Int(w)][..0] == [];
    assert RowSum([Int(w)]) == Some(w);
    assert [Int(w), Int(l)][..1] == [Int(w)];
    assert RowSum([Int(w), Int(l)]) == Some(w + l);
    assert [Int(w), Int(l), Int(d)][..2] == [Int(w), Int(l)];
  }
}

=== FILE: transformer.dfy ===
/**
 * The schema-driven `Transformer` of `transform/transformer.py`: the name-to-function
 * registry, construction (filtering the transformation list and collecting the
 * source columns), and `execute` (restrict, apply the steps in order, convert the
 * schema columns, project to schema order).
 */
module Transformer {
  import opened Outcomes
  import opened Values
  import opened ColumnFunctions

  // ---------------------------------------------------------------- registry

  type Registry = map<string, ColumnFn>

  datatype RegisterError = AlreadyRegistered(name: string)

  /** `Transformer.register(name)(func)`: a name can be registered once. */
  function Register(reg: Registry, name: string, f: ColumnFn): (r: Result<Registry, RegisterError>)
    ensures name in reg <==> r.Err?
    ensures r.Err? ==> r.error == AlreadyRegistered(name)
    ensures r.Ok? ==> r.value.Keys == reg.Keys + {name} && r.value[name] == f
    ensures r.Ok? ==> forall k :: k in reg ==> r.value[k] == reg[k]
  {
    if name in reg then Err(AlreadyRegistered(name)) else Ok(reg[name := f])
  }

  /** The registrations `transform_functions.py` performs on import, in file order. */
  const Registrations: seq<(string, ColumnFn)> := [
    ("isin_list", IsinList), ("str_replace", StrReplace), ("replace", Replace), ("fillna", Fillna),
    ("prepend", Prepend), ("to_datetime", ToDatetime), ("strftime", Strftime), ("column_sum", ColumnSum)]

  /** A name registered earlier in the list, or already present. */
  predicate Clash(reg: Registry, regs: seq<(string, ColumnFn)>)
  {
    exists i :: 0 <= i < |regs| && (regs[i].0 in reg || exists j :: 0 <= j < i && regs[j].0 == regs[i].0)
  }

  /** The names a list of registrations uses. */
  function RegNames(regs: seq<(string, ColumnFn)>): set<string>
  {
    set i | 0 <= i < |regs| :: regs[i].0
  }

  /** A list clashes when its front clashes or its last name was already taken. */
  lemma ClashSnoc(reg: Registry, regs: seq<(string, ColumnFn)>)
    requires |regs| > 0
    ensures var front := regs[..|regs| - 1];
      var last := regs[|regs| - 1].0;
      (Clash(reg, regs) <==> Clash(reg, front) || last in reg || last in RegNames(front)) &&
      RegNames(regs) == RegNames(front) + {last}
  {
    var front := regs[..|regs| - 1];
    assert regs == front + [regs[|regs| - 1]];
    if Clash(reg, regs) {
      ClashFound(reg, regs);
    }
    ClashKept(reg, regs);
  }

  /** A clash in the whole list lies in its front or at its last name. */
  lemma ClashFound(reg: Registry, regs: seq<(string, ColumnFn)>)
    requires |regs| > 0 && Clash(reg, regs)
    ensures var front := regs[..|regs| - 1];
      var last := regs[|regs| - 1].0;
      Clash(reg, front) || last in reg || last in RegNames(front)
  {
    var front := regs[..|regs| - 1];
    var n := |regs| - 1;
    var i :| 0 <= i < |regs| && (regs[i].0 in reg || exists j :: 0 <= j < i && regs[j].0 == regs[i].0);
    if i < n {
      assert front[i] == regs[i];
      if regs[i].0 !in reg {
        var j :| 0 <= j < i && regs[j].0 == regs[i].0;
        assert front[j] == regs[j];
      }
    } else if regs[n].0 !in reg {
      var j :| 0 <= j < i && regs[j].0 == regs[i].0;
      assert front[j] == regs[j];
    }
  }

  /** A clash in the front, or a last name already taken, is a clash of the whole list. */
  lemma ClashKept(reg: Registry, regs: seq<(string, ColumnFn)>)
    requires |regs| > 0
    ensures var front := regs[..|regs| - 1];
      var last := regs[|regs| - 1].0;
      Clash(reg, front) || last in reg || last in RegNames(front) ==> Clash(reg, regs)
  {
    var front := regs[..|regs| - 1];
    var n := |regs| - 1;
    if Clash(reg, front) {
      var i :| 0 <= i < |front| && (front[i].0 in reg || exists j :: 0 <= j < i && front[j].0 == front[i].0);
      assert regs[i] == front[i];
      if front[i].0 !in reg {
        var j :| 0 <= j < i && front[j].0 == front[i].0;
        assert regs[j] == front[j];
      }
    } else if regs[n].0 in reg {
      assert regs[n].0 in reg;
    } else if regs[n].0 in RegNames(front) {
      var j :| 0 <= j < |front| && front[j].0 == regs[n].0;
      assert regs[j] == front[j];
    }
  }

  /** Registering a list of functions one after the other. */
  function RegisterAll(reg: Registry, regs: seq<(string, ColumnFn)>): (r: Result<Registry, RegisterError>)
    ensures r.Err? <==> Clash(reg, regs)
    ensures r.Ok? ==> r.value.Keys == reg.Keys + RegNames(regs)
    ensures r.Ok? ==> forall i :: 0 <= i < |regs| ==> r.value[regs[i].0] == regs[i].1
    ensures r.Ok? ==> forall k :: k in reg ==> r.value[k] == reg[k]
  {
    if |regs| == 0 then Ok(reg)
    else
      var front := regs[..|regs| - 1];
      var last := regs[|regs| - 1];
      ClashSnoc(reg, regs);
      match RegisterAll(reg, front)
      case Err(e) => Err(e)
      case Ok(r0) =>
        if last.0 in r0 then
          Err(AlreadyRegistered(last.0))
        else
          assert forall i :: 0 <= i < |front| ==> front[i] == regs[i];
          Ok(r0[last.0 := last.1])
  }

  // ---------------------------------------------------------------- construction

  /** The `source` of a transformation: one column name or a list of them. */
  datatype SourceRef = Column(name: string) | Columns(names: seq<string>)

  /** A transformation entry as configured; every key may be absent. */
  datatype Spec = Spec(name: Option<string>, source: Option<SourceRef>, target: Option<string>,
                       args: Option<seq<Value>>, kwargs: Option<seq<(string, Value)>>)

  /** A retained transformation, with `args`/`kwargs` defaulted. */
  datatype Step = Step(name: string, source: SourceRef, target: Option<string>,
                       args: seq<Value>, kwargs: seq<(string, Value)>)

  /** The declared type of a schema column and, for categorical columns, its allowed values. */
  datatype ColSpec = ColSpec(dtype: string, categories: Option<seq<Value>>)

  /** The schema, in declaration order. */
  type Schema = seq<(string, ColSpec)>

  /** Schema names are the keys of a dict, so they are distinct. */
  predicate UniqueNames(schema: Schema)
  {
    forall i, j :: 0 <= i < j < |schema| ==> schema[i].0 != schema[j].0
  }

  function SchemaNames(schema: Schema): (names: set<string>)
    ensures forall i :: 0 <= i < |schema| ==> schema[i].0 in names
    ensures forall c :: c in names ==> exists i :: 0 <= i < |schema| && schema[i].0 == c
  {
    set i | 0 <= i < |schema| :: schema[i].0
  }

  datatype InitError =
    | SpecWithoutName    // KeyError on dct["name"]
    | SpecWithoutSource  // KeyError on dct["source"]

  datatype Transformer = Transformer(schema: Schema, steps: seq<Step>, sourceColumns: set<string>)

  const Reserved: set<string> := {"execute", "__init__"}

  /** The columns a transformation source names: what `set.update(source)` was meant to add. */
  function SourcesOf(src: SourceRef): (cols: set<string>)
    ensures src.Column? ==> cols == {src.name}
    ensures src.Columns? ==> forall c :: c in cols <==> c in src.names
  {
    match src
    case Column(c) => {c}
    case Columns(cs) => set c | c in cs
  }

  /** What line 40 adds as written: `set.update(*names)` adds the characters of every name. */
  function SourcesAsWritten(src: SourceRef): (cols: set<string>)
    ensures src.Column? ==> cols == {src.name}
    ensures src.Columns? ==> forall c :: c in cols ==> |c| == 1
    ensures src.Columns? ==> forall i, j :: 0 <= i < |src.names| && 0 <= j < |src.names[i]| ==> [src.names[i][j]] in cols
  {
    match src
    case Column(c) => {c}
    case Columns(cs) => set i, j | 0 <= i < |cs| && 0 <= j < |cs[i]| :: [cs[i][j]]
  }

  /** Entries with none of name/source/target, and entries naming a reserved method, are dropped. */
  predicate Dropped(d: Spec)
  {
    (d.name.None? && d.source.None? && d.target.None?) || (d.name.Some? && d.name.value in Reserved)
  }

  /** The retained form of an entry: missing `args`/`kwargs` default to empty. */
  function Normalize(d: Spec): (s: Step)
    requires d.name.Some? && d.source.Some?
    ensures s.name == d.name.value && s.source == d.source.value && s.target == d.target
    ensures d.args.None? ==> s.args == []
    ensures d.args.Some? ==> s.args == d.args.value
    ensures d.kwargs.None? ==> s.kwargs == []
    ensures d.kwargs.Some? ==> s.kwargs == d.kwargs.value
  {
    Step(d.name.value, d.source.value,  d.target,
         match d.args case Some(a) => a case None => [],
         match d.kwargs case Some(k) => k case None => [])
  }

  /** The retained transformations, in list order (lines 29-36). */
  function Retained(specs: seq<Spec>): (r: Result<seq<Step>, InitError>)
    ensures r.Ok? ==> |r.value| <= |specs|
    ensures r.Ok? ==> forall k :: 0 <= k < |r.value| ==> r.value[k].name !in Reserved
    ensures r.Ok? <==> forall i :: 0 <= i < |specs| ==> Dropped(specs[i]) || (specs[i].name.Some? && specs[i].source.Some?)
    ensures (forall i :: 0 <= i < |specs| ==> !Dropped(specs[i]) && specs[i].name.Some? && specs[i].source.Some?) ==>
      r.Ok? && r.value == seq(|specs|, i requires 0 <= i < |specs| => Normalize(specs[i]))
  {
    if |specs| == 0 then Ok([])
    else
      var front := specs[..|specs| - 1];
      var d := specs[|specs| - 1];
      assert forall i :: 0 <= i < |front| ==> front[i] == specs[i];
      match Retained(front)
      case Err(e) => Err(e)
      case Ok(steps) =>
        if d.name.None? && d.source.None? && d.target.None? then Ok(steps)
        else if d.name.None? then Err(SpecWithoutName)
        else if d.name.value in Reserved then Ok(steps)
        else if d.source.None? then Err(SpecWithoutSource)
        else Ok(steps + [Normalize(d)])
  }

  /** Every column some step's source adds. */
  function StepSources(steps: seq<Step>, sources: SourceRef -> set<string>): (cols: set<string>)
    ensures forall k :: 0 <= k < |steps| ==> sources(steps[k].source) <= cols
    ensures forall c :: c in cols ==> exists k :: 0 <= k < |steps| && c in sources(steps[k].source)
  {
    set k, c | 0 <= k < |steps| && c in sources(steps[k].source) :: c
  }

  /**
   * `Transformer.__init__`, with the way a source adds to the source columns as a
   * parameter: the schema keys plus what every retained step's source adds.
   */
  function InitWith(specs: seq<Spec>, schema: Schema, sources: SourceRef -> set<string>): (r: Result<Transformer, InitError>)
    ensures r.Ok? <==> Retained(specs).Ok?
    ensures r.Ok? ==> r.value.schema == schema && r.value.steps == Retained(specs).value
    ensures r.Ok? ==> SchemaNames(schema) <= r.value.sourceColumns
    ensures r.Ok? ==> forall k :: 0 <= k < |r.value.steps| ==> sources(r.value.steps[k].source) <= r.value.sourceColumns
    ensures r.Ok? ==> forall c :: c in r.value.sourceColumns ==>
      c in SchemaNames(schema) || exists k :: 0 <= k < |r.value.steps| && c in sources(r.value.steps[k].source)
  {
    var steps :- Retained(specs);
    Ok(Transformer(schema, steps, SchemaNames(schema) + StepSources(steps, sources)))
  }

  /** `Transformer.__init__` with list sources adding their column names. */
  function Init(specs: seq<Spec>, schema: Schema): Result<Transformer, InitError>
  {
    InitWith(specs, schema, SourcesOf)
  }

  /** With the corrected update, every column a retained step reads from is kept by `execute`'s restriction. */
  lemma InitKeepsStepColumns(specs: seq<Spec>, schema: Schema)
    requires Init(specs, schema).Ok?
    ensures var t := Init(specs, schema).value;
      forall k, c :: 0 <= k < |t.steps| && t.steps[k].source.Columns? && c in t.steps[k].source.names ==> c in t.sourceColumns
  {
  }

  /**
   * As written, a list source contributes only one-character names, so a multi-character
   * column named only in a list source is not a source column and `execute` drops it.
   */
  lemma ListSourceAsWrittenLosesNames(schema: Schema)
    requires "wins" !in SchemaNames(schema)
    ensures var spec := Spec(Some("column_sum"), Some(Columns(["wins", "losses", "draws"])), Some("matches"), None, None);
      && InitWith([spec], schema, SourcesAsWritten).Ok?
      && "wins" !in InitWith([spec], schema, SourcesAsWritten).value.sourceColumns
      && "w" in InitWith([spec], schema, SourcesAsWritten).value.sourceColumns
      && "wins" in Init([spec], schema).value.sourceColumns
  {
    var spec := Spec(Some("column_sum"), Some(Columns(["wins", "losses", "draws"])), Some("matches"), None, None);
    var t := InitWith([spec], schema, SourcesAsWritten).value;
    assert [spec][..0] == [];
    assert t.steps == [Normalize(spec)];
    var src := spec.source.value;
    assert src.names[0] == "wins" && src.names[0][0] == 'w';
    assert "w" in SourcesAsWritten(src);
    assert t.steps[0].source == src;
    assert SourcesAsWritten(src) <= t.sourceColumns;
    assert Init([spec], schema).value.steps == [Normalize(spec)];
    assert "wins" in SourcesOf(src);
  }

  // ---------------------------------------------------------------- execution

  /** A dataframe: a number of rows and named columns of cells. */
  datatype Frame = Frame(height: nat, columns: map<string, seq<Value>>)

  predicate Valid(f: Frame)
  {
    forall c :: c in f.columns ==> |f.columns[c]| == f.height
  }

  /** The output: columns in a fixed order. */
  datatype Table = Table(height: nat, columns: seq<(string, seq<Value>)>)

  datatype ExecError =
    | MissingColumn(name: string)   // KeyError on a column access
    | MissingTarget(step: string)   // KeyError on dct["target"]
    | BadArguments(step: string)    // TypeError binding args/kwargs, or arguments outside the modelled cases
    | FunctionFailed(step: string)  // the column function raised
    | CastFailed(column: string)    // astype raised

  /** `df[list(set(source_columns) & set(df.columns))]`. */
  function Restrict(f: Frame, cols: set<string>): (g: Frame)
    ensures g.height == f.height
    ensures g.columns.Keys == f.columns.Keys * cols
    ensures forall c :: c in g.columns ==> g.columns[c] == f.columns[c]
    ensures Valid(f) ==> Valid(g)
  {
    Frame(f.height, map c | c in f.columns && c in cols :: f.columns[c])
  }

  /** Python's binding of positional and keyword arguments to required parameters. */
  function Bind(params: seq<string>, args: seq<Value>, kwargs: seq<(string, Value)>): (r: Option<seq<Value>>)
    ensures r.Some? ==> |r.value| == |params| && |args| <= |params| && r.value[..|args|] == args
    ensures r.Some? ==> forall i :: |args| <= i < |params| ==> Some(r.value[i]) == Lookup(kwargs, params[i])
    ensures r.Some? <==>
      && |args| <= |params|
      && (forall k :: 0 <= k < |kwargs| ==> kwargs[k].0 in params[|args|..])
      && (forall i :: |args| <= i < |params| ==> Lookup(kwargs, params[i]).Some?)
  {
    if |args| > |params| then None
    else if exists k :: 0 <= k < |kwargs| && kwargs[k].0 !in params[|args|..] then None
    else if exists i :: |args| <= i < |params| && Lookup(kwargs, params[i]).None? then None
    else Some(args + seq(|params| - |args|, i requires 0 <= i < |params| - |args| => Lookup(kwargs, params[|args| + i]).value))
  }

  /** The position of the first name that is not a key, or the length if there is none. */
  function FirstMissing(names: seq<string>, keys: set<string>): (i: nat)
    ensures i <= |names|
    ensures i < |names| ==> names[i] !in keys
    ensures forall j :: 0 <= j < i ==> names[j] in keys
  {
    if |names| == 0 then 0
    else if names[0] !in keys then 0
    else 1 + FirstMissing(names[1..], keys)
  }

  /** What `df[source]` hands to the function: a column, or the rows of several columns. */
  datatype Input = One(col: seq<Value>) | Many(rows: seq<seq<Value>>)

  function Select(f: Frame, src: SourceRef): (r: Result<Input, ExecError>)
    requires Valid(f)
    ensures r.Ok? <==> SourcesOf(src) <= f.columns.Keys
    ensures r.Ok? && src.Column? ==> r.value == One(f.columns[src.name])
    ensures r.Ok? && src.Columns? ==> r.value.Many? && |r.value.rows| == f.height
    ensures r.Ok? && src.Columns? ==> forall i, j :: 0 <= i < f.height && 0 <= j < |src.names| ==>
      |r.value.rows[i]| == |src.names| && r.value.rows[i][j] == f.columns[src.names[j]][i]
  {
    match src
    case Column(c) => if c in f.columns then Ok(One(f.columns[c])) else Err(MissingColumn(c))
    case Columns(cs) =>
      var j := FirstMissing(cs, f.columns.Keys);
      if j < |cs| then Err(MissingColumn(cs[j]))
      else
        Ok(Many(seq(f.height, i requires 0 <= i < f.height =>
          seq(|cs|, j requires 0 <= j < |cs| => f.columns[cs[j]][i]))))
  }

  /** The single column a series function needs. */
  function OneColumn(step: Step, input: Input): (r: Result<seq<Value>, ExecError>)
    ensures r.Ok? <==> input.One?
    ensures r.Ok? ==> r.value == input.col
  {
    match input
    case One(col) => Ok(col)
    case Many(_) => Err(BadArguments(step.name))
  }

  /** The one argument `value` of `isin_list`, `prepend` and `fillna`. */
  function ValueArg(step: Step): (r: Result<Value, ExecError>)
    ensures r.Ok? <==> Bind(["value"], step.args, step.kwargs).Some?
    ensures |step.args| == 1 && |step.kwargs| == 0 ==> r == Ok(step.args[0])
    ensures |step.args| == 0 && |step.kwargs| == 1 && step.kwargs[0].0 == "value" ==> r == Ok(step.kwargs[0].1)
    ensures |step.args| > 1 ==> r.Err?
  {
    match Bind(["value"], step.args, step.kwargs)
    case Some(vs) => Ok(vs[0])
    case None => Err(BadArguments(step.name))
  }

  /**
   * The `to_replace` and `value` arguments of `replace`, both scalars; lists, objects and
   * further keywords are outside the modelled cases.
   */
  function ReplaceArgs(step: Step): (r: Result<(Value, Value), ExecError>)
    ensures r.Ok? ==> Bind(["to_replace", "value"], step.args, step.kwargs) == Some([r.value.0, r.value.1])
    ensures r.Ok? ==> !r.value.0.List? && !r.value.0.Dict? && !r.value.1.List? && !r.value.1.Dict?
    ensures |step.args| == 2 && |step.kwargs| == 0 ==>
      (r.Ok? <==> !step.args[0].List? && !step.args[0].Dict? && !step.args[1].List? && !step.args[1].Dict?)
  {
    match Bind(["to_replace", "value"], step.args, step.kwargs)
    case None => Err(BadArguments(step.name))
    case Some(vs) =>
      if vs[0].List? || vs[0].Dict? || vs[1].List? || vs[1].Dict? then Err(BadArguments(step.name))
      else
        assert vs == [vs[0], vs[1]];
        Ok((vs[0], vs[1]))
  }

  function Lift(step: Step, r: Option<seq<Value>>): Result<seq<Value>, ExecError>
  {
    match r
    case Some(c) => Ok(c)
    case None => Err(FunctionFailed(step.name))
  }

  /** One registered function applied to its input; the result has one cell per input row. */
  function Apply(fn: ColumnFn, step: Step, input: Input, lib: Library): (r: Result<seq<Value>, ExecError>)
    ensures r.Ok? && input.One? ==> |r.value| == |input.col|
    ensures r.Ok? && input.Many? ==> |r.value| == |input.rows|
    ensures fn == ColumnSum ==>
      (r.Ok? <==> input.Many? && |step.args| == 0 && |step.kwargs| == 0 && ColumnSumTable(input.rows).Some?)
    ensures r.Ok? && fn == ColumnSum ==> Some(r.value) == ColumnSumTable(input.rows)
    ensures fn == IsinList ==>
      (r.Ok? <==> input.One? && ValueArg(step).Ok? && IsinListColumn(input.col, ValueArg(step).value).Some?)
    ensures r.Ok? && fn == IsinList ==> Some(r.value) == IsinListColumn(input.col, ValueArg(step).value)
    ensures fn == Prepend ==>
      (r.Ok? <==> input.One? && ValueArg(step).Ok? && ValueArg(step).value.Str? &&
                  PrependColumn(input.col, ValueArg(step).value.s).Some?)
    ensures r.Ok? && fn == Prepend ==> Some(r.value) == PrependColumn(input.col, ValueArg(step).value.s)
    ensures fn == Fillna ==>
      (r.Ok? <==> input.One? && ValueArg(step).Ok? && FillnaWith(input.col, ValueArg(step).value).Some?)
    ensures r.Ok? && fn == Fillna ==> Some(r.value) == FillnaWith(input.col, ValueArg(step).value)
    ensures fn == Replace ==>
      (r.Ok? <==> input.One? && ReplaceArgs(step).Ok? && (ReplaceArgs(step).value.0.Null? ==> |input.col| == 0))
    ensures r.Ok? && fn == Replace ==>
      r.value == ReplaceColumn(input.col, ReplaceArgs(step).value.0, ReplaceArgs(step).value.1)
  {
    match fn
    case ColumnSum =>
      if !input.Many? || |step.args| > 0 || |step.kwargs| > 0 then Err(BadArguments(step.name))
      else Lift(step, ColumnSumTable(input.rows))
    case IsinList =>
      var col :- OneColumn(step, input);
      var v :- ValueArg(step);
      Lift(step, IsinListColumn(col, v))
    case Prepend =>
      var col :- OneColumn(step, input);
      var v :- ValueArg(step);
      if !v.Str? then Err(FunctionFailed(step.name)) else Lift(step, PrependColumn(col, v.s))
    case Fillna =>
      var col :- OneColumn(step, input);
      var v :- ValueArg(step);
      Lift(step, FillnaWith(col, v))
    case Replace =>
      var col :- OneColumn(step, input);
      var (before, after) :- ReplaceArgs(step);
      // `to_replace=None` without a regex is a TypeError once the column has a cell
      if before.Null? && |col| > 0 then Err(FunctionFailed(step.name)) else Ok(ReplaceColumn(col, before, after))
    case StrReplace => ApplyLibrary(fn, step, input, lib)
    case ToDatetime => ApplyLibrary(fn, step, input, lib)
    case Strftime => ApplyLibrary(fn, step, input, lib)
  }

  /** A library-backed function: any result of the right length is accepted. */
  function ApplyLibrary(fn: ColumnFn, step: Step, input: Input, lib: Library): (r: Result<seq<Value>, ExecError>)
    ensures r.Ok? ==> input.One? && |r.value| == |input.col|
  {
    var col :- OneColumn(step, input);
    match lib(fn, col, step.args, step.kwargs)
    case Some(c) => if |c| == |col| then Ok(c) else Err(FunctionFailed(step.name))
    case None => Err(FunctionFailed(step.name))
  }

  /** One transformation: skipped when its name is not registered, else `df[target] = f(df[source], ...)`. */
  function ApplyStep(reg: Registry, lib: Library, step: Step, f: Frame): (r: Result<Frame, ExecError>)
    requires Valid(f)
    ensures step.name !in reg ==> r == Ok(f)
    ensures r.Ok? ==> Valid(r.value) && r.value.height == f.height
    ensures r.Ok? && step.name in reg ==> step.target.Some? && r.value.columns.Keys == f.columns.Keys + {step.target.value}
    ensures r.Ok? && step.name in reg ==> forall c :: c in f.columns && c != step.target.value ==> r.value.columns[c] == f.columns[c]
    ensures step.name in reg ==>
      (r.Ok? <==> step.target.Some? && Select(f, step.source).Ok? &&
                  Apply(reg[step.name], step, Select(f, step.source).value, lib).Ok?)
    ensures r.Ok? && step.name in reg ==>
      Apply(reg[step.name], step, Select(f, step.source).value, lib) == Ok(r.value.columns[step.target.value])
    ensures step.name in reg && step.target.Some? && !(SourcesOf(step.source) <= f.columns.Keys) ==> r.Err?
  {
    if step.name !in reg then Ok(f)
    else if step.target.None? then Err(MissingTarget(step.name))
    else
      var input :- Select(f, step.source);
      var col :- Apply(reg[step.name], step, input, lib);
      Ok(Frame(f.height, f.columns[step.target.value := col]))
  }

  /** The transformations in list order. */
  function ApplySteps(reg: Registry, lib: Library, steps: seq<Step>, f: Frame): (r: Result<Frame, ExecError>)
    requires Valid(f)
    ensures r.Ok? ==> Valid(r.value) && r.value.height == f.height
    ensures r.Ok? ==> f.columns.Keys <= r.value.columns.Keys
    ensures (forall k :: 0 <= k < |steps| ==> steps[k].name !in reg) ==> r == Ok(f)
  {
    if |steps| == 0 then Ok(f)
    else
      var g :- ApplyStep(reg, lib, steps[0], f);
      ApplySteps(reg, lib, steps[1..], g)
  }

  /** Running two lists of steps is running the first and then the second on its result. */
  lemma {:induction false} ApplyStepsConcat(reg: Registry, lib: Library, s1: seq<Step>, s2: seq<Step>, f: Frame)
    requires Valid(f)
    ensures ApplySteps(reg, lib, s1 + s2, f) ==
      match ApplySteps(reg, lib, s1, f)
      case Err(e) => Err(e)
      case Ok(g) => ApplySteps(reg, lib, s2, g)
  {
    if |s1| == 0 {
      assert s1 + s2 == s2;
    } else {
      assert (s1 + s2)[0] == s1[0] && (s1 + s2)[1..] == s1[1..] + s2;
      match ApplyStep(reg, lib, s1[0], f)
      case Err(e) =>
      case Ok(g) => ApplyStepsConcat(reg, lib, s1[1..], s2, g);
    }
  }

  /** `cat.set_categories(cats)`: values outside the domain become null. */
  function RestrictDomain(col: seq<Value>, cats: seq<Value>): (r: seq<Value>)
    ensures |r| == |col|
    ensures forall i :: 0 <= i < |col| ==> (col[i] in cats ==> r[i] == col[i]) && (col[i] !in cats ==> r[i] == Null)
    ensures forall i :: 0 <= i < |r| ==> r[i] in cats || r[i].Null?
  {
    seq(|col|, i requires 0 <= i < |col| => if col[i] in cats then col[i] else Null)
  }

  /** A cell a categorical can hold: lists and objects are unhashable, so `astype("category")` raises on them. */
  predicate Hashable(v: Value)
  {
    !v.List? && !v.Dict?
  }

  /**
   * The conversion one non-object schema column undergoes (lines 84-88): `astype`, where
   * `cast` is `astype` for a cell (None if it raises), and for a categorical column the
   * category codes, which keep the cells, then `set_categories` when categories are given.
   */
  function Convert(name: string, spec: ColSpec, cast: (string, Value) -> Option<Value>, col: seq<Value>): (r: Result<seq<Value>, ExecError>)
    ensures r.Ok? ==> |r.value| == |col|
    ensures spec.dtype == "category" ==> (r.Ok? <==> forall i :: 0 <= i < |col| ==> Hashable(col[i]))
    ensures spec.dtype == "category" && spec.categories.Some? && r.Ok? ==> r.value == RestrictDomain(col, spec.categories.value)
    ensures spec.dtype == "category" && spec.categories.None? && r.Ok? ==> r.value == col
    ensures spec.dtype != "category" ==>
      (r.Ok? <==> forall i :: 0 <= i < |col| ==> cast(spec.dtype, col[i]).Some?)
    ensures spec.dtype != "category" && r.Ok? ==> forall i :: 0 <= i < |col| ==> cast(spec.dtype, col[i]) == Some(r.value[i])
    ensures r.Err? ==> r.error == CastFailed(name)
  {
    if spec.dtype == "category" then
      if exists i :: 0 <= i < |col| && !Hashable(col[i]) then Err(CastFailed(name))
      else
        match spec.categories
        case Some(cats) => Ok(RestrictDomain(col, cats))
        case None => Ok(col)
    else
      match MapAll(col, v => cast(spec.dtype, v))
      case Some(c) => Ok(c)
      case None => Err(CastFailed(name))
  }

  /** Lines 77-89: every non-object schema column, in order, is converted in place. */
  function ConvertColumns(schema: Schema, cast: (string, Value) -> Option<Value>, f: Frame): (r: Result<Frame, ExecError>)
    requires Valid(f) && UniqueNames(schema)
    ensures r.Ok? ==> Valid(r.value) && r.value.height == f.height && r.value.columns.Keys == f.columns.Keys
    ensures r.Ok? ==> forall i :: 0 <= i < |schema| && schema[i].1.dtype != "object" ==>
      schema[i].0 in f.columns && Convert(schema[i].0, schema[i].1, cast, f.columns[schema[i].0]) == Ok(r.value.columns[schema[i].0])
    ensures r.Ok? ==> forall c :: c in f.columns && (forall i :: 0 <= i < |schema| && schema[i].0 == c ==> schema[i].1.dtype == "object") ==>
      r.value.columns[c] == f.columns[c]
    ensures r.Ok? <==> forall i :: 0 <= i < |schema| && schema[i].1.dtype != "object" ==>
      schema[i].0 in f.columns && Convert(schema[i].0, schema[i].1, cast, f.columns[schema[i].0]).Ok?
  {
    if |schema| == 0 then Ok(f)
    else
      var (name, spec) := schema[0];
      var rest := schema[1..];
      assert forall i :: 0 <= i < |rest| ==> rest[i] == schema[i + 1];
      assert forall i :: 0 <= i < |rest| ==> rest[i].0 != name;
      if spec.dtype == "object" then ConvertColumns(rest, cast, f)
      else if name !in f.columns then Err(MissingColumn(name))
      else
        var col :- Convert(name, spec, cast, f.columns[name]);
        var g := Frame(f.height, f.columns[name := col]);
        var r := ConvertColumns(rest, cast, g);
        if r.Ok? then
          assert forall i :: 1 <= i < |schema| ==> schema[i] == rest[i - 1];
          r
        else r
  }

  /** `df[keep_columns]`: exactly the schema columns, in schema order. */
  function Project(schema: Schema, f: Frame): (r: Result<Table, ExecError>)
    ensures r.Ok? <==> forall i :: 0 <= i < |schema| ==> schema[i].0 in f.columns
    ensures r.Ok? ==> r.value.height == f.height && |r.value.columns| == |schema|
    ensures r.Ok? ==> forall i :: 0 <= i < |schema| ==> r.value.columns[i] == (schema[i].0, f.columns[schema[i].0])
  {
    var names := seq(|schema|, i requires 0 <= i < |schema| => schema[i].0);
    var i := FirstMissing(names, f.columns.Keys);
    assert forall j :: 0 <= j < |schema| ==> names[j] == schema[j].0;
    if i < |names| then Err(MissingColumn(names[i]))
    else
      Ok(Table(f.height, seq(|schema|, i requires 0 <= i < |schema| => (schema[i].0, f.columns[schema[i].0]))))
  }

  /** `Transformer.execute`. */
  function Execute(t: Transformer, reg: Registry, lib: Library, cast: (string, Value) -> Option<Value>, df: Frame)
    : (r: Result<Table, ExecError>)
    requires Valid(df) && UniqueNames(t.schema)
    ensures r.Ok? ==> r.value.height == df.height && |r.value.columns| == |t.schema|
    ensures r.Ok? ==> forall i :: 0 <= i < |t.schema| ==>
      r.value.columns[i].0 == t.schema[i].0 && |r.value.columns[i].1| == df.height
    ensures r.Ok? ==> ApplySteps(reg, lib, t.steps, Restrict(df, t.sourceColumns)).Ok?
    ensures r.Ok? ==> forall i :: 0 <= i < |t.schema| && t.schema[i].1.dtype == "object" ==>
      var g := ApplySteps(reg, lib, t.steps, Restrict(df, t.sourceColumns));
      g.Ok? && t.schema[i].0 in g.value.columns && r.value.columns[i].1 == g.value.columns[t.schema[i].0]
    ensures r.Ok? ==> forall i :: 0 <= i < |t.schema| && t.schema[i].1.dtype == "category" && t.schema[i].1.categories.Some? ==>
      forall k :: 0 <= k < df.height ==> r.value.columns[i].1[k] in t.schema[i].1.categories.value || r.value.columns[i].1[k].Null?
    ensures ApplySteps(reg, lib, t.steps, Restrict(df, t.sourceColumns)).Ok? &&
      (exists i :: 0 <= i < |t.schema| && t.schema[i].0 !in ApplySteps(reg, lib, t.steps, Restrict(df, t.sourceColumns)).value.columns)
      ==> r.Err?
    ensures r.Ok? <==>
      var g := ApplySteps(reg, lib, t.steps, Restrict(df, t.sourceColumns));
      && g.Ok?
      && (forall i :: 0 <= i < |t.schema| ==> t.schema[i].0 in g.value.columns)
      && (forall i :: 0 <= i < |t.schema| && t.schema[i].1.dtype != "object" ==>
            Convert(t.schema[i].0, t.schema[i].1, cast, g.value.columns[t.schema[i].0]).Ok?)
    ensures r.Ok? ==> forall i :: 0 <= i < |t.schema| && t.schema[i].1.dtype != "object" ==>
      var g := ApplySteps(reg, lib, t.steps, Restrict(df, t.sourceColumns));
      g.Ok? && Convert(t.schema[i].0, t.schema[i].1, cast, g.value.columns[t.schema[i].0]) == Ok(r.value.columns[i].1)
  {
    var g :- ApplySteps(reg, lib, t.steps, Restrict(df, t.sourceColumns));
    var h :- ConvertColumns(t.schema, cast, g);
    var out := Project(t.schema, h);
    if out.Ok? then
      forall i | 0 <= i < |t.schema| && t.schema[i].1.dtype == "object"
        ensures out.value.columns[i].1 == g.columns[t.schema[i].0]
      {
        forall j | 0 <= j < |t.schema| && t.schema[j].0 == t.schema[i].0 ensures t.schema[j].1.dtype == "object" {
          if j != i { assert false; }
        }
      }
      out
    else out
  }

  /** A column of integer cells. */
  predicate IntColumn(df: Frame, c: string)
  {
    c in df.columns && forall k :: 0 <= k < |df.columns[c]| ==> df.columns[c][k].Int?
  }

  /** The configured `matches` entry: `column_sum` of wins, losses and draws. */
  const MatchesSpec := Spec(Some("column_sum"), Some(Columns(["wins", "losses", "draws"])), Some("matches"), None, None)

  /** A schema keeping `matches` as an object column. */
  const MatchesSchema: Schema := [("matches", ColSpec("object", None))]

  /** The transformer built from that entry keeps it as its one step and reads the three counts. */
  lemma MatchesInit()
    ensures Init([MatchesSpec], MatchesSchema).Ok?
    ensures var t := Init([MatchesSpec], MatchesSchema).value;
      t.schema == MatchesSchema && t.steps == [Normalize(MatchesSpec)] && {"wins", "losses", "draws"} <= t.sourceColumns
  {
    var step := Normalize(MatchesSpec);
    assert "column_sum" != "execute" && "column_sum" != "__init__";
    assert [MatchesSpec][..0] == [];
    assert Retained([MatchesSpec][..0]) == Ok([]);
    assert [] + [step] == [step];
    assert Retained([MatchesSpec]) == Ok([step]);
    var t := Init([MatchesSpec], MatchesSchema).value;
    assert t.steps[0] == step;
    assert SourcesOf(step.source) <= t.sourceColumns;
  }

  /** Row by row, the sum of the wins, losses and draws columns. */
  function CountsSum(df: Frame): (r: seq<Value>)
    requires Valid(df) && IntColumn(df, "wins") && IntColumn(df, "losses") && IntColumn(df, "draws")
    ensures |r| == df.height
    ensures forall k :: 0 <= k < df.height ==>
      r[k] == Int(df.columns["wins"][k].i + df.columns["losses"][k].i + df.columns["draws"][k].i)
  {
    seq(df.height, k requires 0 <= k < df.height =>
      Int(df.columns["wins"][k].i + df.columns["losses"][k].i + df.columns["draws"][k].i))
  }

  /** The step writes into `matches` the row-wise sum of the three integer columns. */
  lemma MatchesStepSums(f: Frame, reg: Registry, lib: Library)
    requires Valid(f)
    requires "column_sum" in reg && reg["column_sum"] == ColumnSum
    requires IntColumn(f, "wins") && IntColumn(f, "losses") && IntColumn(f, "draws")
    ensures var g := ApplySteps(reg, lib, [Normalize(MatchesSpec)], f);
      g.Ok? && "matches" in g.value.columns && g.value.columns["matches"] == CountsSum(f)
  {
    var step := Normalize(MatchesSpec);
    var input := Select(f, step.source).value;
    var sums := CountsSum(f);
    forall k | 0 <= k < f.height
      ensures RowSum(input.rows[k]) == Some(sums[k].i)
    {
      var w, l, d := f.columns["wins"][k], f.columns["losses"][k], f.columns["draws"][k];
      assert input.rows[k] == [w, l, d];
      RowSumOfThree(w.i, l.i, d.i);
    }
    var g := ApplyStep(reg, lib, step, f);
    assert g.Ok?;
    assert g.value.columns["matches"] == sums;
    assert [step][1..] == [];
    assert ApplySteps(reg, lib, [step], f) == g;
  }

  /**
   * End to end: with that one step and `matches` kept as an object column, every output
   * row holds the sum of the row's wins, losses and draws.
   */
  lemma MatchesSumResults(df: Frame, reg: Registry, lib: Library, cast: (string, Value) -> Option<Value>)
    requires Valid(df)
    requires "column_sum" in reg && reg["column_sum"] == ColumnSum
    requires IntColumn(df, "wins") && IntColumn(df, "losses") && IntColumn(df, "draws")
    ensures Init([MatchesSpec], MatchesSchema).Ok?
    ensures var r := Execute(Init([MatchesSpec], MatchesSchema).value, reg, lib, cast, df);
      r.Ok? && |r.value.columns| == 1 && r.value.columns[0] == ("matches", CountsSum(df))
  {
    MatchesInit();
    var t := Init([MatchesSpec], MatchesSchema).value;
    var f := Restrict(df, t.sourceColumns);
    assert f.columns["wins"] == df.columns["wins"] && f.columns["losses"] == df.columns["losses"];
    assert f.columns["draws"] == df.columns["draws"];
    MatchesStepSums(f, reg, lib);
    assert CountsSum(f) == CountsSum(df);
    MatchesSchemaObjects();
    assert t.steps == [Normalize(MatchesSpec)];
    var g := ApplySteps(reg, lib, t.steps, f).value;
    assert SchemaNames(t.schema) <= g.columns.Keys;
    ObjectSchemaKeeps(t, reg, lib, cast, df);
    var r := Execute(t, reg, lib, cast, df).value;
    assert |r.columns| == 1 && r.columns[0] == ("matches", CountsSum(df));
  }

  /** Every column of the schema is declared `object`, so `execute` converts none. */
  predicate ObjectsOnly(schema: Schema)
  {
    forall i :: 0 <= i < |schema| ==> schema[i].1.dtype == "object"
  }

  lemma MatchesSchemaObjects()
    ensures UniqueNames(MatchesSchema) && ObjectsOnly(MatchesSchema) && SchemaNames(MatchesSchema) == {"matches"}
  {
    assert MatchesSchema[0].0 == "matches";
  }

  /** With a schema of object columns only, `execute` outputs the transformed columns unconverted. */
  lemma ObjectSchemaKeeps(t: Transformer, reg: Registry, lib: Library, cast: (string, Value) -> Option<Value>, df: Frame)
    requires Valid(df) && UniqueNames(t.schema)
    requires ObjectsOnly(t.schema)
    requires var g := ApplySteps(reg, lib, t.steps, Restrict(df, t.sourceColumns));
      g.Ok? && SchemaNames(t.schema) <= g.value.columns.Keys
    ensures var r := Execute(t, reg, lib, cast, df);
      var g := ApplySteps(reg, lib, t.steps, Restrict(df, t.sourceColumns)).value;
      r.Ok? && forall i :: 0 <= i < |t.schema| ==> r.value.columns[i] == (t.schema[i].0, g.columns[t.schema[i].0])
  {
  }
}

=== FILE: values.dfy ===
/** Dynamically typed cell values, as they arrive from JSON and live in a dataframe. */
module Values {
  import opened Outcomes

  /**
   * One cell. `Null` stands for Python's `None` and pandas' missing markers alike. A
   * `Dict` lists the entries of a parsed JSON object, whose keys are distinct.
   */
  datatype Value =
    | Null
    | Bool(b: bool)
    | Int(i: int)
    | Str(s: string)
    | List(items: seq<Value>)
    | Dict(entries: seq<(string, Value)>)

  predicate IsNull(v: Value) { v.Null? }

  /** The value stored under `key` among the entries of an object, if any. */
  function Lookup(entries: seq<(string, Value)>, key: string): (r: Option<Value>)
    ensures r.None? <==> forall k :: 0 <= k < |entries| ==> entries[k].0 != key
    ensures r.Some? ==> exists k :: 0 <= k < |entries| && entries[k] == (key, r.value)
  {
    if |entries| == 0 then None
    else if entries[0].0 == key then Some(entries[0].1)
    else
      var r := Lookup(entries[1..], key);
      assert forall k :: 1 <= k < |entries| ==> entries[k] == entries[1..][k - 1];
      r
  }

  /** `v[key]`: defined when `v` is an object with that key; any other subscript raises. */
  function Field(v: Value, key: string): (r: Option<Value>)
    ensures r.Some? <==> v.Dict? && exists k :: 0 <= k < |v.entries| && v.entries[k].0 == key
    ensures r.Some? ==> exists k :: 0 <= k < |v.entries| && v.entries[k] == (key, r.value)
  {
    if v.Dict? then Lookup(v.entries, key) else None
  }

  /** `len(v)`: the length of a list, an object or a string; any other value has none. */
  function Size(v: Value): (r: Option<nat>)
    ensures r.Some? <==> v.List? || v.Dict? || v.Str?
    ensures v.List? ==> r == Some(|v.items|)
  {
    match v
    case List(items) => Some(|items|)
    case Dict(entries) => Some(|entries|)
    case Str(s) => Some(|s|)
    case _ => None
  }

  /** A value in arithmetic: an integer, or a boolean as 0 or 1; anything else raises `TypeError`. */
  function Number(v: Value): (r: Option<int>)
    ensures r.Some? <==> v.Int? || v.Bool?
    ensures v.Int? ==> r == Some(v.i)
    ensures v.Bool? ==> r == Some(if v.b then 1 else 0)
  {
    match v
    case Int(i) => Some(i)
    case Bool(b) => Some(if b then 1 else 0)
    case _ => None
  }
}

=== FILE: win_rate.dfy ===
/**
 * `ArchetypeWinRateAggregator.execute` of `aggregate/agg_arch_win_rate.py`: after the
 * "Both" duplication, decks with more than two matches are grouped by report key and
 * each group gets its player and deck counts, win and match sums, and the raw and
 * Laplace-smoothed win rates (exact quotients here).
 */
module WinRate {
  import opened Records
  import opened Aggregation

  /** The extra columns the aggregator selects besides the grouping columns. */
  const ExtraColumns: seq<string> := ["personId", "wins", "matches"]

  /** Minimum number of matches a deck needs, exclusive. */
  const MatchThreshold: int := 2

  datatype WinRateRow = WinRateRow(
    players: nat, decks: nat, wins: int, matches: int, winRate: real, smoothedWinRate: real)

  /** The aggregator's construction passes both fields, so it succeeds. */
  lemma ConstructionSucceeds()
    ensures Construct([GroupColumns, GroupColumns + ExtraColumns]).Ok?
    ensures "sourceName" in Construct([GroupColumns, GroupColumns + ExtraColumns]).value.sourceColumns
  {
    assert (GroupColumns + ExtraColumns)[1] == "sourceName";
  }

  /** The distinct people among a group's decks (`nunique` of personId). */
  function Persons(g: seq<Deck>): set<int>
  {
    set i | 0 <= i < |g| :: g[i].personId
  }

  /** A group never has more players than decks. */
  lemma {:induction false} PersonsAtMostDecks(g: seq<Deck>)
    ensures |Persons(g)| <= |g|
    decreases |g|
  {
    if |g| > 0 {
      var front := g[..|g| - 1];
      PersonsAtMostDecks(front);
      assert forall i :: 0 <= i < |front| ==> front[i] == g[i];
      assert Persons(g) == Persons(front) + {g[|g| - 1].personId};
    }
  }

  /** Every deck playing more than `t` matches makes the sum at least `(t + 1)` per deck. */
  lemma {:induction false} MatchesAtLeastPerDeck(g: seq<Deck>, t: int)
    requires forall i :: 0 <= i < |g| ==> g[i].matches > t
    ensures SumMatches(g) >= (t + 1) * |g|
    decreases |g|
  {
    if |g| > 0 {
      var front := g[..|g| - 1];
      assert forall i :: 0 <= i < |front| ==> front[i] == g[i];
      MatchesAtLeastPerDeck(front, t);
    }
  }

  /** Per-deck `0 <= wins <= matches` carries over to the sums. */
  lemma {:induction false} WinsWithinMatches(g: seq<Deck>)
    ensures (forall i :: 0 <= i < |g| ==> 0 <= g[i].wins <= g[i].matches) ==> 0 <= SumWins(g) <= SumMatches(g)
    decreases |g|
  {
    if |g| > 0 && forall i :: 0 <= i < |g| ==> 0 <= g[i].wins <= g[i].matches {
      var front := g[..|g| - 1];
      assert forall i :: 0 <= i < |front| ==> front[i] == g[i];
      WinsWithinMatches(front);
    }
  }

  /** A quotient of counts: a fraction of a positive denominator, in [0, 1] when the numerator lies within it. */
  function Rate(num: int, den: int): (q: real)
    requires den > 0
    ensures q * (den as real) == num as real
    ensures 0 <= num <= den ==> 0.0 <= q <= 1.0
    ensures 0 < num < den ==> 0.0 < q < 1.0
  {
    var n := num as real;
    var d := den as real;
    assert n / d * d == n;
    n / d
  }

  /** Every deck of `g` has more matches than the threshold. */
  predicate Played(g: seq<Deck>)
  {
    forall i :: 0 <= i < |g| ==> g[i].matches > MatchThreshold
  }

  /** A group of played rows is played. */
  lemma GroupRowsPlayed(rows: seq<Deck>, k: Key)
    requires Played(rows)
    ensures Played(GroupRows(rows, k))
  {
    var g := GroupRows(rows, k);
    forall i | 0 <= i < |g|
      ensures g[i].matches > MatchThreshold
    {
      var j :| 0 <= j < |rows| && rows[j] == g[i];
    }
  }

  /** The aggregates of one non-empty group of eligible decks. */
  function Summarize(g: seq<Deck>): (r: WinRateRow)
    requires |g| > 0
    requires Played(g)
    ensures r.decks == |g| && r.players == |Persons(g)| && 1 <= r.players <= r.decks
    ensures r.wins == SumWins(g) && r.matches == SumMatches(g)
    ensures r.matches >= 3 * r.decks > 0
    ensures r.winRate == Rate(r.wins, r.matches) && r.smoothedWinRate == Rate(r.wins + 1, r.matches + 2)
    ensures (forall i :: 0 <= i < |g| ==> 0 <= g[i].wins <= g[i].matches) ==>
      0.0 <= r.winRate <= 1.0 && 0.0 < r.smoothedWinRate < 1.0
  {
    PersonsAtMostDecks(g);
    assert g[0].personId in Persons(g);
    MatchesAtLeastPerDeck(g, 2);
    assert SumMatches(g) >= 3 * |g|;
    WinsWithinMatches(g);
    var wins := SumWins(g);
    var matches := SumMatches(g);
    WinRateRow(|Persons(g)|, |g|, wins, matches, Rate(wins, matches), Rate(wins + 1, matches + 2))
  }

  /** Deck `d` is eligible and contributes to group `k`, under its own source or as "Both". */
  predicate Feeds(d: Deck, k: Key)
  {
    d.matches > MatchThreshold && Labels(d, k)
  }

  /** The rows that survive the duplication and the match filter. */
  function Eligible(decks: seq<Deck>): seq<Deck>
  {
    MoreMatchesThan(WithBoth(decks), MatchThreshold)
  }

  /**
   * `execute`: one row per key that some eligible deck carries, either its own key or the
   * key relabelled "Both"; every row counts more than two matches per deck.
   */
  function Execute(decks: seq<Deck>): (r: map<Key, WinRateRow>)
    ensures forall k :: k in r <==> (exists i :: 0 <= i < |decks| && Feeds(decks[i], k))
    ensures forall k :: k in r ==> r[k].matches >= 3 * r[k].decks > 0 && 1 <= r[k].players <= r[k].decks
    ensures forall k :: k in r ==>
      var g := GroupRows(Eligible(decks), k);
      r[k].decks == |g| && r[k].players == |Persons(g)| && r[k].wins == SumWins(g) && r[k].matches == SumMatches(g)
    ensures forall k :: k in r ==>
      var g := GroupRows(Eligible(decks), k);
      |g| > 0 && Played(g) && r[k] == Summarize(g)
  {
    KeysOfEligible(decks);
    Summaries(Eligible(decks))
  }

  /** One summary per group of `rows`, each of the group's own rows. */
  function Summaries(rows: seq<Deck>): (r: map<Key, WinRateRow>)
    requires Played(rows)
    ensures forall k :: k in r <==> k in GroupKeys(rows)
    ensures forall k :: k in r ==>
      |GroupRows(rows, k)| > 0 && Played(GroupRows(rows, k)) && r[k] == Summarize(GroupRows(rows, k))
  {
    forall k | k in GroupKeys(rows)
      ensures |GroupRows(rows, k)| > 0 && Played(GroupRows(rows, k))
    {
      GroupOfKeyNonEmpty(rows, k);
      GroupRowsPlayed(rows, k);
    }
    map k | k in GroupKeys(rows) :: Summarize(GroupRows(rows, k))
  }

  /** Every eligible row comes from a deck that feeds the row's key. */
  lemma EligibleRowFed(decks: seq<Deck>, j: int)
    requires 0 <= j < |Eligible(decks)|
    ensures exists i :: 0 <= i < |decks| && Feeds(decks[i], KeyOf(Eligible(decks)[j]))
  {
    var rows := Eligible(decks);
    var w := WithBoth(decks);
    var k := KeyOf(rows[j]);
    var m :| 0 <= m < |w| && w[m] == rows[j];
    Origin(decks, m);
    var i := if m < |decks| then m else m - |decks|;
    assert Feeds(decks[i], k);
  }

  /** A deck feeding a key puts an eligible row with that key in place. */
  lemma FedKeyEligible(decks: seq<Deck>, i: int, k: Key)
    requires 0 <= i < |decks| && Feeds(decks[i], k)
    ensures k in GroupKeys(Eligible(decks))
  {
    var rows := Eligible(decks);
    var w := WithBoth(decks);
    var n := |decks|;
    if KeyOf(decks[i]) == k {
      assert w[n + i] == decks[i];
      assert w[n + i] in rows;
    } else {
      assert w[i] == decks[i].(sourceName := Both);
      assert w[i] in rows;
    }
  }

  /** The keys of the eligible rows, stated over the original decks. */
  lemma KeysOfEligible(decks: seq<Deck>)
    ensures forall k :: k in GroupKeys(Eligible(decks)) <==> (exists i :: 0 <= i < |decks| && Feeds(decks[i], k))
  {
    var rows := Eligible(decks);
    forall k | k in GroupKeys(rows)
      ensures (exists i :: 0 <= i < |decks| && Feeds(decks[i], k))
    {
      var j :| 0 <= j < |rows| && KeyOf(rows[j]) == k;
      EligibleRowFed(decks, j);
    }
    forall k, i | 0 <= i < |decks| && Feeds(decks[i], k)
      ensures k in GroupKeys(rows)
    {
      FedKeyEligible(decks, i, k);
    }
  }

  /** The eligible rows of a single deck are its "Both" copy and itself, in two separate groups. */
  lemma SingleDeckGroups(d: Deck)
    requires d.sourceName != Both && d.matches > MatchThreshold
    ensures var b := d.(sourceName := Both);
      GroupRows(Eligible([d]), KeyOf(d)) == [d] && GroupRows(Eligible([d]), KeyOf(b)) == [b]
  {
    var b := d.(sourceName := Both);
    var w := WithBoth([d]);
    assert w[0] == b && w[1] == d;
    assert w == [b, d];
    assert [b, d][..1] == [b] && [b][..0] == [];
    assert MoreMatchesThan([b], MatchThreshold) == [b];
    assert Eligible([d]) == [b, d];
    assert KeyOf(b) != KeyOf(d);
    assert GroupRows([b], KeyOf(d)) == [];
    assert GroupRows([b], KeyOf(b)) == [b];
  }

  /** A single deck with 3 wins in 4 matches: 3/4 raw and 4/6 smoothed. */
  lemma SingleDeckSummary(x: Deck)
    requires x.wins == 3 && x.matches == 4
    ensures Summarize([x]) == WinRateRow(1, 1, 3, 4, 0.75, 4.0 / 6.0)
  {
    var g := [x];
    assert g[..|g| - 1] == [];
    assert SumWins(g) == SumWins([]) + x.wins;
    assert SumMatches(g) == SumMatches([]) + x.matches;
    assert g[0].personId in Persons(g);
    assert Persons(g) == {x.personId};
  }

  /** A single League deck with 3 wins in 4 matches yields its League row and its "Both" row, each 3/4 raw and 4/6 smoothed. */
  lemma SingleDeckExample(d: Deck)
    requires d.sourceName == "League" && d.wins == 3 && d.matches == 4
    ensures var r := Execute([d]);
      KeyOf(d) in r && r[KeyOf(d)] == WinRateRow(1, 1, 3, 4, 0.75, 4.0 / 6.0) &&
      KeyOf(d.(sourceName := Both)) in r && r[KeyOf(d.(sourceName := Both))] == WinRateRow(1, 1, 3, 4, 0.75, 4.0 / 6.0)
  {
    var b := d.(sourceName := Both);
    SingleDeckGroups(d);
    SingleDeckSummary(d);
    SingleDeckSummary(b);
    assert Feeds([d][0], KeyOf(d)) && Feeds([d][0], KeyOf(b));
  }
}
